=== FILE: README.md ===
# Sthira storefront — a Dafny model

This project models the core of the Sthira clothing storefront. The storefront has two parts:

- an Express/Mongoose back end: products, orders and image uploads;
- a React front end: the shopping cart, the product card and product page, the cart page, checkout, registration, and the admin pages for products, orders, the dashboard and the admin shell.

Everything is pure functions over immutable data:

- A product or order collection is a `map` from id to record. A list the API returned is a `seq`.
- Prices are `real`, so all arithmetic is exact. Stocks and quantities are `int`.
- A JavaScript value that may be missing is an `Option`. "Truthy" becomes "present and non-empty / non-zero".
- An API answer is a `Response`: `Ok(status, body)` or `Fail(status, message)`.
- Clocks (`Date.now()`), database ids and server replies are parameters.

Modules, following the program's files:

| module | file | models |
|---|---|---|
| `Common` | common.dfy | options, responses, and the string helpers the pages use (prefix test, substring, case mapping, trim, split/join, decimal digits) |
| `Pricing` | pricing.dfy | the effective price after a percentage discount, shipping, tax, the totals on the cart and checkout pages, and the price display |
| `Catalog` | catalog.dfy | the product schema and the product controller (create, list with filter and sort, get, update, delete) |
| `Cart` | cart.dfy | the cart context: add, remove, set quantity, clear, total, count |
| `Orders` | orders.dfy | the order schema and the order controller (create, get, list mine, pay, deliver) |
| `Checkout` | checkout.dfy | the checkout page: the order payload built from the cart and its submit |
| `CartPage` | cartpage.dfy | the cart page: the summary, per-row prices, the quantity buttons |
| `ProductCard` | productcard.dfy | the product card and its quick-add button |
| `ProductDetail` | productdetail.dfy | the product page: size, colour and quantity selection, and add to cart |
| `ProductForm` | productform.dfy | the admin product form: loading a product into text fields, parsing them back (`parseInt`, comma lists), create or update |
| `Upload` | upload.dfy | the upload middleware: `path.extname`, the stored file name, the file-type filter |
| `Register` | register.dfy | the registration page: validation, the redirect after success, the login link |
| `AdminOrders` | adminorders.dfy | the admin order table and "Mark Delivered" |
| `AdminDashboard` | admindashboard.dfy | the dashboard stat cards and the recent-orders table |
| `AdminLayout` | adminlayout.dfy | the admin guard and the sidebar's active-link highlighting |

Behaviours of the code that the model makes explicit:

- The cart is keyed by (product id, size, colour). The cart's operations keep those keys unique.
- The checkout payload's items add up to the cart total. The stored order keeps those items.
- The server never cross-checks the client's prices.
- Paying or delivering an order again overwrites its timestamps.
- A delivery does not require a payment.
- The dashboard's revenue counts unpaid orders.
- The default product image, which is already a path, gets the `/uploads/` prefix a second time.
- After registering with no redirect parameter, the page navigates to `//`.
- The upload filter lower-cases the extension but not the mimetype. Its pattern is unanchored.
- The admin sidebar highlights by plain prefix: "Products" is also lit on the add-product page.
- The product card and product page show a 100 percent discount's "-100%" badge next to the full price, with nothing struck through.
- On the registration page the browser's `minLength` stops a short password before the handler's own length message can show.

## Model

| member | source | states |
|---|---|---|
| Pricing.EffectivePrice | frontend/src/context/CartContext.jsx:103-105 | no discount leaves the price as it is; a discount between 0 and 100 percent gives a price between 0 and the list price |
| Pricing.Shipping | frontend/src/pages/Checkout/Checkout.jsx:25 | shipping is free exactly when the subtotal is above 2000, and 99 otherwise (2000 itself pays 99) |
| Pricing.Tax | frontend/src/pages/Checkout/Checkout.jsx:26 | the tax is 18 percent of the subtotal; it is never negative and never more than a non-negative subtotal |
| Pricing.CheckoutTotal | frontend/src/pages/Checkout/Checkout.jsx:24-27 | the checkout total is 1.18 times the subtotal, plus 99 unless the subtotal is above 2000 |
| Pricing.CartPageTotal | frontend/src/pages/Cart/Cart.jsx:9-11 | the cart page's total is the checkout total less the tax, which the cart page leaves out |
| Pricing.FreeShippingGap | frontend/src/pages/Cart/Cart.jsx:125-129 | the "add more for free shipping" note appears exactly when shipping is charged; its amount brings the subtotal to exactly 2000 |
| Pricing.DisplayedPrice | frontend/src/components/ProductCard/ProductCard.jsx:11-83 | as written, a struck-through original price is shown only when the discount is positive and the discounted price is non-zero; otherwise the list price is shown |
| Pricing.IntendedDisplayedPrice | frontend/src/pages/Cart/Cart.jsx:61-67 | the corrected display: the discounted price always, with the original struck through exactly when the discount is positive |
| Pricing.FullDiscountDisplaysFullPrice | frontend/src/pages/ProductDetail/ProductDetail.jsx:43-114 | at price 500 with a 100 percent discount the page shows 500 with no strike-through, although the price is 0 |
| Pricing.DisplaysAgreeUnlessFree | frontend/src/components/ProductCard/ProductCard.jsx:11-13 | the display as written and the corrected one differ only when a positive discount makes the price exactly 0 |
| Pricing.CheckoutExamples | frontend/src/pages/Checkout/Checkout.jsx:24-27 | worked values: shipping 99 at 1999 and 2000 and free at 2001; subtotal 1000 totals 1279; 20 percent off 1000, times 3, is 2400 |
| Catalog.ValidCategory | backend/src/models/Product.js:21-25 | the category enum is exactly "men", "women", "kids" and "accessories", and every valid category is truthy |
| Catalog.SchemaValid | backend/src/models/Product.js:5-45 | a valid product has truthy name, description and category and a category in the enum; a price of 0 still passes, since a required number only has to be present |
| Catalog.CreateProduct | backend/src/controllers/productController.js:7-38 | 400 with "All fields are required" exactly when name, description, price or category is missing or falsy; 500 with the validation message for a category outside the enum; otherwise 201 with the new product, which has the body's name, description, price, category and discount (0 when absent), the given image or the default one, and the schema's stock, sizes and colours whatever the body says; a failure leaves the store alone; the id is a fresh one and no stored product changes |
| Catalog.CreateKeepsSchema | backend/src/models/Product.js:3-45 | creating a product keeps every stored product within the schema: non-empty name, description and image, and a category in the enum |
| Catalog.ImageSrc | frontend/src/components/ProductCard/ProductCard.jsx:31 | an image starting with "http" is used as is; any other image is the text after the "/uploads/" prefix |
| Catalog.DefaultImageDoublePrefixed | backend/src/controllers/productController.js:23 | the default image "/uploads/default.jpg" is shown as "/uploads//uploads/default.jpg" |
| Catalog.FilterCategory | backend/src/controllers/productController.js:59 | the filtered list holds exactly the products of the category, each as often as in the input |
| Catalog.FilterAppend | backend/src/controllers/productController.js:59 | the filter keeps store order: filtering two listings one after the other gives the first's products followed by the second's |
| Catalog.FilterKeepsCategory | backend/src/controllers/productController.js:59 | a listing of one category passes its filter unchanged, in the same order |
| Catalog.InsertByPrice | backend/src/controllers/productController.js:60-61 | inserting into a price-sorted list keeps it sorted and adds exactly one element |
| Catalog.SortByPrice | backend/src/controllers/productController.js:60-61 | the result is sorted by price in the asked direction and is a permutation of the input |
| Catalog.GetProducts | backend/src/controllers/productController.js:56-67 | the listing holds exactly the products of the requested category (all when none is given, as a permutation); "price_asc" and "price_desc" sort it; any other sort value leaves store order: the category's products as filtered, or the whole list unchanged when there is no category |
| Catalog.GetProductById | backend/src/controllers/productController.js:71-79 | 404 exactly when the id is unknown, else 200 with the stored product |
| Catalog.ApplyBody | backend/src/controllers/productController.js:84-86 | each field the body gives replaces the stored one; each absent field keeps its value; the id never changes |
| Catalog.UpdateProduct | backend/src/controllers/productController.js:82-92 | unknown id: 404 and the store unchanged; known id: 200, the stored product becomes the body written over it, that record is returned, and no other product changes |
| Catalog.UpdateIdempotent | backend/src/controllers/productController.js:84-86 | applying the same update twice gives the store and answer of applying it once |
| Catalog.EmptyUpdateChangesNothing | backend/src/controllers/productController.js:84-86 | an update with no fields leaves the store as it was |
| Catalog.UpdateCanLeaveEnum | backend/src/models/Product.js:21-25 | an update is not validated against the schema: it can store a category outside the enum |
| Catalog.DeleteProduct | backend/src/controllers/productController.js:95-103 | unknown id: 404 and nothing changes; known id: 200 and exactly that id is gone; every other product is kept as it was |
| Cart.FindIndex | frontend/src/context/CartContext.jsx:41-43 | the index of the first line with the key, or -1 exactly when there is none |
| Cart.FirstMatch | frontend/src/context/CartContext.jsx:41-43 | the first position holding the key is the one found |
| Cart.UniqueIndex | frontend/src/context/CartContext.jsx:41-50 | in a cart with unique keys, any position holding the key is the one found |
| Cart.CartTotal | frontend/src/context/CartContext.jsx:101-108 | the total of sane lines (non-negative price, discount between 0 and 100, quantity at least 1) is non-negative |
| Cart.CartCount | frontend/src/context/CartContext.jsx:110-112 | with every quantity at least 1, the count is at least the number of lines |
| Cart.TotalAppend | frontend/src/context/CartContext.jsx:101-112 | the total and count of two carts one after the other are the sums of theirs |
| Cart.TotalSnoc | frontend/src/context/CartContext.jsx:101-112 | appending a line adds its subtotal and its quantity |
| Cart.TotalReplace | frontend/src/context/CartContext.jsx:101-112 | replacing a line moves the total and count by the difference of the two lines |
| Cart.TotalDelete | frontend/src/context/CartContext.jsx:101-112 | removing a line takes away exactly its subtotal and its quantity |
| Cart.AddToCart | frontend/src/context/CartContext.jsx:39-65 | afterwards the key is in the cart and keys stay unique; an existing line grows by the quantity in place and nothing else changes; otherwise a new line, copied from the product with a missing discount as 0, is appended |
| Cart.AddToCartDefaults | frontend/src/context/CartContext.jsx:39 | missing arguments default to quantity 1, size "M" and no colour |
| Cart.AddCount | frontend/src/context/CartContext.jsx:45-63 | adding raises the count by exactly the quantity added |
| Cart.SubtotalGrow | frontend/src/context/CartContext.jsx:103-106 | a line's subtotal is additive in its quantity |
| Cart.AddTotal | frontend/src/context/CartContext.jsx:39-65 | adding raises the total by the new quantity at the line's effective price |
| Cart.RemoveFromCart | frontend/src/context/CartContext.jsx:67-79 | removing never lengthens the cart (what remains is stated by Cart.RemoveMembers) |
| Cart.RemoveMembers | frontend/src/context/CartContext.jsx:67-79 | exactly the lines with other keys remain; the key is gone |
| Cart.RemoveBeforeFirst | frontend/src/context/CartContext.jsx:75-77 | the lines before the first line with the key are kept in order, the first such line is dropped, and removal carries on in the rest |
| Cart.RemoveAbsent | frontend/src/context/CartContext.jsx:75-77 | removing a key the cart lacks changes nothing |
| Cart.RemoveSplice | frontend/src/context/CartContext.jsx:75-77 | in a cart with unique keys, removing a key cuts out exactly its one line and keeps the order of the rest |
| Cart.RemoveKeepsUnique | frontend/src/context/CartContext.jsx:67-79 | removing keeps keys unique |
| Cart.RemoveTotal | frontend/src/context/CartContext.jsx:67-79 | removing a line lowers the total and count by exactly that line's subtotal and quantity |
| Cart.SetQuantity | frontend/src/context/CartContext.jsx:87-93 | the matching line gets the new quantity; every other line and every key stays as it was |
| Cart.UpdateQuantity | frontend/src/context/CartContext.jsx:81-94 | a quantity below 1 is exactly removeFromCart of that identity (so the removal lemmas carry over); any other quantity sets it in place; keys stay unique; the key remains exactly when it was there and the quantity is at least 1 |
| Cart.UpdateCount | frontend/src/context/CartContext.jsx:87-93 | setting a line's quantity moves the count by the difference |
| Cart.ClearCart | frontend/src/context/CartContext.jsx:96-99 | the cleared cart has total 0, count 0 and unique keys |
| Cart.AddAllOneLine | frontend/src/context/CartContext.jsx:41-50 | repeated adds of one product, size and colour make one line, whose quantity is the sum of the adds |
| Cart.TotalExample | frontend/src/context/CartContext.jsx:101-108 | three of a 1000 item at 20 percent off total 2400 |
| Orders.SchemaValid | backend/src/models/orderModel.js:5-35 | an order the schema accepts has a user, a payment method and a quantity and price on every item; the item list itself is not required, so an empty one passes when the rest is valid |
| Orders.Initial | backend/src/models/orderModel.js:38-97 | the defaults a new order is saved with are coherent: unpaid with no payment time or result, undelivered with no delivery time and a status other than "Delivered" |
| Orders.ToItem | backend/src/models/orderModel.js:12-23 | a stored item keeps the name, quantity, price and product reference it was given |
| Orders.ToItems | backend/src/models/orderModel.js:12-23 | the stored items correspond one for one, in order, to the body's items |
| Orders.CreateOrder | backend/src/controllers/orderController.js:6-38 | 400 exactly when the items are missing or empty; 500 with the validation message when non-empty items come with a body that breaks the schema; otherwise 201 with an order for the signed-in user that is unpaid, undelivered, "Processing", with the body's items, address, method and prices (missing prices as 0); a failure leaves the store alone; the id is a fresh one and no stored order changes |
| Orders.TotalNotCrossChecked | backend/src/controllers/orderController.js:22-31 | a total that does not match the items is stored as sent |
| Orders.PaymentStatusOf | backend/src/controllers/orderController.js:89 | the payment status is the gateway's status when it gives a non-empty one, and never empty |
| Orders.Pay | backend/src/controllers/orderController.js:80-89 | the order is paid at the given time with the gateway's result and status; its content and delivery fields are unchanged |
| Orders.Deliver | backend/src/controllers/orderController.js:106-110 | the order is delivered at the given time with status "Delivered"; its content and payment fields are unchanged |
| Orders.UpdateOrderToPaid | backend/src/controllers/orderController.js:76-99 | unknown id: 404 and the store unchanged; known id: only that order is paid, and it is returned |
| Orders.UpdateOrderToDelivered | backend/src/controllers/orderController.js:102-119 | unknown id: 404 and the store unchanged; known id: only that order is delivered, and it is returned |
| Orders.RepayOverwrites | backend/src/controllers/orderController.js:80-91 | paying twice keeps the second time and the second result: an order's payment can be overwritten |
| Orders.RedeliverRestamps | backend/src/controllers/orderController.js:106-112 | delivering twice moves the delivery time to the second call |
| Orders.PayDeliverCommute | backend/src/controllers/orderController.js:80-110 | paying then delivering gives the same store as delivering then paying |
| Orders.DeliverWithoutPayment | backend/src/controllers/orderController.js:106-110 | an unpaid order can be delivered and stays unpaid |
| Orders.CoherenceKept | backend/src/models/orderModel.js:38-97 | create, pay and deliver keep every order's status fields coherent: paid exactly when it has a payment time and a payment result, delivered exactly when it has a delivery time and the status "Delivered" |
| Orders.TransitionsKeepPrices | backend/src/controllers/orderController.js:80-110 | paying and delivering keep an order's prices adding up |
| Orders.GetOrderById | backend/src/controllers/orderController.js:61-73 | 404 exactly when the id is unknown, else 200 with the stored order |
| Orders.GetMyOrders | backend/src/controllers/orderController.js:41-48 | exactly the orders of the signed-in user, in store order (the order itself by Orders.GetMyOrdersAppend) |
| Orders.GetMyOrdersAppend | backend/src/controllers/orderController.js:41-48 | the user's orders of two listings one after the other are the first's followed by the second's, so store order is kept |
| Orders.GetMyOrdersKeepsOwn | backend/src/controllers/orderController.js:41-48 | a listing holding only the user's orders comes back whole and in order |
| Checkout.OrderItemOf | frontend/src/pages/Checkout/Checkout.jsx:51-58 | an order item carries the line's name, product id and quantity, and the effective unit price (the list price when there is no discount) |
| Checkout.ItemsOf | frontend/src/pages/Checkout/Checkout.jsx:51-58 | one order item per cart line, in cart order |
| Checkout.ItemAmountOfLine | frontend/src/pages/Checkout/Checkout.jsx:54-56 | an item's price times its quantity is the line's subtotal |
| Checkout.PayloadMatchesCart | frontend/src/pages/Checkout/Checkout.jsx:51-66 | the payload's items add up to the cart total the page sends as the items price |
| Checkout.StoredMatchesPayload | backend/src/controllers/orderController.js:22-31 | stored items that copy the payload's price and quantity add up to the same amount |
| Checkout.BuildOrderBody | frontend/src/pages/Checkout/Checkout.jsx:50-70 | the body carries the cart's items, the form's address and payment method, and prices whose total is the items price plus tax plus shipping |
| Checkout.PayloadExample | frontend/src/pages/Checkout/Checkout.jsx:24-27 | one item of 1000 gives items 1000, tax 180, shipping 99, total 1279 |
| Checkout.HandleSubmit | frontend/src/pages/Checkout/Checkout.jsx:33-80 | a signed-out user goes to "/login?redirect=checkout"; an empty cart shows "Your cart is empty"; only a signed-in user with items sends a request, built from the cart and form; the cart is cleared only after the order is created, and then the page goes to the order's success page; a rejection shows the server's message or the fallback |
| Checkout.CheckoutOrderConsistent | frontend/src/pages/Checkout/Checkout.jsx:50-74 | the order created from a checkout has items adding up to the cart total and prices adding up to its total |
| CartPage.SummaryOf | frontend/src/pages/Cart/Cart.jsx:9-11 | the summary's subtotal is the cart total, shipping follows the 2000 threshold, the total is subtotal plus shipping (the checkout total less tax), and the free-shipping note makes up the difference to 2000 |
| CartPage.GapAtThreshold | frontend/src/pages/Cart/Cart.jsx:125-129 | at exactly 2000 the page still charges 99 and asks for 0 more |
| CartPage.RowPriceOf | frontend/src/pages/Cart/Cart.jsx:40-42 | a row shows the effective unit price, the original struck through exactly when the discount is positive, and the line's subtotal |
| CartPage.RowSubtotals | frontend/src/pages/Cart/Cart.jsx:91 | one subtotal per row, each the row's line subtotal |
| CartPage.RowsAddUp | frontend/src/pages/Cart/Cart.jsx:91 | the row subtotals add up to the summary's subtotal |
| CartPage.HeaderCount | frontend/src/pages/Cart/Cart.jsx:34 | the header counts lines, not pieces: it is at most the cart count, and 0 only for an empty cart |
| CartPage.HeaderCountsLines | frontend/src/pages/Cart/Cart.jsx:34 | one line of three pieces shows "1 items" while the cart count is 3 |
| CartPage.DecrementEnabled | frontend/src/pages/Cart/Cart.jsx:73-79 | the minus button is enabled exactly when one unit less still leaves one |
| CartPage.IncrementEnabled | frontend/src/pages/Cart/Cart.jsx:81-87 | the plus button is enabled exactly when one unit more still fits the line's stock snapshot |
| CartPage.Apply | frontend/src/pages/Cart/Cart.jsx:73-108 | a disabled button does nothing; a click on a missing row does nothing; clear empties the cart |
| CartPage.ApplyKeys | frontend/src/pages/Cart/Cart.jsx:73-100 | minus never takes its row's product id, size and colour out of the cart; remove always does |
| CartPage.ApplyMinusStep | frontend/src/pages/Cart/Cart.jsx:73-79 | an enabled minus asks the cart to set that line's identity to one unit less |
| CartPage.ApplyPlusStep | frontend/src/pages/Cart/Cart.jsx:81-87 | an enabled plus asks the cart to set that line's identity to one unit more |
| CartPage.ApplyRemoveStep | frontend/src/pages/Cart/Cart.jsx:94-100 | the remove button removes by the row's product id, size and colour |
| CartPage.ApplyKeepsUnique | frontend/src/pages/Cart/Cart.jsx:73-108 | no click puts two lines with the same product id, size and colour into the cart |
| CartPage.UpdateAt | frontend/src/context/CartContext.jsx:87-93 | setting the quantity of the line at a position only changes that line's quantity |
| CartPage.MinusKeepsLine | frontend/src/pages/Cart/Cart.jsx:73-79 | an enabled minus lowers that line by one and the count by one |
| CartPage.PlusRaisesLine | frontend/src/pages/Cart/Cart.jsx:81-87 | an enabled plus raises that line by one and the count by one |
| CartPage.MinusLowersTotal | frontend/src/pages/Cart/Cart.jsx:73-79 | an enabled minus lowers the cart total by exactly one unit of that line's effective price |
| CartPage.PlusRaisesTotal | frontend/src/pages/Cart/Cart.jsx:81-87 | an enabled plus raises the cart total by exactly one unit of that line's effective price |
| CartPage.RemoveKeeps | frontend/src/pages/Cart/Cart.jsx:94-100 | removing keeps every quantity positive and within stock |
| CartPage.ApplyKeeps | frontend/src/pages/Cart/Cart.jsx:73-108 | any click keeps every quantity between 1 and the line's stock |
| CartPage.ApplyAllKeeps | frontend/src/pages/Cart/Cart.jsx:73-108 | any run of clicks keeps keys unique and every quantity between 1 and the line's stock |
| ProductCard.SaleBadge | frontend/src/components/ProductCard/ProductCard.jsx:38-42 | the badge shows the discount percentage exactly for a positive discount |
| ProductCard.CardOf | frontend/src/components/ProductCard/ProductCard.jsx:11-83 | the sale badge shows exactly for a positive discount, "Sold Out" exactly at stock 0, quick add is enabled exactly when not sold out; the discounted price with the list price struck through shows exactly when the discount is positive and the discounted price is non-zero, and otherwise the list price alone |
| ProductCard.FreeCardShowsFullPrice | frontend/src/components/ProductCard/ProductCard.jsx:11-83 | price 500 at discount 100: the "-100%" badge shows beside 500, nothing is struck through, and the cart would charge 0 |
| ProductCard.IntendedCardOf | frontend/src/components/ProductCard/ProductCard.jsx:38-83 | the corrected card: the list price is struck through exactly when the badge shows, and the price shown is the effective price |
| ProductCard.CardsAgreeUnlessFree | frontend/src/components/ProductCard/ProductCard.jsx:11-83 | the corrected card equals the card as written exactly when no positive discount brings the price to 0 |
| ProductCard.QuickAdd | frontend/src/components/ProductCard/ProductCard.jsx:15-19 | a sold-out product leaves the cart alone; otherwise one piece in size "M" with no colour is added and the count rises by 1 |
| ProductCard.QuickAddNewLine | frontend/src/components/ProductCard/ProductCard.jsx:15-19 | the first quick add appends one line of quantity 1 |
| ProductCard.QuickAddTwice | frontend/src/components/ProductCard/ProductCard.jsx:15-19 | two quick adds make one line of quantity 2 |
| ProductDetail.Loaded | frontend/src/pages/ProductDetail/ProductDetail.jsx:15-26 | a loaded page selects size "M", quantity 1, and the first colour when there is one |
| ProductDetail.MinusEnabled | frontend/src/pages/ProductDetail/ProductDetail.jsx:160-166 | the minus button is enabled exactly when one unit less still leaves one, and then Math.max(1, ..) does not clamp |
| ProductDetail.PlusEnabled | frontend/src/pages/ProductDetail/ProductDetail.jsx:168-174 | the plus button is enabled exactly when one unit more still fits the stock, and then Math.min(stock, ..) does not clamp |
| ProductDetail.Step | frontend/src/pages/ProductDetail/ProductDetail.jsx:121-174 | minus goes down to at least 1 and plus up to at most the stock, each only when enabled; picking a size or colour changes only that choice |
| ProductDetail.StepInRange | frontend/src/pages/ProductDetail/ProductDetail.jsx:160-174 | no action takes the quantity outside its range |
| ProductDetail.RunInRange | frontend/src/pages/ProductDetail/ProductDetail.jsx:160-174 | after any run of actions on an in-stock product the quantity is between 1 and the stock |
| ProductDetail.PlusReachesStock | frontend/src/pages/ProductDetail/ProductDetail.jsx:168-174 | at stock 3, three presses of plus from 1 end at 3: the third press is refused (the general bound is ProductDetail.RunInRange's) |
| ProductDetail.DefaultSizeUnlisted | frontend/src/pages/ProductDetail/ProductDetail.jsx:15-26 | a product without size "M" still starts with "M" selected |
| ProductDetail.ViewOf | frontend/src/pages/ProductDetail/ProductDetail.jsx:43-206 | the image source; the badge exactly for a positive discount; the discounted price with the list price struck through exactly when the discount is positive and the discounted price is non-zero, otherwise the list price alone; the low-stock warning for stock 1 to 9; add-to-cart enabled exactly when stock is not 0 |
| ProductDetail.IntendedViewOf | frontend/src/pages/ProductDetail/ProductDetail.jsx:96-114 | the corrected page: the list price is struck through exactly when the badge shows, and the price shown is the effective price |
| ProductDetail.ViewsAgreeUnlessFree | frontend/src/pages/ProductDetail/ProductDetail.jsx:43-114 | the corrected page equals the page as written exactly when no positive discount brings the price to 0 |
| ProductDetail.AddSelection | frontend/src/pages/ProductDetail/ProductDetail.jsx:37-41 | add to cart puts the selected size, colour and quantity in the cart unless the product is sold out |
| ProductDetail.AddedWithinStock | frontend/src/pages/ProductDetail/ProductDetail.jsx:37-41 | a new line added after any run of selections has a quantity between 1 and the stock |
| ProductForm.CleanPieces | frontend/src/pages/Admin/AdminProductForm.jsx:76-77 | never more pieces than were given (what they are is stated by ProductForm.CleanPiecesClean) |
| ProductForm.CleanPiecesClean | frontend/src/pages/Admin/AdminProductForm.jsx:76-77 | comma-free pieces clean to trimmed, non-empty, comma-free labels |
| ProductForm.CleanPiecesAppend | frontend/src/pages/Admin/AdminProductForm.jsx:76-77 | cleaning distributes over concatenation |
| ProductForm.CleanPiecesOfClean | frontend/src/pages/Admin/AdminProductForm.jsx:76-77 | cleaning already clean pieces changes nothing |
| ProductForm.ParseList | frontend/src/pages/Admin/AdminProductForm.jsx:76-77 | a parsed list holds only trimmed, non-empty entries without commas |
| ProductForm.ParseListConcat | frontend/src/pages/Admin/AdminProductForm.jsx:76 | parsing two texts joined by a comma is parsing each and concatenating |
| ProductForm.ParseJoin | frontend/src/pages/Admin/AdminProductForm.jsx:46-47 | a clean list joined with commas parses back to itself |
| ProductForm.ParseJoinParse | frontend/src/pages/Admin/AdminProductForm.jsx:46-77 | parsing, joining and parsing again gives the first parse |
| ProductForm.IntToString | frontend/src/pages/Admin/AdminProductForm.jsx:45 | a whole number prints as its digits, with a minus sign when negative |
| ProductForm.ParseIntToString | frontend/src/pages/Admin/AdminProductForm.jsx:45-75 | the printed stock reads back as the same number |
| ProductForm.ParseIntTruncates | frontend/src/pages/Admin/AdminProductForm.jsx:75 | parseInt stops at the decimal point: "d.f" reads as the number d |
| ProductForm.ParseIntFractionExample | frontend/src/pages/Admin/AdminProductForm.jsx:75 | "12.7" gives stock 12 |
| ProductForm.ParseInt | frontend/src/pages/Admin/AdminProductForm.jsx:75 | a text that parses begins, after its leading white space, with a digit or a sign |
| ProductForm.ParseSigned | frontend/src/pages/Admin/AdminProductForm.jsx:75 | once the white space is gone, a text that parses begins with a digit or a sign |
| ProductForm.ParseIntSkipsSpace | frontend/src/pages/Admin/AdminProductForm.jsx:75 | a leading white-space character changes nothing: " -7" reads as "-7" does |
| ProductForm.ParseIntMinus | frontend/src/pages/Admin/AdminProductForm.jsx:75 | a minus sign negates the number its digits read as |
| ProductForm.ParseIntUnsigned | frontend/src/pages/Admin/AdminProductForm.jsx:75 | a text opening with a digit reads as its unsigned value |
| ProductForm.ParseUnsigned | frontend/src/pages/Admin/AdminProductForm.jsx:75 | a number is read only from a text opening with a digit; one opening with a digit and no "0x" always reads; "0x" with no hex digit after it is NaN |
| ProductForm.ParseUnsignedDigits | frontend/src/pages/Admin/AdminProductForm.jsx:75 | a run of decimal digits followed by a non-digit (and not "0x") reads as the digits' decimal value |
| ProductForm.ParseUnsignedNatToString | frontend/src/pages/Admin/AdminProductForm.jsx:45-75 | a printed non-negative number reads back as itself |
| ProductForm.StockOfDigits | frontend/src/pages/Admin/AdminProductForm.jsx:75 | a stock text of digits followed by a non-digit gives that number as the stock |
| ProductForm.ParseIntHexExample | frontend/src/pages/Admin/AdminProductForm.jsx:75 | a "0x" prefix switches to base 16: "0x1A" reads as 26 |
| ProductForm.ParseIntNaNExample | frontend/src/pages/Admin/AdminProductForm.jsx:75 | "abc" does not parse, and the stock falls back to 0 |
| ProductForm.StockOf | frontend/src/pages/Admin/AdminProductForm.jsx:75 | the stock is the parsed number, or 0 when the text does not parse |
| ProductForm.DiscountOf | frontend/src/pages/Admin/AdminProductForm.jsx:72 | the discount is the parsed number, or 0 when the text does not parse |
| ProductForm.ListText | frontend/src/pages/Admin/AdminProductForm.jsx:46-47 | an empty list shows the fallback; a clean non-empty list shows its comma join (the `||` fallback never fires for it) |
| ProductForm.ListTextRoundTrip | frontend/src/pages/Admin/AdminProductForm.jsx:46-47 | a loaded list parses back to the stored list; an empty one parses to the fallback |
| ProductForm.JoinDefaultSizes | frontend/src/pages/Admin/AdminProductForm.jsx:24 | the form's default sizes text is the schema's default sizes joined with commas |
| ProductForm.DefaultSizesParse | frontend/src/pages/Admin/AdminProductForm.jsx:24 | the default sizes text parses to the schema's default sizes |
| ProductForm.LoadForm | frontend/src/pages/Admin/AdminProductForm.jsx:38-48 | the form shows the product's text fields; its stock, sizes and colours parse back to the product's (an empty size list becomes the default sizes) |
| ProductForm.BuildBody | frontend/src/pages/Admin/AdminProductForm.jsx:68-78 | the request body carries the text fields as typed, the parsed price, the discount or 0, the parsed stock or 0, and clean size and colour lists |
| ProductForm.IsEdit | frontend/src/pages/Admin/AdminProductForm.jsx:10 | edit mode needs a route id, and an empty id is not one |
| ProductForm.SubmitCall | frontend/src/pages/Admin/AdminProductForm.jsx:80-84 | with a route id the form updates that product, without one it creates; either way it sends the built body |
| ProductForm.AfterSave | frontend/src/pages/Admin/AdminProductForm.jsx:86-88 | success goes to "/admin/products"; failure shows the server's message or a non-empty fallback |
| ProductForm.FormCreates | frontend/src/pages/Admin/AdminProductForm.jsx:68-84 | a new-product form with a name, a description, a non-zero price and a known category is created |
| ProductForm.CreateIgnoresFormLists | backend/src/controllers/productController.js:17-24 | a product created from the form keeps none of the stock, sizes or colours the form sent |
| ProductForm.NewFormStockDropped | frontend/src/pages/Admin/AdminProductForm.jsx:16-26 | a new product created with the form's default stock "10" is stored with stock 0 |
| ProductForm.StockTenText | frontend/src/pages/Admin/AdminProductForm.jsx:23 | the default stock text reads as 10 |
| ProductForm.UpdateWithOwnFields | backend/src/controllers/productController.js:84-86 | updating a product with all of its own fields leaves the store unchanged |
| ProductForm.LoadThenBuild | frontend/src/pages/Admin/AdminProductForm.jsx:38-78 | loading a product and saving it untouched sends back its own fields |
| ProductForm.EditCall | frontend/src/pages/Admin/AdminProductForm.jsx:62-84 | editing without changes sends an update of that product with its own fields |
| ProductForm.EditRoundTrip | frontend/src/pages/Admin/AdminProductForm.jsx:38-84 | opening a product in the editor and saving without changes leaves the store unchanged |
| ProductForm.EditFillsDefaultSizes | frontend/src/pages/Admin/AdminProductForm.jsx:46 | saving a product with no sizes, untouched, stores the default sizes |
| Upload.Extname | backend/src/middleware/uploadMiddleware.js:13 | the extension is empty, or a dot followed by no dot or slash, and it ends the file's last path component |
| Upload.ExtnameOfStem | backend/src/middleware/uploadMiddleware.js:13 | a dot-free, slash-free stem followed by an extension has exactly that extension |
| Upload.StoredName | backend/src/middleware/uploadMiddleware.js:10-15 | the stored name starts with the field name and a dash |
| Upload.StoredNameReadBack | backend/src/middleware/uploadMiddleware.js:10-15 | the stored name's digits read back as the clock reading, and its extension is the original's |
| Upload.ImageType | backend/src/middleware/uploadMiddleware.js:20 | a text matching the unanchored pattern is at least three characters long and contains a 'p' |
| Upload.NoImageLetters | backend/src/middleware/uploadMiddleware.js:20 | text with no lower-case 'j' or 'p' cannot match the pattern |
| Upload.CheckFileType | backend/src/middleware/uploadMiddleware.js:19-31 | accepted exactly when the lower-cased extension and the mimetype as sent both contain jpg, jpeg or png; a rejection carries the "Images only" message; no extension is rejected |
| Upload.AcceptedStoredAsImage | backend/src/middleware/uploadMiddleware.js:10-31 | an accepted upload is stored under a name whose extension still passes the test |
| Upload.PngMimetype | backend/src/middleware/uploadMiddleware.js:24 | "image/png" matches the pattern |
| Upload.PngExtension | backend/src/middleware/uploadMiddleware.js:21-23 | ".png" in any case lower-cases to a match |
| Upload.AcceptedByParts | backend/src/middleware/uploadMiddleware.js:19-31 | a plain stem with an extension is accepted when the lower-cased extension and the mimetype both match the pattern |
| Upload.UpperExtensionAccepted | backend/src/middleware/uploadMiddleware.js:21-24 | any plain name ending in ".PNG", such as "photo.PNG", sent as image/png is accepted |
| Upload.UpperMimetypeRejected | backend/src/middleware/uploadMiddleware.js:24-30 | "photo.png" sent as image/PNG is rejected |
| Upload.ContainedExtensionAccepted | backend/src/middleware/uploadMiddleware.js:20-24 | any plain name ending in ".pngx" sent as image/png is accepted: the pattern is unanchored |
| Upload.HiddenFileRejected | backend/src/middleware/uploadMiddleware.js:21-30 | a name made of one leading dot and no other dot or slash, such as ".png", has no extension and is rejected whatever the mimetype |
| Register.RedirectOf | frontend/src/pages/Register/Register.jsx:9 | the target is the redirect parameter when non-empty, else "/" |
| Register.Validate | frontend/src/pages/Register/Register.jsx:30-38 | the form passes exactly when the passwords match and have at least 6 characters; a mismatch is reported before the length |
| Register.HandleSubmit | frontend/src/pages/Register/Register.jsx:27-52 | a failed check shows its message and calls nothing; otherwise register is called with the names, e-mail and password; success navigates to "/" followed by the target; failure shows the returned error |
| Register.MismatchReportedFirst | frontend/src/pages/Register/Register.jsx:30-38 | when both of the handler's checks fail, the handler reports the mismatch (in the page the browser stops such a form first) |
| Register.FiveCharactersRefused | frontend/src/pages/Register/Register.jsx:35-38 | the handler refuses matching five-character passwords for length (in the page the browser stops them first) |
| Register.PageSubmit | frontend/src/pages/Register/Register.jsx:27-128 | the browser blocks a form with an empty input or a password under 6 characters, and the handler does not run; any other form goes to the handler, which calls register exactly when the passwords match and otherwise reports the mismatch |
| Register.LengthMessageUnreachable | frontend/src/pages/Register/Register.jsx:35-38 | a form the browser lets through never gets the length message; the only message that can stop it is the mismatch |
| Register.DefaultRedirectDoubleSlash | frontend/src/pages/Register/Register.jsx:46 | with no redirect parameter, success navigates to "//" |
| Register.CheckoutRedirect | frontend/src/pages/Register/Register.jsx:46 | with redirect "checkout", success navigates to "/checkout" |
| Register.LoginLink | frontend/src/pages/Register/Register.jsx:144 | the sign-in link is "/login", with "?redirect=" and the target appended unless the target is "/" |
| Register.RedirectParamOf | frontend/src/pages/Register/Register.jsx:9 | the parameter read from a login link is present exactly when the link carries "?redirect=", and it is the rest of the link |
| Register.LoginLinkRoundTrip | frontend/src/pages/Register/Register.jsx:144 | the login page reads back the same target the registration page had |
| Register.LoginLinkKeepsTarget | frontend/src/pages/Register/Register.jsx:9-144 | whatever the query string held, the target survives the trip through the login link |
| AdminOrders.ShortId | frontend/src/pages/Admin/AdminOrders.jsx:65 | the short id is the id's last eight characters (all of a shorter id), upper-cased |
| AdminOrders.CustomerName | frontend/src/pages/Admin/AdminOrders.jsx:66 | the populated name when non-empty, otherwise "Guest" |
| AdminOrders.PaymentLabel | frontend/src/pages/Admin/AdminOrders.jsx:71-73 | "Paid" exactly when the order is flagged paid, otherwise "Pending" |
| AdminOrders.RowOf | frontend/src/pages/Admin/AdminOrders.jsx:64-89 | a row shows the short id, customer, item count, total, payment label and status, and the button exactly when the order is undelivered |
| AdminOrders.MarkDelivered | frontend/src/pages/Admin/AdminOrders.jsx:25-33 | the store is as the deliver call leaves it; a known order refreshes the list; an unknown one keeps the list and raises the alert |
| AdminOrders.DeliveredRowHidesButton | frontend/src/pages/Admin/AdminOrders.jsx:81-89 | after marking, the order's row has no button and shows "Delivered", with the same payment, total, id and item count |
| AdminOrders.SecondMarkRestamps | frontend/src/pages/Admin/AdminOrders.jsx:25-33 | a second mark on the same order moves its delivery time |
| AdminOrders.ShortIdExample | frontend/src/pages/Admin/AdminOrders.jsx:65 | "64f1a2b3c4d5e6f708192a3b" shows as "08192A3B" |
| AdminOrders.ShortIdIgnoresPrefix | frontend/src/pages/Admin/AdminOrders.jsx:65 | ids that share their last eight characters show the same short id |
| AdminDashboard.Revenue | frontend/src/pages/Admin/AdminDashboard.jsx:26 | the revenue of no orders is 0, of one order its total, and never negative when no total is |
| AdminDashboard.RevenueAppend | frontend/src/pages/Admin/AdminDashboard.jsx:26 | the revenue of two lists together is the sum of their revenues |
| AdminDashboard.RevenueCountsUnpaid | frontend/src/pages/Admin/AdminDashboard.jsx:26 | the revenue card is the paid orders' revenue plus the unpaid orders' |
| AdminDashboard.RevenueOfSameTotals | frontend/src/pages/Admin/AdminDashboard.jsx:26 | the revenue depends only on the orders' totals |
| AdminDashboard.RevenueIgnoresStatus | frontend/src/pages/Admin/AdminDashboard.jsx:26 | paying or delivering an order does not move the revenue |
| AdminDashboard.UnpaidOrderCounted | frontend/src/pages/Admin/AdminDashboard.jsx:26 | an unpaid order's total is in the revenue although no paid order contributes |
| AdminDashboard.Recent | frontend/src/pages/Admin/AdminDashboard.jsx:34 | the recent table is the first five orders, or all of them when there are fewer |
| AdminDashboard.RecentIsPrefix | frontend/src/pages/Admin/AdminDashboard.jsx:34 | the recent orders begin the list, and taking them again changes nothing |
| AdminDashboard.DashboardOf | frontend/src/pages/Admin/AdminDashboard.jsx:25-34 | the cards count the products and orders and show the revenue; the recent table has one row for each of the first five orders, in list order, built by AdminDashboard.RecentRowOf |
| AdminDashboard.RecentRowOf | frontend/src/pages/Admin/AdminDashboard.jsx:111-120 | a recent row shows the order's short id, the customer name or "Guest", the status and the total |
| AdminLayout.Guard | frontend/src/pages/Admin/AdminLayout.jsx:13-21 | the admin page renders exactly for a signed-in admin; anyone else goes to "/login" |
| AdminLayout.IsActive | frontend/src/pages/Admin/AdminLayout.jsx:35-38 | a link is active on its own path; an active link's path is a prefix of the location, and the whole location when the link is exact |
| AdminLayout.ActiveLabels | frontend/src/pages/Admin/AdminLayout.jsx:35-62 | the highlighted labels are exactly those of the active links, and no more labels than links (their order is stated by AdminLayout.ActiveLabelsAppend and AdminLayout.ActiveLabelsOne) |
| AdminLayout.ActiveLabelsAppend | frontend/src/pages/Admin/AdminLayout.jsx:35-62 | the labels of two link lists one after the other are the first list's labels followed by the second's, so sidebar order is kept |
| AdminLayout.ActiveLabelsOne | frontend/src/pages/Admin/AdminLayout.jsx:35-62 | a single link contributes its label exactly when it is active |
| AdminLayout.AddProductImpliesProducts | frontend/src/pages/Admin/AdminLayout.jsx:28-38 | wherever "Add Product" is highlighted, "Products" is too |
| AdminLayout.ProductsOrdersExclusive | frontend/src/pages/Admin/AdminLayout.jsx:28-38 | "Products" and "Orders" are never highlighted together |
| AdminLayout.DashboardExactOnly | frontend/src/pages/Admin/AdminLayout.jsx:29-38 | "Dashboard" is highlighted exactly at "/admin" |
| AdminLayout.AddProductPage | frontend/src/pages/Admin/AdminLayout.jsx:28-62 | on "/admin/products/new" both "Products" and "Add Product" are highlighted |
| AdminLayout.DashboardPage | frontend/src/pages/Admin/AdminLayout.jsx:28-62 | on "/admin" only "Dashboard" is highlighted |
| AdminLayout.PrefixWithoutBoundary | frontend/src/pages/Admin/AdminLayout.jsx:35-38 | any path extending "/admin/products", such as "/admin/productsx", highlights "Products" |

## Left out

- Persistence of the cart in `localStorage`, the toast notifications, and loading spinners: they are browser side effects with no bearing on the cart's contents.
- HTTP transport, Express routing, authentication middleware and JWTs: the signed-in user and admin flag are parameters.
- MongoDB itself: ids are supplied by the caller (a fresh id, one no stored record has, is a parameter), so ObjectId casting errors and the 500 they cause on malformed ids are not modelled.
- The text of Mongoose validation messages: a schema failure is a 500 with a fixed message.
- The `paymentResult` sub-object's default: the model stores no result until payment.
- Type-cast failures inside an update (a non-numeric price, say), which Mongoose turns into a 500: the body's fields arrive already typed.
- The product controller's list of all products for the admin (`getAllProducts`) and the admin products page: they return the store unfiltered.
- The population of an order's user for the admin pages: the customer's name is a parameter.
- Floating point: prices are exact reals. `toFixed(2)` rounding on display and JavaScript rounding in `price * (1 - discount / 100)` are not modelled.
- ProductForm.BuildBody: a price that `parseFloat` cannot read is NaN, which the request sends as JSON `null`. Create refuses it (400). Update stores `price: null`, because `findByIdAndUpdate` runs no validators. The model sends an absent price instead, which keeps the stored price on update. The form's `required` number input normally stops such a submit before it is sent.
- `parseFloat` for the price and discount fields: its result is a parameter (`Option<real>`). `parseInt` is modelled in full for decimal and `0x` input.
- Number-to-string conversion of the price and discount when loading the form: their texts are parameters.
- `Date.now()` and every other clock reading: a parameter.
- React's state-update scheduling. Each handler runs to completion on the state it was given. Concurrent clicks and effects are not modelled.
- Cart.AddToCart: the source mutates the existing line object in place (`updated[i].quantity += quantity` on a shallow copy). Under React's strict-mode double call this would add twice; the model adds once.
- Case mapping and whitespace beyond ASCII: `toUpperCase` and `toLowerCase` are modelled on ASCII letters only. `trim` and parseInt's leading-whitespace skip (ProductForm.ParseInt via Common.TrimStart) share one set: tab, line feed, vertical tab, form feed, carriage return, space, U+00A0, U+FEFF, U+2028 and U+2029 (Common.IsSpace). The other Unicode space separators (category Zs, such as U+1680 and U+2000-U+200A, U+202F, U+205F, U+3000) are not modelled.
- Register.Validate: string length is counted in Dafny characters, not JavaScript UTF-16 code units; the two differ only outside the basic plane.
- URL encoding of the redirect parameter: the link and the read-back both use the raw text.
- The browser's constraint validation on the checkout and admin product forms (`required` inputs, number inputs): for those forms the model covers the JavaScript submit handlers and the server's checks only. On the registration page the `required` inputs and the password's `minLength={6}` are modelled (Register.PageSubmit); the e-mail input's format check is not.
- The fetches that load a product into ProductDetail and AdminProductForm, and their failure paths: the loaded product is a parameter.
- The auth context's `register` call: its result is a parameter.
- `multer`'s storage engine and file-size handling: only the name it is given and the filter are modelled.
- The rest of the repository (header, footer, home and product-list pages, profile, order success page, user and auth routes, seed script, server setup): outside the modelled core.

## Findings

| source | as written | input that shows it | evidently intended | confidence | as-written member | corrected member |
|---|---|---|---|---|---|---|
| frontend/src/components/ProductCard/ProductCard.jsx:72 | the sale price is shown only when the discounted price is truthy, so a price of 0 counts as no discount | price 500 with discount 100: the card and product page show 500 with no strike-through | show 0 with 500 struck through, as the cart page does for a positive discount | not executed | Pricing.FullDiscountDisplaysFullPrice | Pricing.IntendedDisplayedPrice |

=== FILE: admindashboard.dfy ===
/** The admin dashboard (frontend/src/pages/Admin/AdminDashboard.jsx): the
    three stat cards and the recent-orders table, computed from the product
    and order lists the API returned. */
module AdminDashboard {
  import opened Common
  import opened Orders
  import Catalog
  import AdminOrders

  /** `orders.reduce((sum, order) => sum + order.totalPrice, 0)`: the totals
      added from the first order to the last. */
  function Revenue(os: seq<Order>): (r: real)
    ensures os == [] ==> r == 0.0
    ensures |os| == 1 ==> r == os[0].totalPrice
    ensures (forall i :: 0 <= i < |os| ==> os[i].totalPrice >= 0.0) ==> r >= 0.0
  {
    if os == [] then 0.0 else Revenue(os[..|os| - 1]) + os[|os| - 1].totalPrice
  }

  /** The revenue of two lists one after the other is the sum of theirs. */
  lemma {:induction false} RevenueAppend(a: seq<Order>, b: seq<Order>)
    ensures Revenue(a + b) == Revenue(a) + Revenue(b)
    decreases |b|
  {
    if b != [] {
      assert (a + b)[..|a + b| - 1] == a + b[..|b| - 1];
      RevenueAppend(a, b[..|b| - 1]);
    } else {
      assert a + b == a;
    }
  }

  /** The orders the flag marks paid, and the rest. Only which orders they
      hold matters here: the revenue does not depend on their order. */
  function PaidOrders(os: seq<Order>): (r: seq<Order>)
    ensures forall o :: o in r <==> o in os && o.isPaid
  {
    if os == [] then []
    else
      var rest := PaidOrders(os[..|os| - 1]);
      assert os == os[..|os| - 1] + [os[|os| - 1]];
      if os[|os| - 1].isPaid then rest + [os[|os| - 1]] else rest
  }

  function UnpaidOrders(os: seq<Order>): (r: seq<Order>)
    ensures forall o :: o in r <==> o in os && !o.isPaid
  {
    if os == [] then []
    else
      var rest := UnpaidOrders(os[..|os| - 1]);
      assert os == os[..|os| - 1] + [os[|os| - 1]];
      if !os[|os| - 1].isPaid then rest + [os[|os| - 1]] else rest
  }

  /** The revenue card counts unpaid orders as well as paid ones: it is the
      paid revenue plus the unpaid. */
  lemma {:induction false} RevenueCountsUnpaid(os: seq<Order>)
    ensures Revenue(os) == Revenue(PaidOrders(os)) + Revenue(UnpaidOrders(os))
    decreases |os|
  {
    if os != [] {
      var init, last := os[..|os| - 1], os[|os| - 1];
      RevenueCountsUnpaid(init);
      if last.isPaid {
        RevenueAppend(PaidOrders(init), [last]);
      } else {
        RevenueAppend(UnpaidOrders(init), [last]);
      }
    }
  }

  /** Two lists whose orders carry the same totals, position by position,
      have the same revenue. */
  lemma {:induction false} RevenueOfSameTotals(a: seq<Order>, b: seq<Order>)
    requires |a| == |b|
    requires forall i :: 0 <= i < |a| ==> a[i].totalPrice == b[i].totalPrice
    ensures Revenue(a) == Revenue(b)
    decreases |a|
  {
    if a != [] {
      RevenueOfSameTotals(a[..|a| - 1], b[..|b| - 1]);
    }
  }

  /** Paying or delivering an order does not move the revenue. */
  lemma RevenueIgnoresStatus(os: seq<Order>, i: nat, now: int, body: PayBody)
    requires i < |os|
    ensures Revenue(os[i := Deliver(os[i], now)]) == Revenue(os)
    ensures Revenue(os[i := Pay(os[i], now, body)]) == Revenue(os)
  {
    RevenueOfSameTotals(os[i := Deliver(os[i], now)], os);
    RevenueOfSameTotals(os[i := Pay(os[i], now, body)], os);
  }

  /** The recent-orders table: `orders.slice(0, 5)`. */
  function Recent(os: seq<Order>): (r: seq<Order>)
    ensures |r| == if |os| < 5 then |os| else 5
    ensures forall i :: 0 <= i < |r| ==> r[i] == os[i]
    ensures |os| <= 5 ==> r == os
  {
    if |os| <= 5 then os else os[..5]
  }

  /** The recent orders are the start of the list: taking them again changes
      nothing, and with more than five orders the rest are left out. */
  lemma RecentIsPrefix(os: seq<Order>)
    ensures Recent(Recent(os)) == Recent(os)
    ensures os == Recent(os) + os[|Recent(os)|..]
  {
  }

  /** The stat cards. */
  datatype Stats = Stats(products: nat, orders: nat, revenue: real)

  /** One row of the recent-orders table: order id, customer, status and
      total. The date column is not modelled (dates are not formatted
      here). */
  datatype RecentRow = RecentRow(shortId: string, customer: string, status: string, total: real)

  function RecentRowOf(o: Order, name: Option<string>): (r: RecentRow)
    ensures r.shortId == AdminOrders.ShortId(o.id) && r.customer == AdminOrders.CustomerName(name)
    ensures r.status == o.orderStatus && r.total == o.totalPrice
  {
    RecentRow(AdminOrders.ShortId(o.id), AdminOrders.CustomerName(name), o.orderStatus, o.totalPrice)
  }

  /** What the dashboard shows, once both lists are in. */
  datatype Dashboard = Dashboard(stats: Stats, recent: seq<RecentRow>)

  /** The dashboard for the fetched lists; `names` gives each recent order's
      populated customer name. */
  function DashboardOf(products: seq<Catalog.Product>, os: seq<Order>, names: seq<Option<string>>): (r: Dashboard)
    requires |names| == |os|
    ensures r.stats.products == |products| && r.stats.orders == |os|
    ensures r.stats.revenue == Revenue(os)
    ensures |r.recent| == |Recent(os)|
    ensures forall i :: 0 <= i < |r.recent| ==>
              r.recent[i] == RecentRowOf(os[i], names[i])
  {
    var recent := Recent(os);
    Dashboard(Stats(|products|, |os|, Revenue(os)),
              seq(|recent|, i requires 0 <= i < |recent| => RecentRowOf(recent[i], names[i])))
  }

  /** An unpaid order's total is already in the revenue card. */
  lemma UnpaidOrderCounted(o: Order)
    requires !o.isPaid
    ensures Revenue([o]) == o.totalPrice
    ensures Revenue(PaidOrders([o])) == 0.0
  {
    assert [o][..0] == [];
  }
}

=== FILE: adminlayout.dfy ===
/** The admin shell (frontend/src/pages/Admin/AdminLayout.jsx): the guard
    that sends anyone but a signed-in admin to the login page, and which
    sidebar links are highlighted for the current path. */
module AdminLayout {
  import opened Common

  /** What the layout does: render the admin page, or send the visitor to
      the login page and render nothing. */
  datatype GuardResult = RenderAdmin | RedirectTo(path: string)

  function Guard(isAuthenticated: bool, isAdmin: bool): (r: GuardResult)
    ensures r.RenderAdmin? <==> isAuthenticated && isAdmin
    ensures r.RedirectTo? ==> r.path == "/login"
  {
    if !isAuthenticated || !isAdmin then RedirectTo("/login") else RenderAdmin
  }

  /** A sidebar link. */
  datatype NavLink = NavLink(path: string, name: string, exact: bool)

  const Dashboard: NavLink := NavLink("/admin", "Dashboard", true)
  const Products: NavLink := NavLink("/admin/products", "Products", false)
  const AddProduct: NavLink := NavLink("/admin/products/new", "Add Product", false)
  const OrdersLink: NavLink := NavLink("/admin/orders", "Orders", false)

  /** The sidebar, top to bottom. */
  const NavLinks: seq<NavLink> := [Dashboard, Products, AddProduct, OrdersLink]

  /** isActive: an exact link matches only its own path, any other link
      every path that starts with its own, with no regard to segment
      boundaries. */
  function IsActive(pathname: string, link: NavLink): (r: bool)
    ensures pathname == link.path ==> r
    ensures r ==> |link.path| <= |pathname|
    ensures r && link.exact ==> pathname == link.path
    ensures r ==> forall k :: 0 <= k < |link.path| ==> pathname[k] == link.path[k]
  {
    if link.exact then pathname == link.path else StartsWith(pathname, link.path)
  }

  /** The highlighted labels, in sidebar order. */
  function ActiveLabels(pathname: string, links: seq<NavLink>): (r: seq<string>)
    ensures |r| <= |links|
    ensures forall l :: l in links && IsActive(pathname, l) ==> l.name in r
    ensures forall s :: s in r ==> exists l :: l in links && IsActive(pathname, l) && l.name == s
  {
    if links == [] then []
    else
      var rest := ActiveLabels(pathname, links[1..]);
      assert links == [links[0]] + links[1..];
      if IsActive(pathname, links[0]) then [links[0].name] + rest else rest
  }

  /** The labels keep sidebar order: the labels of two link lists one after
      the other are the first list's followed by the second's. */
  lemma {:induction false} ActiveLabelsAppend(pathname: string, a: seq<NavLink>, b: seq<NavLink>)
    ensures ActiveLabels(pathname, a + b) == ActiveLabels(pathname, a) + ActiveLabels(pathname, b)
    decreases |a|
  {
    if a != [] {
      var head := if IsActive(pathname, a[0]) then [a[0].name] else [];
      assert (a + b)[0] == a[0] && (a + b)[1..] == a[1..] + b;
      assert ActiveLabels(pathname, a + b) == head + ActiveLabels(pathname, a[1..] + b);
      assert ActiveLabels(pathname, a) == head + ActiveLabels(pathname, a[1..]);
      ActiveLabelsAppend(pathname, a[1..], b);
      assert head + (ActiveLabels(pathname, a[1..]) + ActiveLabels(pathname, b))
          == (head + ActiveLabels(pathname, a[1..])) + ActiveLabels(pathname, b);
    } else {
      assert a + b == b;
    }
  }

  /** A single link is lit exactly when it is active. */
  lemma ActiveLabelsOne(pathname: string, l: NavLink)
    ensures ActiveLabels(pathname, [l]) == if IsActive(pathname, l) then [l.name] else []
  {
    assert [l][1..] == [];
  }

  /** A path that starts with a longer path starts with any prefix of it. */
  lemma StartsWithPrefix(s: string, p: string, q: string)
    requires StartsWith(s, p) && StartsWith(p, q)
    ensures StartsWith(s, q)
  {
    assert s[..|q|] == s[..|p|][..|q|];
  }

  /** Wherever "Add Product" is highlighted, "Products" is too. */
  lemma AddProductImpliesProducts(pathname: string)
    requires IsActive(pathname, AddProduct)
    ensures IsActive(pathname, Products)
  {
    assert StartsWith(AddProduct.path, Products.path) by {
      assert AddProduct.path[..|Products.path|] == Products.path;
    }
    StartsWithPrefix(pathname, AddProduct.path, Products.path);
  }

  /** "Products" and "Orders" are never highlighted together. */
  lemma ProductsOrdersExclusive(pathname: string)
    requires IsActive(pathname, Products)
    ensures !IsActive(pathname, OrdersLink)
  {
    assert pathname[7] == Products.path[7] == 'p';
    assert OrdersLink.path[7] == 'o';
  }

  /** "Dashboard" is highlighted at "/admin" and nowhere below it. */
  lemma DashboardExactOnly(pathname: string)
    ensures IsActive(pathname, Dashboard) <==> pathname == "/admin"
  {
  }

  /** On the add-product page both "Products" and "Add Product" are
      highlighted. */
  lemma AddProductPage()
    ensures ActiveLabels("/admin/products/new", NavLinks) == ["Products", "Add Product"]
  {
    var p := "/admin/products/new";
    var t1, t2, t3 := NavLinks[1..], NavLinks[2..], NavLinks[3..];
    assert t1 == [Products, AddProduct, OrdersLink] && t1[1..] == t2;
    assert t2 == [AddProduct, OrdersLink] && t2[1..] == t3;
    assert t3 == [OrdersLink] && t3[1..] == [];
    assert !IsActive(p, OrdersLink) by { assert p[7] != OrdersLink.path[7]; }
    assert ActiveLabels(p, t3) == [];
    assert IsActive(p, AddProduct) by { assert p[..|AddProduct.path|] == AddProduct.path; }
    assert ActiveLabels(p, t2) == ["Add Product"];
    assert IsActive(p, Products) by { assert p[..|Products.path|] == Products.path; }
    assert ActiveLabels(p, t1) == ["Products", "Add Product"];
    assert !IsActive(p, Dashboard);
  }

  /** On the dashboard only "Dashboard" is highlighted. */
  lemma DashboardPage()
    ensures ActiveLabels("/admin", NavLinks) == ["Dashboard"]
  {
    var p := "/admin";
    var t1, t2, t3 := NavLinks[1..], NavLinks[2..], NavLinks[3..];
    assert t1 == [Products, AddProduct, OrdersLink] && t1[1..] == t2;
    assert t2 == [AddProduct, OrdersLink] && t2[1..] == t3;
    assert t3 == [OrdersLink] && t3[1..] == [];
    assert ActiveLabels(p, t3) == [];
    assert ActiveLabels(p, t2) == [];
    assert ActiveLabels(p, t1) == [];
    assert IsActive(p, Dashboard);
  }

  /** Without segment boundaries, a path such as "/admin/productsx" also
      highlights "Products". */
  lemma PrefixWithoutBoundary(rest: string)
    ensures IsActive(Products.path + rest, Products)
  {
    assert (Products.path + rest)[..|Products.path|] == Products.path;
  }
}

=== FILE: adminorders.dfy ===
/** The admin order list (frontend/src/pages/Admin/AdminOrders.jsx): what
    each row shows and the "Mark Delivered" button. The list is what the
    order API returned; the customer's name is the one the API populated
    from the user record, absent when the user is gone. */
module AdminOrders {
  import opened Common
  import opened Orders

  /** `id.slice(-8).toUpperCase()`: the last eight characters (all of a
      shorter id), upper-cased. */
  function ShortId(id: string): (r: string)
    ensures |r| == if |id| < 8 then |id| else 8
    ensures r == ToUpper(id)[|id| - |r|..]
    ensures forall i :: 0 <= i < |r| ==> !('a' <= r[i] <= 'z')
  {
    var t := LastN(id, 8);
    var r := ToUpper(t);
    assert forall i :: 0 <= i < |t| ==> t[i] == id[|id| - |t| + i];
    r
  }

  const Guest: string := "Guest"

  /** `user?.name || 'Guest'`: the populated name when there is a non-empty
      one. */
  function CustomerName(name: Option<string>): (r: string)
    ensures r != ""
    ensures name.Some? && name.value != "" ==> r == name.value
    ensures name.None? || name.value == "" ==> r == Guest
  {
    if name.Some? && name.value != "" then name.value else Guest
  }

  /** The payment column: "Paid" or "Pending", from the boolean flag alone. */
  function PaymentLabel(o: Order): (r: string)
    ensures r == "Paid" <==> o.isPaid
    ensures r == "Pending" <==> !o.isPaid
  {
    if o.isPaid then "Paid" else "Pending"
  }

  /** One row of the table. */
  datatype OrderRow = OrderRow(
    shortId: string,
    customer: string,
    itemCount: nat,
    total: real,
    payment: string,
    status: string,
    markDelivered: bool)

  function RowOf(o: Order, name: Option<string>): (r: OrderRow)
    ensures r.shortId == ShortId(o.id) && r.customer == CustomerName(name)
    ensures r.itemCount == |o.orderItems| && r.total == o.totalPrice
    ensures r.payment == PaymentLabel(o) && r.status == o.orderStatus
    ensures r.markDelivered <==> !o.isDelivered
  {
    OrderRow(ShortId(o.id), CustomerName(name), |o.orderItems|, o.totalPrice, PaymentLabel(o), o.orderStatus,
             !o.isDelivered)
  }

  /** The page after "Mark Delivered" on an order: the store as the API left
      it, the list shown, and the alert raised when the API call failed. */
  datatype MarkOutcome = MarkOutcome(store: OrderStore, shown: seq<Order>, alert: Option<string>)

  const FailedToUpdate: string := "Failed to update order"

  /** handleMarkDelivered. The order is delivered at `now`; on success the
      list is fetched again (`refetched` is what that fetch returns), on
      failure the list stays and an alert is shown. */
  function MarkDelivered(store: OrderStore, shown: seq<Order>, id: string, now: int, refetched: seq<Order>)
    : (r: MarkOutcome)
    ensures r.store == UpdateOrderToDelivered(store, id, now).0
    ensures id in store <==> r.alert.None?
    ensures id in store ==> r.shown == refetched
    ensures id !in store ==> r == MarkOutcome(store, shown, Some(FailedToUpdate))
  {
    var (s, resp) := UpdateOrderToDelivered(store, id, now);
    if resp.Ok? then MarkOutcome(s, refetched, None)
    else MarkOutcome(s, shown, Some(FailedToUpdate))
  }

  /** Once an order is marked delivered, its row (in a list fetched from the
      updated store) has no button, and its payment column and total are
      what they were. */
  lemma DeliveredRowHidesButton(store: OrderStore, shown: seq<Order>, id: string, now: int,
                                refetched: seq<Order>, name: Option<string>)
    requires id in store
    ensures var r := MarkDelivered(store, shown, id, now, refetched);
            var before := RowOf(store[id], name);
            var after := RowOf(r.store[id], name);
            !after.markDelivered && after.status == "Delivered"
            && after.payment == before.payment && after.total == before.total
            && after.shortId == before.shortId && after.itemCount == before.itemCount
  {
  }

  /** A second click on a delivered order (a stale row) delivers it again and
      moves the delivery time: the button hides the action, the API does not
      refuse it. */
  lemma SecondMarkRestamps(store: OrderStore, id: string, t1: int, t2: int, refetched: seq<Order>)
    requires id in store
    ensures var s1 := MarkDelivered(store, [], id, t1, refetched).store;
            var s2 := MarkDelivered(s1, [], id, t2, refetched).store;
            s2[id].deliveredAt == Some(t2) && s2[id].isDelivered
  {
  }

  /** A short id keeps the last eight characters, upper-cased. */
  lemma ShortIdExample()
    ensures ShortId("64f1a2b3c4d5e6f708192a3b") == "08192A3B"
  {
    var id := "64f1a2b3c4d5e6f708192a3b";
    var t := id[16..];
    assert t == "08192a3b";
    assert LastN(id, 8) == t;
    var u := ToUpper(t);
    assert u[0] == '0' && u[1] == '8' && u[2] == '1' && u[3] == '9';
    assert u[4] == '2' && u[5] == 'A' && u[6] == '3' && u[7] == 'B';
  }

  /** Ids that differ only before their last eight characters show the same
      short id. */
  lemma ShortIdIgnoresPrefix(a: string, b: string, tail: string)
    requires |tail| == 8
    ensures ShortId(a + tail) == ShortId(b + tail)
  {
    assert LastN(a + tail, 8) == tail;
    assert LastN(b + tail, 8) == tail;
  }
}

=== FILE: cart.dfy ===
/** The client-side cart (frontend/src/context/CartContext.jsx): a sequence
    of lines, each identified by (product id, size, color), with add (merging
    into an existing line), remove, set-quantity, clear, and the total and
    count folds. Persistence to local storage and the toast notifications are
    not part of this model. */
module Cart {
  import opened Common
  import opened Pricing
  import Catalog

  /** What addToCart reads from the product object it is given; the
      discount may be absent. */
  datatype CartProduct = CartProduct(
    id: string,
    name: string,
    price: real,
    discount: Option<real>,
    image: string,
    stock: int)

  /** A product record as the product views pass it to addToCart. */
  function FromCatalog(p: Catalog.Product): (r: CartProduct)
    ensures r.id == p.id && r.price == p.price && r.discount == Some(p.discount) && r.stock == p.stock
  {
    CartProduct(p.id, p.name, p.price, Some(p.discount), p.image, p.stock)
  }

  /** The identity of a cart line. */
  datatype LineKey = LineKey(productId: string, size: string, color: string)

  /** One cart line: a snapshot of the product's price, discount, image and
      stock when it was first added, with the chosen size, color and
      quantity. */
  datatype CartLine = CartLine(
    id: string,
    name: string,
    price: real,
    discount: real,
    image: string,
    quantity: int,
    size: string,
    color: string,
    stock: int)

  type Cart = seq<CartLine>

  function Key(l: CartLine): LineKey
  {
    LineKey(l.id, l.size, l.color)
  }

  /** The cart invariant: at most one line per identity. */
  predicate UniqueKeys(c: Cart)
  {
    forall i, j :: 0 <= i < j < |c| ==> Key(c[i]) != Key(c[j])
  }

  predicate HasKey(c: Cart, k: LineKey)
  {
    exists i :: 0 <= i < |c| && Key(c[i]) == k
  }

  /** `findIndex` on the identity: the first matching line, or -1. */
  function FindIndex(c: Cart, k: LineKey): (r: int)
    ensures -1 <= r < |c|
    ensures r >= 0 ==> Key(c[r]) == k
    ensures r >= 0 ==> forall j :: 0 <= j < r ==> Key(c[j]) != k
    ensures r < 0 <==> !HasKey(c, k)
  {
    if c == [] then -1
    else if Key(c[0]) == k then 0
    else
      var i := FindIndex(c[1..], k);
      assert forall j :: 1 <= j < |c| ==> c[j] == c[1..][j - 1];
      if i < 0 then -1 else i + 1
  }

  /** The first line with the identity is the one FindIndex reports. */
  lemma FirstMatch(c: Cart, k: LineKey, i: int)
    requires 0 <= i < |c| && Key(c[i]) == k
    requires forall j :: 0 <= j < i ==> Key(c[j]) != k
    ensures FindIndex(c, k) == i
  {
    var m := FindIndex(c, k);
    assert m >= 0;
  }

  /** In a cart that keeps the invariant, the first matching line is the
      only one. */
  lemma UniqueIndex(c: Cart, k: LineKey, j: int)
    requires UniqueKeys(c)
    requires 0 <= j < |c| && Key(c[j]) == k
    ensures FindIndex(c, k) == j
  {
  }

  // ---------------------------------------------------------------------
  // Folds
  // ---------------------------------------------------------------------

  /** What one line contributes to the cart total. */
  function LineSubtotal(l: CartLine): real
  {
    EffectivePrice(l.price, l.discount) * l.quantity as real
  }

  /** A line whose price, discount and quantity are in their intended ranges. */
  predicate SaneLine(l: CartLine)
  {
    l.price >= 0.0 && 0.0 <= l.discount <= 100.0 && l.quantity >= 1
  }

  /** getCartTotal: the left fold of the line subtotals. */
  function CartTotal(c: Cart): (r: real)
    ensures (forall i :: 0 <= i < |c| ==> SaneLine(c[i])) ==> r >= 0.0
  {
    if c == [] then 0.0 else CartTotal(c[..|c| - 1]) + LineSubtotal(c[|c| - 1])
  }

  /** getCartCount: the left fold of the quantities. */
  function CartCount(c: Cart): (r: int)
    ensures (forall i :: 0 <= i < |c| ==> c[i].quantity >= 1) ==> r >= |c|
  {
    if c == [] then 0 else CartCount(c[..|c| - 1]) + c[|c| - 1].quantity
  }

  lemma {:induction false} TotalAppend(a: Cart, b: Cart)
    ensures CartTotal(a + b) == CartTotal(a) + CartTotal(b)
    ensures CartCount(a + b) == CartCount(a) + CartCount(b)
    decreases |b|
  {
    if b == [] {
      assert a + b == a;
    } else {
      var b' := b[..|b| - 1];
      assert (a + b)[..|a + b| - 1] == a + b';
      TotalAppend(a, b');
    }
  }

  lemma TotalSnoc(c: Cart, l: CartLine)
    ensures CartTotal(c + [l]) == CartTotal(c) + LineSubtotal(l)
    ensures CartCount(c + [l]) == CartCount(c) + l.quantity
  {
    assert (c + [l])[..|c|] == c;
  }

  /** Replacing one line changes the folds by that line's difference. */
  lemma {:induction false} TotalReplace(c: Cart, i: int, l: CartLine)
    requires 0 <= i < |c|
    ensures CartTotal(c[i := l]) == CartTotal(c) - LineSubtotal(c[i]) + LineSubtotal(l)
    ensures CartCount(c[i := l]) == CartCount(c) - c[i].quantity + l.quantity
  {
    assert c == c[..i] + [c[i]] + c[i + 1..];
    assert c[i := l] == c[..i] + [l] + c[i + 1..];
    TotalAppend(c[..i] + [c[i]], c[i + 1..]);
    TotalAppend(c[..i], [c[i]]);
    TotalAppend(c[..i] + [l], c[i + 1..]);
    TotalAppend(c[..i], [l]);
    assert CartTotal([l]) == CartTotal([]) + LineSubtotal(l) by { assert [l][..0] == []; }
    assert CartTotal([c[i]]) == CartTotal([]) + LineSubtotal(c[i]) by { assert [c[i]][..0] == []; }
  }

  /** Dropping one line lowers the folds by that line's share. */
  lemma {:induction false} TotalDelete(c: Cart, i: int)
    requires 0 <= i < |c|
    ensures CartTotal(c[..i] + c[i + 1..]) == CartTotal(c) - LineSubtotal(c[i])
    ensures CartCount(c[..i] + c[i + 1..]) == CartCount(c) - c[i].quantity
  {
    assert c == c[..i] + [c[i]] + c[i + 1..];
    TotalAppend(c[..i] + [c[i]], c[i + 1..]);
    TotalAppend(c[..i], [c[i]]);
    TotalAppend(c[..i], c[i + 1..]);
    assert CartTotal([c[i]]) == CartTotal([]) + LineSubtotal(c[i]) by { assert [c[i]][..0] == []; }
  }

  // ---------------------------------------------------------------------
  // Operations
  // ---------------------------------------------------------------------

  /** The line addToCart appends for a product not yet in the cart. */
  function NewLine(p: CartProduct, quantity: int, size: string, color: string): CartLine
  {
    CartLine(p.id, p.name, p.price, p.discount.GetOr(0.0), p.image, quantity, size, color, p.stock)
  }

  /** addToCart: if a line with the identity (product id, size, color) is
      present, its quantity grows by `quantity` and nothing else changes;
      otherwise a new line is appended at the end. */
  function AddToCart(c: Cart, p: CartProduct, quantity: int, size: string, color: string): (r: Cart)
    ensures HasKey(r, LineKey(p.id, size, color))
    ensures UniqueKeys(c) ==> UniqueKeys(r)
    ensures HasKey(c, LineKey(p.id, size, color)) ==>
              var i := FindIndex(c, LineKey(p.id, size, color));
              && |r| == |c|
              && r[i] == c[i].(quantity := c[i].quantity + quantity)
              && forall j :: 0 <= j < |c| && j != i ==> r[j] == c[j]
    ensures !HasKey(c, LineKey(p.id, size, color)) ==>
              && |r| == |c| + 1 && r[..|c|] == c
              && r[|c|].id == p.id && r[|c|].name == p.name && r[|c|].price == p.price
              && r[|c|].discount == p.discount.GetOr(0.0) && r[|c|].image == p.image
              && r[|c|].quantity == quantity && r[|c|].size == size && r[|c|].color == color
              && r[|c|].stock == p.stock
  {
    var k := LineKey(p.id, size, color);
    var i := FindIndex(c, k);
    if i >= 0 then
      var r := c[i := c[i].(quantity := c[i].quantity + quantity)];
      assert Key(r[i]) == k;
      assert forall j :: 0 <= j < |r| ==> Key(r[j]) == Key(c[j]);
      r
    else
      var r := c + [NewLine(p, quantity, size, color)];
      assert Key(r[|c|]) == k;
      r
  }

  /** addToCart called with only a product: quantity 1, size "M", color "". */
  function AddToCartDefaults(c: Cart, p: CartProduct, quantity: Option<int>, size: Option<string>,
                             color: Option<string>): (r: Cart)
    ensures HasKey(r, LineKey(p.id, size.GetOr("M"), color.GetOr("")))
    ensures CartCount(r) == CartCount(c) + quantity.GetOr(1)
  {
    AddCount(c, p, quantity.GetOr(1), size.GetOr("M"), color.GetOr(""));
    AddToCart(c, p, quantity.GetOr(1), size.GetOr("M"), color.GetOr(""))
  }

  /** Adding raises the count by the added quantity. */
  lemma AddCount(c: Cart, p: CartProduct, quantity: int, size: string, color: string)
    ensures CartCount(AddToCart(c, p, quantity, size, color)) == CartCount(c) + quantity
  {
    var i := FindIndex(c, LineKey(p.id, size, color));
    if i >= 0 {
      var l := c[i].(quantity := c[i].quantity + quantity);
      assert AddToCart(c, p, quantity, size, color) == c[i := l];
      TotalReplace(c, i, l);
    } else {
      var l := NewLine(p, quantity, size, color);
      assert AddToCart(c, p, quantity, size, color) == c + [l];
      TotalAppend(c, [l]);
      assert CartCount([l]) == CartCount([]) + l.quantity by { assert [l][..0] == []; }
    }
  }

  /** A line's subtotal is linear in its quantity. */
  lemma SubtotalGrow(l: CartLine, q: int)
    ensures LineSubtotal(l.(quantity := l.quantity + q)) == LineSubtotal(l) + LineSubtotal(l.(quantity := q))
  {
    var e := EffectivePrice(l.price, l.discount);
    assert e * (l.quantity + q) as real == e * l.quantity as real + e * q as real;
  }

  /** Adding raises the total by the added quantity at the effective price of
      the line it lands in (the existing line's snapshot when merging, the
      product's price and discount for a new line). */
  lemma AddTotal(c: Cart, p: CartProduct, quantity: int, size: string, color: string)
    ensures var r := AddToCart(c, p, quantity, size, color);
            var i := FindIndex(r, LineKey(p.id, size, color));
            CartTotal(r) == CartTotal(c) + LineSubtotal(r[i].(quantity := quantity))
  {
    var k := LineKey(p.id, size, color);
    var i := FindIndex(c, k);
    if i >= 0 {
      var l := c[i].(quantity := c[i].quantity + quantity);
      var r := c[i := l];
      assert AddToCart(c, p, quantity, size, color) == r;
      TotalReplace(c, i, l);
      SubtotalGrow(c[i], quantity);
      FirstMatch(r, k, i);
      assert r[i].(quantity := quantity) == c[i].(quantity := quantity);
    } else {
      var l := NewLine(p, quantity, size, color);
      var r := c + [l];
      assert AddToCart(c, p, quantity, size, color) == r;
      TotalSnoc(c, l);
      FirstMatch(r, k, |c|);
      assert r[|c|].(quantity := quantity) == l;
    }
  }

  /** removeFromCart: the lines whose identity differs, in order (see
      RemoveMembers for what stays and RemoveSplice for the order). */
  function RemoveFromCart(c: Cart, k: LineKey): (r: Cart)
    ensures |r| <= |c|
  {
    if c == [] then []
    else
      var rest := RemoveFromCart(c[1..], k);
      if Key(c[0]) == k then rest else [c[0]] + rest
  }

  /** Every line with the identity goes and every other line stays. */
  lemma {:induction false} RemoveMembers(c: Cart, k: LineKey)
    ensures forall l :: l in RemoveFromCart(c, k) <==> l in c && Key(l) != k
    ensures !HasKey(RemoveFromCart(c, k), k)
  {
    var r := RemoveFromCart(c, k);
    if c != [] {
      RemoveStep(c, k);
      RemoveMembers(c[1..], k);
      assert c == [c[0]] + c[1..];
    }
    assert !HasKey(r, k) by {
      assert forall j :: 0 <= j < |r| ==> r[j] in r;
    }
  }

  lemma TailUnique(c: Cart)
    requires |c| > 0 && UniqueKeys(c)
    ensures UniqueKeys(c[1..])
    ensures !HasKey(c[1..], Key(c[0]))
  {
    assert forall j :: 0 <= j < |c[1..]| ==> c[1..][j] == c[j + 1];
  }

  /** Removing an identity that is not in the cart changes nothing. */
  lemma {:induction false} RemoveAbsent(c: Cart, k: LineKey)
    requires !HasKey(c, k)
    ensures RemoveFromCart(c, k) == c
  {
    if c != [] {
      assert Key(c[0]) != k;
      assert !HasKey(c[1..], k) by {
        assert forall j :: 0 <= j < |c[1..]| ==> c[1..][j] == c[j + 1];
      }
      RemoveAbsent(c[1..], k);
      assert c == [c[0]] + c[1..];
    }
  }

  /** One step of removeFromCart: the first line goes or stays, and the
      rest is filtered. */
  lemma RemoveStep(c: Cart, k: LineKey)
    requires c != []
    ensures RemoveFromCart(c, k) ==
              if Key(c[0]) == k then RemoveFromCart(c[1..], k) else [c[0]] + RemoveFromCart(c[1..], k)
  {
  }

  lemma AppendAssoc<T>(a: seq<T>, b: seq<T>, d: seq<T>)
    ensures a + (b + d) == (a + b) + d
  {
  }

  /** Dropping the head shifts every later slice by one. */
  lemma TailSlices<T>(c: seq<T>, i: int)
    requires 0 <= i < |c| - 1
    ensures c[1..][i + 1..] == c[i + 2..]
    ensures [c[0]] + c[1..][..i] == c[..i + 1]
  {
  }

  /** Removing an identity whose first line is at `i` keeps every line
      before it and filters only what comes after it. */
  lemma {:induction false} RemoveBeforeFirst(c: Cart, k: LineKey, i: int)
    requires 0 <= i < |c| && Key(c[i]) == k
    requires forall j :: 0 <= j < i ==> Key(c[j]) != k
    ensures RemoveFromCart(c, k) == c[..i] + RemoveFromCart(c[i + 1..], k)
    decreases i
  {
    RemoveStep(c, k);
    if i == 0 {
      assert c[..0] + RemoveFromCart(c[1..], k) == RemoveFromCart(c[1..], k);
    } else {
      var t := c[1..];
      assert t[i - 1] == c[i];
      assert forall j :: 0 <= j < i - 1 ==> t[j] == c[j + 1];
      RemoveBeforeFirst(t, k, i - 1);
      var rest := RemoveFromCart(t[i..], k);
      TailSlices(c, i - 1);
      AppendAssoc([c[0]], t[..i - 1], rest);
    }
  }

  /** In a cart that keeps the invariant, removing a present identity cuts
      out exactly its one line: the lines before and after it stay, in
      order. */
  lemma RemoveSplice(c: Cart, k: LineKey)
    requires UniqueKeys(c) && HasKey(c, k)
    ensures var i := FindIndex(c, k);
            RemoveFromCart(c, k) == c[..i] + c[i + 1..]
  {
    var i := FindIndex(c, k);
    RemoveBeforeFirst(c, k, i);
    var t := c[i + 1..];
    assert !HasKey(t, k) by {
      assert forall j :: 0 <= j < |t| ==> t[j] == c[i + 1 + j];
    }
    RemoveAbsent(t, k);
  }

  /** Cutting one line out of a cart that keeps the invariant keeps it. */
  lemma UniqueDelete(c: Cart, i: int)
    requires UniqueKeys(c) && 0 <= i < |c|
    ensures UniqueKeys(c[..i] + c[i + 1..])
  {
    var r := c[..i] + c[i + 1..];
    assert forall j :: 0 <= j < |r| ==> r[j] == c[if j < i then j else j + 1];
  }

  /** removeFromCart keeps the cart invariant. */
  lemma RemoveKeepsUnique(c: Cart, k: LineKey)
    requires UniqueKeys(c)
    ensures UniqueKeys(RemoveFromCart(c, k))
  {
    if HasKey(c, k) {
      RemoveSplice(c, k);
      UniqueDelete(c, FindIndex(c, k));
    } else {
      RemoveAbsent(c, k);
    }
  }

  /** Removing a present line lowers the total and the count by its share. */
  lemma RemoveTotal(c: Cart, k: LineKey)
    requires UniqueKeys(c) && HasKey(c, k)
    ensures var i := FindIndex(c, k);
            && CartTotal(RemoveFromCart(c, k)) == CartTotal(c) - LineSubtotal(c[i])
            && CartCount(RemoveFromCart(c, k)) == CartCount(c) - c[i].quantity
  {
    RemoveSplice(c, k);
    TotalDelete(c, FindIndex(c, k));
  }

  /** The quantity update of a present line, all other lines left alone. */
  function SetQuantity(c: Cart, k: LineKey, quantity: int): (r: Cart)
    ensures |r| == |c|
    ensures forall j :: 0 <= j < |c| ==> Key(r[j]) == Key(c[j])
    ensures forall j :: 0 <= j < |c| && Key(c[j]) != k ==> r[j] == c[j]
    ensures forall j :: 0 <= j < |c| && Key(c[j]) == k ==> r[j] == c[j].(quantity := quantity)
  {
    seq(|c|, j requires 0 <= j < |c| => if Key(c[j]) == k then c[j].(quantity := quantity) else c[j])
  }

  /** updateQuantity: below 1 it removes the line; otherwise it sets the
      matching line's quantity and leaves every other line and the length as
      they were. */
  function UpdateQuantity(c: Cart, k: LineKey, quantity: int): (r: Cart)
    ensures quantity < 1 ==> r == RemoveFromCart(c, k)
    ensures quantity < 1 ==> forall l :: l in r <==> l in c && Key(l) != k
    ensures quantity < 1 ==> !HasKey(r, k)
    ensures quantity >= 1 ==> |r| == |c|
    ensures quantity >= 1 ==> forall j :: 0 <= j < |c| && Key(c[j]) != k ==> r[j] == c[j]
    ensures quantity >= 1 ==> forall j :: 0 <= j < |c| && Key(c[j]) == k ==> r[j] == c[j].(quantity := quantity)
    ensures UniqueKeys(c) ==> UniqueKeys(r)
    ensures HasKey(r, k) <==> quantity >= 1 && HasKey(c, k)
  {
    if quantity < 1 then
      RemoveMembers(c, k);
      assert UniqueKeys(c) ==> UniqueKeys(RemoveFromCart(c, k)) by {
        if UniqueKeys(c) { RemoveKeepsUnique(c, k); }
      }
      RemoveFromCart(c, k)
    else
      var r := SetQuantity(c, k, quantity);
      assert HasKey(r, k) ==> HasKey(c, k) by {
        if HasKey(r, k) {
          var j :| 0 <= j < |r| && Key(r[j]) == k;
          assert Key(c[j]) == k;
        }
      }
      assert HasKey(c, k) ==> HasKey(r, k) by {
        if HasKey(c, k) {
          var j :| 0 <= j < |c| && Key(c[j]) == k;
          assert Key(r[j]) == k;
        }
      }
      r
  }

  /** Setting the quantity of a present line moves the count by the
      difference. */
  lemma UpdateCount(c: Cart, k: LineKey, quantity: int)
    requires UniqueKeys(c) && HasKey(c, k) && quantity >= 1
    ensures var i := FindIndex(c, k);
            CartCount(UpdateQuantity(c, k, quantity)) == CartCount(c) - c[i].quantity + quantity
  {
    var i := FindIndex(c, k);
    assert UpdateQuantity(c, k, quantity) == c[i := c[i].(quantity := quantity)];
    TotalReplace(c, i, c[i].(quantity := quantity));
  }

  /** clearCart */
  function ClearCart(): (r: Cart)
    ensures CartTotal(r) == 0.0 && CartCount(r) == 0 && UniqueKeys(r)
  {
    []
  }

  // ---------------------------------------------------------------------
  // Repeated adds
  // ---------------------------------------------------------------------

  function Sum(qs: seq<int>): int
  {
    if qs == [] then 0 else Sum(qs[..|qs| - 1]) + qs[|qs| - 1]
  }

  /** Adding the same product, size and color once per quantity in `qs`. */
  function AddAll(c: Cart, p: CartProduct, qs: seq<int>, size: string, color: string): Cart
  {
    if qs == [] then c else AddToCart(AddAll(c, p, qs[..|qs| - 1], size, color), p, qs[|qs| - 1], size, color)
  }

  /** Starting from a cart without the identity, a run of adds of the same
      identity leaves exactly one line for it, holding the sum of the added
      quantities, and raises the count by that sum. */
  lemma {:induction false} AddAllOneLine(c: Cart, p: CartProduct, qs: seq<int>, size: string, color: string)
    requires UniqueKeys(c) && !HasKey(c, LineKey(p.id, size, color))
    requires |qs| >= 1
    ensures var r := AddAll(c, p, qs, size, color);
            && UniqueKeys(r) && |r| == |c| + 1 && r[..|c|] == c
            && Key(r[|c|]) == LineKey(p.id, size, color)
            && r[|c|].quantity == Sum(qs)
            && CartCount(r) == CartCount(c) + Sum(qs)
    decreases |qs|
  {
    var k := LineKey(p.id, size, color);
    var init := qs[..|qs| - 1];
    var q := qs[|qs| - 1];
    if |qs| == 1 {
      assert init == [];
      AddCount(c, p, q, size, color);
    } else {
      AddAllOneLine(c, p, init, size, color);
      var r0 := AddAll(c, p, init, size, color);
      UniqueIndex(r0, k, |c|);
      AddCount(r0, p, q, size, color);
      var r := AddToCart(r0, p, q, size, color);
      assert r[..|c|] == r0[..|c|];
    }
  }

  /** Worked example: 1000 at 20% off, three of them, totals 2400. */
  lemma TotalExample()
    ensures CartTotal([CartLine("p1", "Kurta", 1000.0, 20.0, "k.jpg", 3, "M", "", 5)]) == 2400.0
  {
    var c := [CartLine("p1", "Kurta", 1000.0, 20.0, "k.jpg", 3, "M", "", 5)];
    assert c[..0] == [];
  }
}

=== FILE: cartpage.dfy ===
/** The cart page (frontend/src/pages/Cart/Cart.jsx): the order summary
    (subtotal, shipping, total without tax, the free-shipping hint), the
    per-line price and subtotal, the header's item count, and the row
    buttons that call into the cart. */
module CartPage {
  import opened Common
  import opened Pricing
  import opened Cart

  /** The summary box. */
  datatype Summary = Summary(subtotal: real, shipping: real, total: real, freeShippingGap: Option<real>)

  /** The summary of a cart. Its total leaves out the tax that checkout adds,
      so the two pages disagree by exactly the tax. */
  function SummaryOf(c: Cart): (r: Summary)
    ensures r.subtotal == CartTotal(c)
    ensures r.shipping == 0.0 <==> r.subtotal > FreeShippingThreshold
    ensures r.shipping == FlatShipping <==> r.subtotal <= FreeShippingThreshold
    ensures r.total == r.subtotal + r.shipping
    ensures r.total + Tax(r.subtotal) == CheckoutTotal(r.subtotal)
    ensures r.freeShippingGap.Some? <==> r.shipping > 0.0
    ensures r.freeShippingGap.Some? ==> r.subtotal + r.freeShippingGap.value == FreeShippingThreshold
  {
    var subtotal := CartTotal(c);
    Summary(subtotal, Shipping(subtotal), CartPageTotal(subtotal), FreeShippingGap(subtotal))
  }

  /** A cart whose subtotal is exactly the threshold still pays shipping, and
      the hint asks for 0 more. */
  lemma GapAtThreshold(c: Cart)
    requires CartTotal(c) == 2000.0
    ensures SummaryOf(c).shipping == 99.0 && SummaryOf(c).freeShippingGap == Some(0.0)
    ensures SummaryOf(c).total == 2099.0
  {
  }

  /** A row's price: the unit price after discount, with the original
      struck through whenever the discount is positive, and the row
      subtotal. */
  datatype RowPrice = RowPrice(unit: PriceDisplay, subtotal: real)

  function RowPriceOf(l: CartLine): (r: RowPrice)
    ensures r.unit.current == EffectivePrice(l.price, l.discount)
    ensures r.unit.original.Some? <==> l.discount > 0.0
    ensures r.subtotal == LineSubtotal(l)
  {
    RowPrice(IntendedDisplayedPrice(l.price, l.discount), LineSubtotal(l))
  }

  /** The row subtotals add up to the summary's subtotal. */
  function RowSubtotals(c: Cart): (r: seq<real>)
    ensures |r| == |c|
    ensures forall i :: 0 <= i < |c| ==> r[i] == RowPriceOf(c[i]).subtotal
  {
    seq(|c|, i requires 0 <= i < |c| => RowPriceOf(c[i]).subtotal)
  }

  function SumReals(xs: seq<real>): real
  {
    if xs == [] then 0.0 else SumReals(xs[..|xs| - 1]) + xs[|xs| - 1]
  }

  lemma {:induction false} RowsAddUp(c: Cart)
    ensures SumReals(RowSubtotals(c)) == SummaryOf(c).subtotal
    decreases |c|
  {
    if c != [] {
      var n := |c|;
      assert RowSubtotals(c)[..n - 1] == RowSubtotals(c[..n - 1]);
      RowsAddUp(c[..n - 1]);
    }
  }

  /** The header's "N items": the number of lines, not the number of units;
      it is at most the unit count when every line holds at least one unit. */
  function HeaderCount(c: Cart): (r: nat)
    ensures (forall i :: 0 <= i < |c| ==> c[i].quantity >= 1) ==> r <= CartCount(c)
    ensures r == 0 <==> c == []
  {
    |c|
  }

  /** One line of three units reads "1 items" while the cart holds three. */
  lemma HeaderCountsLines()
    ensures var c := [CartLine("p1", "Kurta", 1000.0, 0.0, "k.jpg", 3, "M", "", 5)];
            HeaderCount(c) == 1 && CartCount(c) == 3
  {
    var c := [CartLine("p1", "Kurta", 1000.0, 0.0, "k.jpg", 3, "M", "", 5)];
    assert c[..0] == [];
  }

  // ---------------------------------------------------------------------
  // Row buttons
  // ---------------------------------------------------------------------

  /** The minus button is disabled at quantity 1 or below. */
  function DecrementEnabled(l: CartLine): (r: bool)
    ensures r <==> l.quantity - 1 >= 1
  {
    !(l.quantity <= 1)
  }

  /** The plus button is disabled once the quantity reaches the line's stock
      snapshot. */
  function IncrementEnabled(l: CartLine): (r: bool)
    ensures r <==> l.quantity + 1 <= l.stock
  {
    !(l.quantity >= l.stock)
  }

  /** What the user does on the cart page: a row's minus, plus or remove
      button (by row position) or "Clear Cart". */
  datatype Click = Minus(row: nat) | Plus(row: nat) | Remove(row: nat) | ClearAll

  /** The effect of a click: a disabled button or a missing row does
      nothing; otherwise the row's identity is passed to the cart. */
  function Apply(c: Cart, click: Click): (r: Cart)
    ensures click.ClearAll? ==> r == []
    ensures !click.ClearAll? && click.row >= |c| ==> r == c
    ensures click.Minus? && click.row < |c| && !DecrementEnabled(c[click.row]) ==> r == c
    ensures click.Plus? && click.row < |c| && !IncrementEnabled(c[click.row]) ==> r == c
  {
    match click
    case ClearAll => ClearCart()
    case Minus(i) =>
      if i < |c| && DecrementEnabled(c[i]) then UpdateQuantity(c, Key(c[i]), c[i].quantity - 1)
      else c
    case Plus(i) =>
      if i < |c| && IncrementEnabled(c[i]) then UpdateQuantity(c, Key(c[i]), c[i].quantity + 1) else c
    case Remove(i) =>
      if i < |c| then RemoveFromCart(c, Key(c[i])) else c
  }

  /** Every line holds at least one unit. */
  predicate Positive(c: Cart)
  {
    forall i :: 0 <= i < |c| ==> c[i].quantity >= 1
  }

  /** No line holds more than its stock snapshot. */
  predicate WithinStock(c: Cart)
  {
    forall i :: 0 <= i < |c| ==> c[i].quantity <= c[i].stock
  }

  /** Setting a present line's quantity (at least one) in a unique cart
      replaces just that line. */
  lemma {:induction false} UpdateAt(c: Cart, i: nat, q: int)
    requires UniqueKeys(c) && i < |c| && q >= 1
    ensures UpdateQuantity(c, Key(c[i]), q) == c[i := c[i].(quantity := q)]
  {
    var k := Key(c[i]);
    var r := UpdateQuantity(c, k, q);
    forall j | 0 <= j < |c|
      ensures r[j] == c[i := c[i].(quantity := q)][j]
    {
      if j != i {
        assert Key(c[j]) != k;
      }
    }
  }

  /** An enabled minus passes the row's identity and one unit less to the
      cart. */
  lemma ApplyMinusStep(c: Cart, i: nat)
    requires i < |c| && DecrementEnabled(c[i])
    ensures Apply(c, Minus(i)) == UpdateQuantity(c, Key(c[i]), c[i].quantity - 1)
  {
  }

  /** An enabled plus passes the row's identity and one unit more. */
  lemma ApplyPlusStep(c: Cart, i: nat)
    requires i < |c| && IncrementEnabled(c[i])
    ensures Apply(c, Plus(i)) == UpdateQuantity(c, Key(c[i]), c[i].quantity + 1)
  {
    ApplyPlusClick(c, Plus(i));
  }

  /** The same step, for a plus click given as a whole. */
  lemma ApplyPlusClick(c: Cart, click: Click)
    requires click.Plus? && click.row < |c| && IncrementEnabled(c[click.row])
    ensures Apply(c, click) == UpdateQuantity(c, Key(c[click.row]), c[click.row].quantity + 1)
  {
  }

  /** A remove click on a present row removes the row's identity. */
  lemma ApplyRemoveStep(c: Cart, i: nat)
    requires i < |c|
    ensures Apply(c, Remove(i)) == RemoveFromCart(c, Key(c[i]))
  {
  }

  /** One unit more or less moves a line's subtotal by one unit's price. */
  lemma StepSubtotal(l: CartLine, d: int)
    requires d == 1 || d == -1
    ensures LineSubtotal(l.(quantity := l.quantity + d)) == LineSubtotal(l) + d as real * EffectivePrice(l.price, l.discount)
  {
    SubtotalGrow(l, d);
  }

  /** One unit less on one line lowers the cart total by that line's unit
      price; one unit more raises it by the same. */
  lemma MinusStepTotal(c: Cart, i: nat)
    requires i < |c|
    ensures CartTotal(c[i := c[i].(quantity := c[i].quantity - 1)])
         == CartTotal(c) - EffectivePrice(c[i].price, c[i].discount)
  {
    var l := c[i].(quantity := c[i].quantity - 1);
    assert LineSubtotal(l) == LineSubtotal(c[i]) - EffectivePrice(c[i].price, c[i].discount) by {
      StepSubtotal(c[i], -1);
      assert l == c[i].(quantity := c[i].quantity + -1);
    }
    TotalReplace(c, i, l);
  }

  lemma PlusStepTotal(c: Cart, i: nat)
    requires i < |c|
    ensures CartTotal(c[i := c[i].(quantity := c[i].quantity + 1)])
         == CartTotal(c) + EffectivePrice(c[i].price, c[i].discount)
  {
    var l := c[i].(quantity := c[i].quantity + 1);
    assert LineSubtotal(l) == LineSubtotal(c[i]) + EffectivePrice(c[i].price, c[i].discount) by {
      StepSubtotal(c[i], 1);
    }
    TotalReplace(c, i, l);
  }

  /** An enabled minus keeps the line with one unit less, keeps every other
      line, and lowers the count by one. */
  lemma MinusKeepsLine(c: Cart, i: nat)
    requires UniqueKeys(c) && i < |c| && DecrementEnabled(c[i])
    ensures Apply(c, Minus(i)) == c[i := c[i].(quantity := c[i].quantity - 1)]
    ensures CartCount(Apply(c, Minus(i))) == CartCount(c) - 1
  {
    var l := c[i].(quantity := c[i].quantity - 1);
    ApplyMinusStep(c, i);
    UpdateAt(c, i, l.quantity);
    TotalReplace(c, i, l);
  }

  /** An enabled plus raises the line by one unit and the count by one. */
  lemma PlusRaisesLine(c: Cart, i: nat)
    requires UniqueKeys(c) && i < |c| && IncrementEnabled(c[i]) && c[i].quantity >= 0
    ensures Apply(c, Plus(i)) == c[i := c[i].(quantity := c[i].quantity + 1)]
    ensures CartCount(Apply(c, Plus(i))) == CartCount(c) + 1
  {
    var l := c[i].(quantity := c[i].quantity + 1);
    ApplyPlusStep(c, i);
    UpdateAt(c, i, l.quantity);
    TotalReplace(c, i, l);
  }
  /** An enabled minus lowers the total by one unit's price. */
  lemma MinusLowersTotal(c: Cart, i: nat)
    requires UniqueKeys(c) && i < |c| && DecrementEnabled(c[i])
    ensures CartTotal(Apply(c, Minus(i))) == CartTotal(c) - EffectivePrice(c[i].price, c[i].discount)
  {
    MinusKeepsLine(c, i);
    MinusStepTotal(c, i);
  }

  /** An enabled plus raises the total by one unit's price. */
  lemma PlusRaisesTotal(c: Cart, i: nat)
    requires UniqueKeys(c) && i < |c| && IncrementEnabled(c[i]) && c[i].quantity >= 0
    ensures CartTotal(Apply(c, Plus(i))) == CartTotal(c) + EffectivePrice(c[i].price, c[i].discount)
  {
    PlusRaisesLine(c, i);
    PlusStepTotal(c, i);
  }


  /** Removing keeps only lines that were already there. */
  lemma RemoveKeeps(c: Cart, k: LineKey)
    requires Positive(c) && WithinStock(c)
    ensures Positive(RemoveFromCart(c, k)) && WithinStock(RemoveFromCart(c, k))
  {
    var r := RemoveFromCart(c, k);
    RemoveMembers(c, k);
    forall j | 0 <= j < |r| ensures r[j].quantity >= 1 && r[j].quantity <= r[j].stock {
      assert r[j] in r;
    }
  }

  /** Replacing one line by a line of one unit or more within its stock
      keeps the whole cart so. */
  lemma ReplaceKeeps(c: Cart, i: nat, l: CartLine)
    requires Positive(c) && WithinStock(c) && i < |c|
    requires 1 <= l.quantity <= l.stock
    ensures Positive(c[i := l]) && WithinStock(c[i := l])
  {
  }

  /** The minus button never takes its row's identity out of the cart; the
      remove button always does. */
  lemma ApplyKeys(c: Cart, click: Click)
    ensures click.Minus? && click.row < |c| ==> HasKey(Apply(c, click), Key(c[click.row]))
    ensures click.Remove? && click.row < |c| ==> !HasKey(Apply(c, click), Key(c[click.row]))
  {
    match click
    case ClearAll =>
    case Plus(_) =>
    case Minus(i) =>
      if i < |c| {
        assert HasKey(c, Key(c[i]));
        if DecrementEnabled(c[i]) {
          ApplyMinusStep(c, i);
        }
      }
    case Remove(i) =>
      if i < |c| {
        ApplyRemoveStep(c, i);
        RemoveMembers(c, Key(c[i]));
      }
  }

  /** No click puts two lines with the same identity into the cart. */
  lemma ApplyKeepsUnique(c: Cart, click: Click)
    requires UniqueKeys(c)
    ensures UniqueKeys(Apply(c, click))
  {
    match click
    case ClearAll =>
    case Remove(i) =>
      if i < |c| {
        ApplyRemoveStep(c, i);
        RemoveKeepsUnique(c, Key(c[i]));
      }
    case Minus(i) =>
      if i < |c| && DecrementEnabled(c[i]) {
        ApplyMinusStep(c, i);
      }
    case Plus(i) =>
      if i < |c| && IncrementEnabled(c[i]) {
        ApplyPlusStep(c, i);
      }
  }

  /** Any click keeps every line at one unit or more and within its stock
      snapshot. */
  lemma ApplyKeeps(c: Cart, click: Click)
    requires UniqueKeys(c) && Positive(c) && WithinStock(c)
    ensures Positive(Apply(c, click)) && WithinStock(Apply(c, click))
  {
    match click
    case ClearAll =>
    case Remove(i) =>
      if i < |c| {
        ApplyRemoveStep(c, i);
        RemoveKeeps(c, Key(c[i]));
      }
    case Minus(i) =>
      if i < |c| && DecrementEnabled(c[i]) {
        MinusKeepsLine(c, i);
        ReplaceKeeps(c, i, c[i].(quantity := c[i].quantity - 1));
      }
    case Plus(i) =>
      if i < |c| && IncrementEnabled(c[i]) {
        PlusRaisesLine(c, i);
        ReplaceKeeps(c, i, c[i].(quantity := c[i].quantity + 1));
      }
  }

  /** A run of clicks. */
  function ApplyAll(c: Cart, clicks: seq<Click>): Cart
  {
    if clicks == [] then c else Apply(ApplyAll(c, clicks[..|clicks| - 1]), clicks[|clicks| - 1])
  }

  /** Through any run of clicks, a unique cart of positive lines within stock
      stays so: the minus button never deletes a line and the plus button
      never passes the stock snapshot. */
  lemma {:induction false} ApplyAllKeeps(c: Cart, clicks: seq<Click>)
    requires UniqueKeys(c) && Positive(c) && WithinStock(c)
    ensures var r := ApplyAll(c, clicks);
            UniqueKeys(r) && Positive(r) && WithinStock(r)
    decreases |clicks|
  {
    if clicks != [] {
      ApplyAllKeeps(c, clicks[..|clicks| - 1]);
      ApplyKeepsUnique(ApplyAll(c, clicks[..|clicks| - 1]), clicks[|clicks| - 1]);
      ApplyKeeps(ApplyAll(c, clicks[..|clicks| - 1]), clicks[|clicks| - 1]);
    }
  }
}

=== FILE: catalog.dfy ===
/** The product catalog: the product record with its schema defaults and
    category enum (backend/src/models/Product.js), and the product
    controller's create, list, get, update and delete rules
    (backend/src/controllers/productController.js). The database is an
    abstract map from id to record; a listing works on the records in the
    order the store returns them. */
module Catalog {
  import opened Common

  /** The category enum of the schema. */
  const Categories: seq<string> := ["men", "women", "kids", "accessories"]

  function ValidCategory(c: string): (r: bool)
    ensures r <==> c == "men" || c == "women" || c == "kids" || c == "accessories"
    ensures r ==> TruthyText(Some(c))
  {
    c in Categories
  }

  /** The schema's defaults for fields create does not pass on. */
  const DefaultDiscount: real := 0.0
  const DefaultStock: int := 0
  const DefaultSizes: seq<string> := ["S", "M", "L", "XL"]
  const DefaultColors: seq<string> := []
  /** The image stored when create receives none. */
  const DefaultImage: string := "/uploads/default.jpg"

  /** A stored product. `category` is kept as the stored string: create
      checks it against the enum, update does not (no validators run on
      findByIdAndUpdate). */
  datatype Product = Product(
    id: string,
    name: string,
    description: string,
    price: real,
    discount: real,
    category: string,
    image: string,
    stock: int,
    sizes: seq<string>,
    colors: seq<string>)

  /** The schema's required fields are present and the category is one of the
      enum. A required string must be non-empty; a required number is
      present whatever its value, so a price of 0 passes the schema though
      createProduct refuses it. */
  function SchemaValid(p: Product): (r: bool)
    ensures r ==> TruthyText(Some(p.name)) && TruthyText(Some(p.description)) && TruthyText(Some(p.category))
    ensures r ==> ValidCategory(p.category)
    ensures p.name != "" && p.description != "" && p.image != "" && ValidCategory(p.category) ==> r
  {
    p.name != "" && p.description != "" && p.image != "" && ValidCategory(p.category)
  }

  type ProductStore = map<string, Product>

  /** A create or update request body: every field may be absent from the
      JSON. A JSON null is not distinguished from an absent field. */
  datatype ProductBody = ProductBody(
    name: Option<string>,
    description: Option<string>,
    price: Option<real>,
    discount: Option<real>,
    category: Option<string>,
    image: Option<string>,
    stock: Option<int>,
    sizes: Option<seq<string>>,
    colors: Option<seq<string>>)

  /** JavaScript truthiness of an optional string and an optional number. */
  predicate TruthyText(s: Option<string>)
  {
    s.Some? && s.value != ""
  }

  predicate TruthyNumber(x: Option<real>)
  {
    x.Some? && x.value != 0.0
  }

  const AllFieldsRequired: string := "All fields are required"
  const ProductValidationFailed: string := "Product validation failed"
  const ProductNotFound: string := "Product not found"

  /** createProduct: name, description, price and category must be truthy
      (so a price of 0 is refused) or the answer is 400; a category outside
      the enum fails schema validation (500). Otherwise a product is stored
      under the fresh id with the body's name, description, price, discount
      and category, the body's image or the default one, and the schema
      defaults for stock, sizes and colors, whatever the body says. The
      id is the one the database generates, so no stored product has it. */
  function CreateProduct(store: ProductStore, newId: string, body: ProductBody): (r: (ProductStore, Response<Product>))
    requires newId !in store
    ensures r.1.Fail? && r.1.status == 400 <==>
              !TruthyText(body.name) || !TruthyText(body.description)
              || !TruthyNumber(body.price) || !TruthyText(body.category)
    ensures r.1.Fail? && r.1.status == 400 ==> r.1 == Fail(400, AllFieldsRequired)
    ensures TruthyText(body.name) && TruthyText(body.description) && TruthyNumber(body.price)
            && TruthyText(body.category) && !ValidCategory(body.category.value)
            ==> r.1 == Fail(500, ProductValidationFailed)
    ensures r.1.Fail? ==> r.0 == store
    ensures forall k :: k in store ==> k in r.0 && r.0[k] == store[k]
    ensures r.1.Ok? <==> TruthyText(body.name) && TruthyText(body.description)
                         && TruthyNumber(body.price) && TruthyText(body.category)
                         && ValidCategory(body.category.value)
    ensures r.1.Ok? ==>
              var p := r.1.body;
              && r.1.status == 201
              && r.0 == store[newId := p]
              && SchemaValid(p) && p.id == newId
              && p.name == body.name.value && p.description == body.description.value
              && p.price == body.price.value && p.price != 0.0
              && p.category == body.category.value
              && p.discount == body.discount.GetOr(DefaultDiscount)
              && p.image == (if TruthyText(body.image) then body.image.value else DefaultImage)
              && p.stock == DefaultStock && p.sizes == DefaultSizes && p.colors == DefaultColors
  {
    if !TruthyText(body.name) || !TruthyText(body.description)
       || !TruthyNumber(body.price) || !TruthyText(body.category) then
      (store, Fail(400, AllFieldsRequired))
    else if !ValidCategory(body.category.value) then
      (store, Fail(500, ProductValidationFailed))
    else
      var image := if TruthyText(body.image) then body.image.value else DefaultImage;
      var p := Product(newId, body.name.value, body.description.value, body.price.value,
                       body.discount.GetOr(DefaultDiscount), body.category.value, image,
                       DefaultStock, DefaultSizes, DefaultColors);
      (store[newId := p], Ok(201, p))
  }

  /** The image URL the views render for a stored image: an absolute
      `http...` URL as it is, anything else under "/uploads/". */
  function ImageSrc(image: string): (r: string)
    ensures StartsWith(image, "http") ==> r == image
    ensures !StartsWith(image, "http") ==> StartsWith(r, "/uploads/") && r[|"/uploads/"|..] == image
  {
    if StartsWith(image, "http") then image else "/uploads/" + image
  }

  /** The default image create stores is already under "/uploads/", so the
      views prefix it a second time. */
  lemma DefaultImageDoublePrefixed()
    ensures ImageSrc(DefaultImage) == "/uploads//uploads/default.jpg"
  {
    assert DefaultImage[..4][0] == '/';
  }

  // ---------------------------------------------------------------------
  // Listing: category filter and price sort
  // ---------------------------------------------------------------------

  /** The products of one category, in store order. */
  function FilterCategory(ps: seq<Product>, category: string): (r: seq<Product>)
    ensures forall p :: p in r <==> p in ps && p.category == category
    ensures multiset(r) <= multiset(ps)
    ensures forall p :: p in ps && p.category == category ==> multiset(r)[p] == multiset(ps)[p]
  {
    if ps == [] then []
    else
      var rest := FilterCategory(ps[1..], category);
      assert ps == [ps[0]] + ps[1..];
      if ps[0].category == category then [ps[0]] + rest else rest
  }

  /** Filtering works piece by piece: the products of a category in two
      listings one after the other are those of the first listing followed
      by those of the second, so the filter keeps store order. */
  lemma {:induction false} FilterAppend(a: seq<Product>, b: seq<Product>, category: string)
    ensures FilterCategory(a + b, category) == FilterCategory(a, category) + FilterCategory(b, category)
    decreases |a|
  {
    if a != [] {
      var head := if a[0].category == category then [a[0]] else [];
      assert (a + b)[0] == a[0] && (a + b)[1..] == a[1..] + b;
      assert FilterCategory(a + b, category) == head + FilterCategory(a[1..] + b, category);
      assert FilterCategory(a, category) == head + FilterCategory(a[1..], category);
      FilterAppend(a[1..], b, category);
      AppendAssoc(head, FilterCategory(a[1..], category), FilterCategory(b, category));
    } else {
      assert a + b == b;
    }
  }

  lemma AppendAssoc<T>(x: seq<T>, y: seq<T>, z: seq<T>)
    ensures x + (y + z) == (x + y) + z
  {
  }

  /** A listing of one category passes the filter for it unchanged. */
  lemma {:induction false} FilterKeepsCategory(ps: seq<Product>, category: string)
    requires forall i :: 0 <= i < |ps| ==> ps[i].category == category
    ensures FilterCategory(ps, category) == ps
    decreases |ps|
  {
    if ps != [] {
      FilterKeepsCategory(ps[1..], category);
    }
  }

  /** `a` may precede `b` in a listing sorted by price. */
  predicate InPriceOrder(a: Product, b: Product, descending: bool)
  {
    if descending then a.price >= b.price else a.price <= b.price
  }

  predicate SortedByPrice(ps: seq<Product>, descending: bool)
  {
    forall i, j :: 0 <= i < j < |ps| ==> InPriceOrder(ps[i], ps[j], descending)
  }

  /** A product that may precede every member of a sorted listing may head
      it. */
  lemma ConsSorted(x: Product, rest: seq<Product>, descending: bool)
    requires SortedByPrice(rest, descending)
    requires forall y | y in rest :: InPriceOrder(x, y, descending)
    ensures SortedByPrice([x] + rest, descending)
  {
    var r := [x] + rest;
    forall i, j | 0 <= i < j < |r| ensures InPriceOrder(r[i], r[j], descending) {
      assert r[j] == rest[j - 1] && rest[j - 1] in rest;
      if i > 0 { assert r[i] == rest[i - 1]; }
    }
  }

  /** The head of a sorted listing may precede what its tail holds, and
      anything else it may precede. */
  lemma HeadPrecedes(ps: seq<Product>, p: Product, rest: seq<Product>, descending: bool)
    requires ps != [] && SortedByPrice(ps, descending)
    requires InPriceOrder(ps[0], p, descending)
    requires multiset(rest) == multiset(ps[1..]) + multiset{p}
    ensures forall y | y in rest :: InPriceOrder(ps[0], y, descending)
  {
    forall y | y in rest ensures InPriceOrder(ps[0], y, descending) {
      assert y in multiset(rest);
      if y != p {
        assert y in multiset(ps[1..]);
        var j :| 0 <= j < |ps[1..]| && ps[1..][j] == y;
        assert ps[j + 1] == y;
      }
    }
  }

  function InsertByPrice(p: Product, ps: seq<Product>, descending: bool): (r: seq<Product>)
    requires SortedByPrice(ps, descending)
    ensures SortedByPrice(r, descending)
    ensures multiset(r) == multiset(ps) + multiset{p}
  {
    if ps == [] then [p]
    else if InPriceOrder(p, ps[0], descending) then
      assert forall y | y in ps :: InPriceOrder(p, y, descending) by {
        forall y | y in ps ensures InPriceOrder(p, y, descending) {
          var j :| 0 <= j < |ps| && ps[j] == y;
          if j > 0 { assert InPriceOrder(ps[0], ps[j], descending); }
        }
      }
      ConsSorted(p, ps, descending);
      [p] + ps
    else
      var rest := InsertByPrice(p, ps[1..], descending);
      assert ps == [ps[0]] + ps[1..];
      HeadPrecedes(ps, p, rest, descending);
      ConsSorted(ps[0], rest, descending);
      [ps[0]] + rest
  }

  /** A permutation of `ps` ordered by price. Products of equal price are
      left in store order (the database leaves their order unspecified). */
  function SortByPrice(ps: seq<Product>, descending: bool): (r: seq<Product>)
    ensures SortedByPrice(r, descending)
    ensures multiset(r) == multiset(ps)
  {
    if ps == [] then []
    else
      assert ps == [ps[0]] + ps[1..];
      InsertByPrice(ps[0], SortByPrice(ps[1..], descending), descending)
  }

  /** getProducts: a truthy category query keeps exactly that category's
      products; `price_asc`/`price_desc` sort by price; any other sort value
      leaves the store order. */
  function GetProducts(all: seq<Product>, category: Option<string>, sort: Option<string>): (r: seq<Product>)
    ensures forall p :: p in r <==> p in all && (TruthyText(category) ==> p.category == category.value)
    ensures !TruthyText(category) ==> multiset(r) == multiset(all)
    ensures TruthyText(category) ==> multiset(r) == multiset(FilterCategory(all, category.value))
    ensures sort == Some("price_asc") ==> SortedByPrice(r, false)
    ensures sort == Some("price_desc") ==> SortedByPrice(r, true)
    ensures sort != Some("price_asc") && sort != Some("price_desc") ==>
              r == if TruthyText(category) then FilterCategory(all, category.value) else all
  {
    var filtered := if TruthyText(category) then FilterCategory(all, category.value) else all;
    var r := if sort == Some("price_asc") then SortByPrice(filtered, false)
             else if sort == Some("price_desc") then SortByPrice(filtered, true)
             else filtered;
    assert forall p :: p in r <==> p in multiset(filtered);
    r
  }

  // ---------------------------------------------------------------------
  // By-id operations
  // ---------------------------------------------------------------------

  /** getProductById */
  function GetProductById(store: ProductStore, id: string): (r: Response<Product>)
    ensures id !in store <==> r == Fail(404, ProductNotFound)
    ensures id in store ==> r == Ok(200, store[id])
  {
    if id in store then Ok(200, store[id]) else Fail(404, ProductNotFound)
  }

  /** The body's present fields written over a product; absent fields keep
      their stored values. */
  function ApplyBody(p: Product, body: ProductBody): (r: Product)
    ensures r.id == p.id
    ensures r.name == body.name.GetOr(p.name) && r.description == body.description.GetOr(p.description)
    ensures r.price == body.price.GetOr(p.price) && r.discount == body.discount.GetOr(p.discount)
    ensures r.category == body.category.GetOr(p.category) && r.image == body.image.GetOr(p.image)
    ensures r.stock == body.stock.GetOr(p.stock) && r.sizes == body.sizes.GetOr(p.sizes)
    ensures r.colors == body.colors.GetOr(p.colors)
  {
    Product(p.id, body.name.GetOr(p.name), body.description.GetOr(p.description),
            body.price.GetOr(p.price), body.discount.GetOr(p.discount),
            body.category.GetOr(p.category), body.image.GetOr(p.image),
            body.stock.GetOr(p.stock), body.sizes.GetOr(p.sizes), body.colors.GetOr(p.colors))
  }

  /** updateProduct: 404 for an unknown id; otherwise the body's fields are
      written over the stored product and the updated record is returned. */
  function UpdateProduct(store: ProductStore, id: string, body: ProductBody): (r: (ProductStore, Response<Product>))
    ensures id !in store ==> r == (store, Fail(404, ProductNotFound))
    ensures id in store ==> r.1.Ok? && r.1.status == 200
                            && r.0 == store[id := r.1.body]
                            && r.1.body == ApplyBody(store[id], body)
  {
    if id in store then
      var p := ApplyBody(store[id], body);
      (store[id := p], Ok(200, p))
    else (store, Fail(404, ProductNotFound))
  }

  /** Writing the same body twice is the same as writing it once. */
  lemma {:induction false} UpdateIdempotent(store: ProductStore, id: string, body: ProductBody)
    ensures UpdateProduct(UpdateProduct(store, id, body).0, id, body) == UpdateProduct(store, id, body)
  {
    if id in store {
      var q := ApplyBody(store[id], body);
      assert ApplyBody(q, body) == q;
      assert store[id := q][id := q] == store[id := q];
    }
  }

  /** An empty body leaves the stored product as it was. */
  lemma EmptyUpdateChangesNothing(store: ProductStore, id: string)
    requires id in store
    ensures UpdateProduct(store, id, ProductBody(None, None, None, None, None, None, None, None, None)).0 == store
  {
  }

  /** deleteProduct */
  function DeleteProduct(store: ProductStore, id: string): (r: (ProductStore, Response<()>))
    ensures id !in store ==> r == (store, Fail(404, ProductNotFound))
    ensures id in store ==> r.1 == Ok(200, ()) && r.0.Keys == store.Keys - {id}
    ensures forall k :: k in r.0 ==> k in store && r.0[k] == store[k]
  {
    if id in store then (store - {id}, Ok(200, ())) else (store, Fail(404, ProductNotFound))
  }

  /** Update bypasses the enum: a product created valid can be moved to a
      category outside it. */
  lemma UpdateCanLeaveEnum(store: ProductStore, id: string)
    requires id in store
    ensures !ValidCategory(UpdateProduct(store, id,
              ProductBody(None, None, None, None, Some("shoes"), None, None, None, None)).1.body.category)
  {
  }

  /** Create never stores a product that violates the schema. */
  lemma CreateKeepsSchema(store: ProductStore, newId: string, body: ProductBody)
    requires newId !in store
    requires forall k :: k in store ==> SchemaValid(store[k])
    ensures var s := CreateProduct(store, newId, body).0; forall k :: k in s ==> SchemaValid(s[k])
  {
  }
}

=== FILE: checkout.dfy ===
/** The checkout page (frontend/src/pages/Checkout/Checkout.jsx): the
    shipping-form defaults, the order payload built from the cart lines and
    the price breakdown, and what submitting does to the cart, the error
    line and the location. The request to the order API is a parameter: its
    reply is passed in. */
module Checkout {
  import opened Common
  import opened Pricing
  import opened Cart
  import Orders

  /** The shipping and payment form. */
  datatype CheckoutForm = CheckoutForm(
    address: string, city: string, postalCode: string, country: string, paymentMethod: string)

  /** The form as the page first shows it. */
  const InitialForm: CheckoutForm := CheckoutForm("", "", "", "India", "COD")

  /** The payment methods the form offers. */
  const PaymentMethods: seq<string> := ["COD", "Card", "UPI"]

  /** The order item a cart line becomes: name, quantity, the discounted unit
      price and the product id. */
  function OrderItemOf(l: CartLine): (r: Orders.ItemInput)
    ensures r.name == l.name && r.product == l.id
    ensures r.qty == Some(l.quantity)
    ensures r.price == Some(EffectivePrice(l.price, l.discount))
    ensures l.discount <= 0.0 ==> r.price == Some(l.price)
  {
    Orders.ItemInput(l.name, Some(l.quantity), Some(EffectivePrice(l.price, l.discount)), l.id)
  }

  /** The payload's item list: one item per cart line, in cart order. */
  function ItemsOf(c: Cart): (r: seq<Orders.ItemInput>)
    ensures |r| == |c|
    ensures forall i :: 0 <= i < |c| ==> r[i] == OrderItemOf(c[i])
  {
    seq(|c|, i requires 0 <= i < |c| => OrderItemOf(c[i]))
  }

  /** What one payload item is worth: unit price times quantity. */
  function ItemAmount(i: Orders.ItemInput): real
  {
    i.price.GetOr(0.0) * i.qty.GetOr(0) as real
  }

  /** The sum of the payload items' amounts. */
  function PayloadTotal(items: seq<Orders.ItemInput>): real
  {
    if items == [] then 0.0 else PayloadTotal(items[..|items| - 1]) + ItemAmount(items[|items| - 1])
  }

  /** The same sum over the items a stored order holds. */
  function StoredTotal(items: seq<Orders.OrderItem>): real
  {
    if items == [] then 0.0
    else StoredTotal(items[..|items| - 1]) + items[|items| - 1].price * items[|items| - 1].qty as real
  }

  /** An item built from a line is worth the line's subtotal. */
  lemma ItemAmountOfLine(l: CartLine)
    ensures ItemAmount(OrderItemOf(l)) == LineSubtotal(l)
  {
  }

  /** The payload's items sum to the cart total. */
  lemma {:induction false} PayloadMatchesCart(c: Cart)
    ensures PayloadTotal(ItemsOf(c)) == CartTotal(c)
    decreases |c|
  {
    if c != [] {
      var n := |c|;
      assert ItemsOf(c)[..n - 1] == ItemsOf(c[..n - 1]);
      PayloadMatchesCart(c[..n - 1]);
      ItemAmountOfLine(c[n - 1]);
    }
  }

  /** Stored items copied field by field from valid payload items sum to the
      same amount. */
  lemma {:induction false} StoredMatchesPayload(os: seq<Orders.OrderItem>, xs: seq<Orders.ItemInput>)
    requires |os| == |xs|
    requires forall i :: 0 <= i < |xs| ==>
               Orders.ItemValid(xs[i]) && os[i].qty == xs[i].qty.value && os[i].price == xs[i].price.value
    ensures StoredTotal(os) == PayloadTotal(xs)
    decreases |xs|
  {
    if xs != [] {
      var n := |xs|;
      StoredMatchesPayload(os[..n - 1], xs[..n - 1]);
    }
  }

  /** The order payload: the cart's items, the form's address and payment
      method, and the breakdown of the cart total. */
  function BuildOrderBody(c: Cart, form: CheckoutForm): (r: Orders.CreateOrderBody)
    ensures r.orderItems == Some(ItemsOf(c))
    ensures r.shippingAddress == Orders.ShippingAddress(form.address, form.city, form.postalCode, form.country)
    ensures r.paymentMethod == form.paymentMethod
    ensures r.itemsPrice == Some(PayloadTotal(ItemsOf(c)))
    ensures r.taxPrice == Some(Tax(CartTotal(c)))
    ensures r.shippingPrice == Some(Shipping(CartTotal(c)))
    ensures r.totalPrice.Some? && r.itemsPrice.Some? && r.taxPrice.Some? && r.shippingPrice.Some?
    ensures r.totalPrice.value == r.itemsPrice.value + r.taxPrice.value + r.shippingPrice.value
  {
    var subtotal := CartTotal(c);
    PayloadMatchesCart(c);
    Orders.CreateOrderBody(
      Some(ItemsOf(c)),
      Orders.ShippingAddress(form.address, form.city, form.postalCode, form.country),
      form.paymentMethod,
      Some(subtotal), Some(Tax(subtotal)), Some(Shipping(subtotal)), Some(CheckoutTotal(subtotal)))
  }

  /** The worked example: a 1000 subtotal ships for 99, is taxed 180 and
      totals 1279. */
  lemma PayloadExample()
    ensures var c := [CartLine("p1", "Kurta", 1000.0, 0.0, "k.jpg", 1, "M", "", 5)];
            var b := BuildOrderBody(c, InitialForm);
            b.itemsPrice == Some(1000.0) && b.shippingPrice == Some(99.0)
            && b.taxPrice == Some(180.0) && b.totalPrice == Some(1279.0)
  {
    var c := [CartLine("p1", "Kurta", 1000.0, 0.0, "k.jpg", 1, "M", "", 5)];
    assert c[..0] == [];
  }

  /** The order API's answer to the create request. */
  datatype ApiReply = Created(orderId: string) | Rejected(message: Option<string>)

  /** The page after a submit: the cart, the error line, where it navigated
      (if anywhere) and the request it sent (if any). */
  datatype SubmitOutcome = SubmitOutcome(
    cart: Cart, error: string, navigate: Option<string>, request: Option<Orders.CreateOrderBody>)

  const LoginForCheckout: string := "/login?redirect=checkout"
  const CartEmptyError: string := "Your cart is empty"
  const CreateFailedError: string := "Failed to create order"

  /** handleSubmit. An unauthenticated visitor is sent to the login page and
      an empty cart only sets an error; neither sends a request. Otherwise the
      error is cleared and the payload sent: on success the cart is cleared
      and the page moves to the order's success page; on failure the cart is
      kept and the server's message (or a fallback) is shown. */
  function HandleSubmit(isAuthenticated: bool, c: Cart, form: CheckoutForm, error: string, reply: ApiReply)
    : (r: SubmitOutcome)
    ensures r.request.Some? <==> isAuthenticated && |c| > 0
    ensures r.request.Some? ==> r.request.value == BuildOrderBody(c, form)
    ensures !isAuthenticated ==> r == SubmitOutcome(c, error, Some(LoginForCheckout), None)
    ensures isAuthenticated && |c| == 0 ==> r == SubmitOutcome(c, CartEmptyError, None, None)
    ensures r.cart != c ==> r.request.Some? && reply.Created? && r.cart == ClearCart()
    ensures r.request.Some? && reply.Created? ==>
              r.cart == [] && r.error == "" && r.navigate == Some("/order-success/" + reply.orderId)
    ensures r.request.Some? && reply.Rejected? ==>
              r.cart == c && r.navigate.None? && r.error != ""
              && r.error == (if reply.message.Some? && reply.message.value != "" then reply.message.value
                             else CreateFailedError)
  {
    if !isAuthenticated then SubmitOutcome(c, error, Some(LoginForCheckout), None)
    else if |c| == 0 then SubmitOutcome(c, CartEmptyError, None, None)
    else
      var body := BuildOrderBody(c, form);
      match reply
      case Created(id) => SubmitOutcome(ClearCart(), "", Some("/order-success/" + id), Some(body))
      case Rejected(m) =>
        var msg := if m.Some? && m.value != "" then m.value else CreateFailedError;
        SubmitOutcome(c, msg, None, Some(body))
  }

  /** End to end: when the server accepts the payload of a non-empty cart,
      the stored order's items are worth its items price, that price is the
      cart total, and the order's total is the sum of its parts. */
  lemma {:induction false} CheckoutOrderConsistent(store: Orders.OrderStore, user: string, newId: string,
                                                  c: Cart, form: CheckoutForm)
    requires newId !in store
    requires (Orders.CreateOrder(store, user, newId, BuildOrderBody(c, form))).1.Ok?
    ensures var o := Orders.CreateOrder(store, user, newId, BuildOrderBody(c, form)).1.body;
            && o.itemsPrice == CartTotal(c)
            && StoredTotal(o.orderItems) == o.itemsPrice
            && Orders.PriceConsistent(o)
            && |o.orderItems| == |c|
            && (forall i :: 0 <= i < |c| ==> o.orderItems[i].product == c[i].id
                                             && o.orderItems[i].qty == c[i].quantity)
  {
    var b := BuildOrderBody(c, form);
    var o := Orders.CreateOrder(store, user, newId, b).1.body;
    PayloadMatchesCart(c);
    StoredMatchesPayload(o.orderItems, ItemsOf(c));
  }
}

=== FILE: common.dfy ===
/** Shared vocabulary: an optional value and the handful of JavaScript string
    operations the storefront's rules are written with (startsWith, an
    unanchored substring test, ASCII case mapping, trim, split/join on one
    separator character, and decimal digit strings). */
module Common {

  /** A value that may be absent (`undefined`/`null` in the source). */
  datatype Option<T> = None | Some(value: T) {
    function GetOr(default: T): T
    {
      if Some? then value else default
    }
  }

  /** What a controller sends back: a success status with a body, or an
      error status with the `message` field of the JSON error body. */
  datatype Response<T> = Ok(status: int, body: T) | Fail(status: int, message: string)

  // ---------------------------------------------------------------------
  // Prefixes and substrings
  // ---------------------------------------------------------------------

  /** `s.startsWith(p)` */
  predicate StartsWith(s: string, p: string)
  {
    |p| <= |s| && s[..|p|] == p
  }

  /** An unanchored search for `t` in `s`, as a regular expression without
      anchors performs it. */
  predicate Contains(s: string, t: string)
    decreases |s|
  {
    StartsWith(s, t) || (|s| > 0 && Contains(s[1..], t))
  }

  /** `t` occurs in `s` iff it occurs at some position. */
  lemma {:induction false} ContainsAt(s: string, t: string, i: nat)
    requires i + |t| <= |s|
    requires s[i..i + |t|] == t
    ensures Contains(s, t)
    decreases i
  {
    if i == 0 {
      assert s[..|t|] == t;
    } else {
      assert s[1..][i - 1..i - 1 + |t|] == s[i..i + |t|];
      ContainsAt(s[1..], t, i - 1);
    }
  }

  /** A string shorter than `t` cannot contain it. */
  lemma {:induction false} ShortNotContains(s: string, t: string)
    requires |s| < |t|
    ensures !Contains(s, t)
    decreases |s|
  {
    if |s| > 0 {
      ShortNotContains(s[1..], t);
    }
  }

  // ---------------------------------------------------------------------
  // ASCII case mapping (String.prototype.toLowerCase / toUpperCase)
  // ---------------------------------------------------------------------

  function LowerChar(c: char): char
  {
    if 'A' <= c <= 'Z' then (c as int + 32) as char else c
  }

  function UpperChar(c: char): char
  {
    if 'a' <= c <= 'z' then (c as int - 32) as char else c
  }

  function ToLower(s: string): (r: string)
    ensures |r| == |s|
    ensures forall i :: 0 <= i < |s| ==> r[i] == LowerChar(s[i])
    ensures forall i :: 0 <= i < |r| ==> !('A' <= r[i] <= 'Z')
  {
    seq(|s|, i requires 0 <= i < |s| => LowerChar(s[i]))
  }

  function ToUpper(s: string): (r: string)
    ensures |r| == |s|
    ensures forall i :: 0 <= i < |s| ==> r[i] == UpperChar(s[i])
    ensures forall i :: 0 <= i < |r| ==> !('a' <= r[i] <= 'z')
  {
    seq(|s|, i requires 0 <= i < |s| => UpperChar(s[i]))
  }

  /** `s.slice(-n)`: the last `n` characters, or all of `s` when shorter. */
  function LastN(s: string, n: nat): (r: string)
    ensures |r| == if |s| < n then |s| else n
    ensures s == s[..|s| - |r|] + r
  {
    if |s| <= n then s else s[|s| - n..]
  }

  // ---------------------------------------------------------------------
  // Whitespace and trim (String.prototype.trim)
  // ---------------------------------------------------------------------

  /** The white-space and line-terminator characters `trim` removes. */
  predicate IsSpace(c: char)
  {
    c == ' ' || c == '\t' || c == '\n' || c == '\r' || c == '\U{0B}' || c == '\U{0C}'
    || c == '\U{A0}' || c == '\U{FEFF}' || c == '\U{2028}' || c == '\U{2029}'
  }

  /** No white space at either end. */
  predicate IsTrimmed(s: string)
  {
    s == [] || (!IsSpace(s[0]) && !IsSpace(s[|s| - 1]))
  }

  function TrimStart(s: string): (r: string)
    ensures |r| <= |s| && r == s[|s| - |r|..]
    ensures r == [] || !IsSpace(r[0])
    ensures forall i :: 0 <= i < |s| - |r| ==> IsSpace(s[i])
  {
    if |s| > 0 && IsSpace(s[0]) then TrimStart(s[1..]) else s
  }

  function TrimEnd(s: string): (r: string)
    ensures |r| <= |s| && r == s[..|r|]
    ensures r == [] || !IsSpace(r[|r| - 1])
    ensures forall i :: |r| <= i < |s| ==> IsSpace(s[i])
  {
    if |s| > 0 && IsSpace(s[|s| - 1]) then TrimEnd(s[..|s| - 1]) else s
  }

  /** `s.trim()`: the result is `s` with white space removed from both ends. */
  function Trim(s: string): (r: string)
    ensures IsTrimmed(r)
    ensures IsTrimmed(s) ==> r == s
    ensures |r| <= |s|
  {
    TrimEnd(TrimStart(s))
  }

  /** Trimming adds no character: what `s` lacks, its trim lacks. */
  lemma TrimLacks(s: string, c: char)
    requires c !in s
    ensures c !in Trim(s)
  {
    var t := TrimStart(s);
    var r := TrimEnd(t);
    assert c !in t by {
      assert t == s[|s| - |t|..];
    }
    assert r == t[..|r|];
  }

  // ---------------------------------------------------------------------
  // split / join on one separator character
  // ---------------------------------------------------------------------

  /** `s.split(d)` for a one-character separator: the pieces between
      separators, including empty ones; `"".split(d)` is `[""]`. */
  function Split(s: string, d: char): (r: seq<string>)
    ensures |r| >= 1
    ensures forall i :: 0 <= i < |r| ==> d !in r[i]
    decreases |s|
  {
    if s == [] then [""]
    else
      var rest := Split(s[1..], d);
      if s[0] == d then [""] + rest else [[s[0]] + rest[0]] + rest[1..]
  }

  /** `xs.join(d)` for a one-character separator. */
  function Join(xs: seq<string>, d: char): string
  {
    if |xs| == 0 then ""
    else if |xs| == 1 then xs[0]
    else xs[0] + [d] + Join(xs[1..], d)
  }

  /** Splitting a string with no separator in it gives the string itself. */
  lemma {:induction false} SplitNoSeparator(s: string, d: char)
    requires d !in s
    ensures Split(s, d) == [s]
    decreases |s|
  {
    if s != [] {
      assert s[0] in s;
      SplitNoSeparator(s[1..], d);
      assert [s[0]] + s[1..] == s;
    }
  }

  /** A separator-free head splits off as the first piece. */
  lemma {:induction false} SplitAfterHead(a: string, d: char, b: string)
    requires d !in a
    ensures Split(a + [d] + b, d) == [a] + Split(b, d)
    decreases |a|
  {
    if a == [] {
      assert a + [d] + b == [d] + b;
      assert ([d] + b)[1..] == b;
    } else {
      assert (a + [d] + b)[1..] == a[1..] + [d] + b;
      SplitAfterHead(a[1..], d, b);
      assert [a[0]] + a[1..] == a;
    }
  }

  /** Splitting at a separator concatenates the pieces of either side: the
      pieces come out in the order they appear in the input. */
  lemma {:induction false} SplitConcat(a: string, d: char, b: string)
    ensures Split(a + [d] + b, d) == Split(a, d) + Split(b, d)
    decreases |a|
  {
    if a == [] {
      SplitAfterHead(a, d, b);
    } else {
      assert (a + [d] + b)[1..] == a[1..] + [d] + b;
      SplitConcat(a[1..], d, b);
    }
  }

  /** split undoes join when no piece contains the separator and there is at
      least one piece (`[].join(d)` is `""`, which splits to `[""]`). */
  lemma {:induction false} SplitJoin(xs: seq<string>, d: char)
    requires |xs| >= 1
    requires forall i :: 0 <= i < |xs| ==> d !in xs[i]
    ensures Split(Join(xs, d), d) == xs
    decreases |xs|
  {
    if |xs| == 1 {
      SplitNoSeparator(xs[0], d);
    } else {
      SplitJoin(xs[1..], d);
      SplitAfterHead(xs[0], d, Join(xs[1..], d));
    }
  }

  /** Joining is empty exactly when every piece is empty and there is at most
      one of them. */
  lemma {:induction false} JoinEmpty(xs: seq<string>, d: char)
    ensures Join(xs, d) == "" <==> |xs| == 0 || (|xs| == 1 && xs[0] == "")
  {
    if |xs| > 1 {
      assert |Join(xs, d)| >= |xs[0] + [d]|;
    }
  }

  // ---------------------------------------------------------------------
  // Decimal digits
  // ---------------------------------------------------------------------

  predicate IsDigit(c: char)
  {
    '0' <= c <= '9'
  }

  predicate AllDigits(s: string)
  {
    forall i :: 0 <= i < |s| ==> IsDigit(s[i])
  }

  function DigitChar(n: nat): (c: char)
    requires n < 10
    ensures IsDigit(c)
  {
    (48 + n) as char
  }

  function DigitValue(c: char): (n: nat)
    requires IsDigit(c)
    ensures n < 10 && DigitChar(n) == c
  {
    c as int - 48
  }

  /** `n.toString()` for a non-negative integer. */
  function NatToString(n: nat): (r: string)
    ensures |r| >= 1 && AllDigits(r)
  {
    if n < 10 then [DigitChar(n)] else NatToString(n / 10) + [DigitChar(n % 10)]
  }

  /** The value of a string of decimal digits. */
  function DigitsValue(s: string): nat
    requires AllDigits(s)
  {
    if s == [] then 0 else DigitsValue(s[..|s| - 1]) * 10 + DigitValue(s[|s| - 1])
  }

  /** Reading back a printed number gives the number. */
  lemma {:induction false} DigitsValueNatToString(n: nat)
    ensures DigitsValue(NatToString(n)) == n
  {
    if n >= 10 {
      DigitsValueNatToString(n / 10);
      var s := NatToString(n);
      assert s[..|s| - 1] == NatToString(n / 10);
    }
  }

  /** The longest prefix of `s` made of decimal digits. */
  function LeadingDigits(s: string): (r: string)
    ensures AllDigits(r) && StartsWith(s, r)
    ensures |r| < |s| ==> !IsDigit(s[|r|])
  {
    if |s| > 0 && IsDigit(s[0]) then [s[0]] + LeadingDigits(s[1..]) else ""
  }

  lemma {:induction false} LeadingDigitsOfDigits(a: string, b: string)
    requires AllDigits(a)
    requires b == [] || !IsDigit(b[0])
    ensures LeadingDigits(a + b) == a
    decreases |a|
  {
    if a != [] {
      assert (a + b)[1..] == a[1..] + b;
      LeadingDigitsOfDigits(a[1..], b);
    }
  }
}

=== FILE: orders.dfy ===
/** The order record (backend/src/models/orderModel.js) and the order
    controller (backend/src/controllers/orderController.js): creation from a
    request body, the two independent forward transitions (paid, delivered),
    and the lookups. The database is an abstract map from id to record; the
    clock and the generated id are parameters. */
module Orders {
  import opened Common

  /** One purchased line, stored by value. */
  datatype OrderItem = OrderItem(name: string, qty: int, price: real, product: string)

  /** An order item as it arrives in a request body: the numbers may be
      missing. */
  datatype ItemInput = ItemInput(name: string, qty: Option<int>, price: Option<real>, product: string)

  datatype ShippingAddress = ShippingAddress(address: string, city: string, postalCode: string, country: string)

  /** The payment gateway's confirmation, copied from the pay request. */
  datatype PaymentResult = PaymentResult(
    id: Option<string>,
    status: Option<string>,
    updateTime: Option<string>,
    emailAddress: Option<string>)

  datatype Order = Order(
    id: string,
    user: string,
    orderItems: seq<OrderItem>,
    shippingAddress: ShippingAddress,
    paymentMethod: string,
    paymentStatus: string,
    isPaid: bool,
    paidAt: Option<int>,
    paymentResult: Option<PaymentResult>,
    itemsPrice: real,
    taxPrice: real,
    shippingPrice: real,
    totalPrice: real,
    orderStatus: string,
    isDelivered: bool,
    deliveredAt: Option<int>)

  type OrderStore = map<string, Order>

  /** The createOrder request body. */
  datatype CreateOrderBody = CreateOrderBody(
    orderItems: Option<seq<ItemInput>>,
    shippingAddress: ShippingAddress,
    paymentMethod: string,
    itemsPrice: Option<real>,
    taxPrice: Option<real>,
    shippingPrice: Option<real>,
    totalPrice: Option<real>)

  /** The pay request body. */
  datatype PayBody = PayBody(
    id: Option<string>,
    status: Option<string>,
    updateTime: Option<string>,
    emailAddress: Option<string>)

  const NoOrderItems: string := "No order items"
  const OrderValidationFailed: string := "Order validation failed"
  const OrderNotFound: string := "Order not found"

  // ---------------------------------------------------------------------
  // The schema
  // ---------------------------------------------------------------------

  /** Every order item needs a name, a quantity, a price and a product
      reference. */
  predicate ItemValid(i: ItemInput)
  {
    i.name != "" && i.qty.Some? && i.price.Some? && i.product != ""
  }

  /** The shipping address needs all four parts. */
  predicate AddressValid(a: ShippingAddress)
  {
    a.address != "" && a.city != "" && a.postalCode != "" && a.country != ""
  }

  /** What saving a new order checks: the user, every item, the address and
      the payment method. Every accepted item has a quantity and a price to
      store; the item list itself is not required, so an empty one passes. */
  function SchemaValid(user: string, items: seq<ItemInput>, a: ShippingAddress, paymentMethod: string): (r: bool)
    ensures r ==> forall i :: 0 <= i < |items| ==> items[i].qty.Some? && items[i].price.Some?
    ensures r ==> user != "" && paymentMethod != ""
    ensures items == [] ==> (r <==> user != "" && AddressValid(a) && paymentMethod != "")
  {
    user != "" && (forall i :: 0 <= i < |items| ==> ItemValid(items[i]))
    && AddressValid(a) && paymentMethod != ""
  }

  function ToItem(i: ItemInput): (r: OrderItem)
    requires ItemValid(i)
    ensures r.name == i.name && r.qty == i.qty.value && r.price == i.price.value && r.product == i.product
  {
    OrderItem(i.name, i.qty.value, i.price.value, i.product)
  }

  function ToItems(items: seq<ItemInput>): (r: seq<OrderItem>)
    requires forall i :: 0 <= i < |items| ==> ItemValid(items[i])
    ensures |r| == |items|
    ensures forall i :: 0 <= i < |items| ==> r[i] == ToItem(items[i])
  {
    seq(|items|, i requires 0 <= i < |items| => ToItem(items[i]))
  }

  /** The state a freshly saved order is in on both axes: the schema's
      defaults, which agree with each other. */
  function Initial(o: Order): (r: bool)
    ensures r ==> StatusCoherent(o)
  {
    && !o.isPaid && o.paymentStatus == "Pending" && o.paidAt.None? && o.paymentResult.None?
    && !o.isDelivered && o.orderStatus == "Processing" && o.deliveredAt.None?
  }

  /** The status fields agree with each other: paid iff a payment time is
      stamped iff a payment result is recorded; delivered iff a delivery
      time is stamped iff the status reads "Delivered". */
  predicate StatusCoherent(o: Order)
  {
    && (o.isPaid <==> o.paidAt.Some?)
    && (o.isPaid <==> o.paymentResult.Some?)
    && (o.isDelivered <==> o.deliveredAt.Some?)
    && (o.isDelivered <==> o.orderStatus == "Delivered")
  }

  /** Everything but the two status axes is the same. */
  predicate SameContent(a: Order, b: Order)
  {
    && a.id == b.id && a.user == b.user && a.orderItems == b.orderItems
    && a.shippingAddress == b.shippingAddress && a.paymentMethod == b.paymentMethod
    && a.itemsPrice == b.itemsPrice && a.taxPrice == b.taxPrice
    && a.shippingPrice == b.shippingPrice && a.totalPrice == b.totalPrice
  }

  predicate SamePayment(a: Order, b: Order)
  {
    a.isPaid == b.isPaid && a.paidAt == b.paidAt && a.paymentResult == b.paymentResult
    && a.paymentStatus == b.paymentStatus
  }

  predicate SameFulfillment(a: Order, b: Order)
  {
    a.isDelivered == b.isDelivered && a.deliveredAt == b.deliveredAt && a.orderStatus == b.orderStatus
  }

  // ---------------------------------------------------------------------
  // createOrder
  // ---------------------------------------------------------------------

  /** createOrder: a missing or empty item list is refused with 400 before
      anything is saved; a body the schema refuses fails the save (500);
      otherwise the order is stored under the generated id, owned by the
      authenticated user, with the body's items, address and payment method,
      the four prices as sent (0 when absent, never recomputed), and the
      initial status on both axes. The id is the one the database
      generates, so no stored order has it. */
  function CreateOrder(store: OrderStore, user: string, newId: string, body: CreateOrderBody)
    : (r: (OrderStore, Response<Order>))
    requires newId !in store
    ensures r.1 == Fail(400, NoOrderItems) <==> body.orderItems.None? || |body.orderItems.value| == 0
    ensures body.orderItems.Some? && |body.orderItems.value| > 0
            && !SchemaValid(user, body.orderItems.value, body.shippingAddress, body.paymentMethod)
            ==> r.1 == Fail(500, OrderValidationFailed)
    ensures r.1.Fail? ==> r.0 == store
    ensures forall k :: k in store ==> k in r.0 && r.0[k] == store[k]
    ensures r.1.Ok? <==> body.orderItems.Some? && |body.orderItems.value| > 0
                         && SchemaValid(user, body.orderItems.value, body.shippingAddress, body.paymentMethod)
    ensures r.1.Ok? ==>
              var o := r.1.body;
              && r.1.status == 201
              && r.0 == store[newId := o]
              && o.id == newId && o.user == user
              && |o.orderItems| == |body.orderItems.value|
              && (forall i :: 0 <= i < |o.orderItems| ==>
                    o.orderItems[i].name == body.orderItems.value[i].name
                    && o.orderItems[i].qty == body.orderItems.value[i].qty.value
                    && o.orderItems[i].price == body.orderItems.value[i].price.value
                    && o.orderItems[i].product == body.orderItems.value[i].product)
              && o.shippingAddress == body.shippingAddress && o.paymentMethod == body.paymentMethod
              && o.itemsPrice == body.itemsPrice.GetOr(0.0) && o.taxPrice == body.taxPrice.GetOr(0.0)
              && o.shippingPrice == body.shippingPrice.GetOr(0.0)
              && o.totalPrice == body.totalPrice.GetOr(0.0)
              && Initial(o) && StatusCoherent(o)
  {
    if body.orderItems.None? || |body.orderItems.value| == 0 then
      (store, Fail(400, NoOrderItems))
    else if !SchemaValid(user, body.orderItems.value, body.shippingAddress, body.paymentMethod) then
      (store, Fail(500, OrderValidationFailed))
    else
      var o := Order(newId, user, ToItems(body.orderItems.value), body.shippingAddress, body.paymentMethod,
                     "Pending", false, None, None,
                     body.itemsPrice.GetOr(0.0), body.taxPrice.GetOr(0.0),
                     body.shippingPrice.GetOr(0.0), body.totalPrice.GetOr(0.0),
                     "Processing", false, None);
      (store[newId := o], Ok(201, o))
  }

  /** The server takes the total on trust: a body whose total disagrees with
      its parts is stored as sent. */
  lemma TotalNotCrossChecked(store: OrderStore)
    requires "o1" !in store
    ensures var body := CreateOrderBody(Some([ItemInput("Kurta", Some(1), Some(1000.0), "p1")]),
                                        ShippingAddress("1 Main St", "Pune", "411001", "India"), "COD",
                                        Some(1000.0), Some(180.0), Some(99.0), Some(1.0));
            var r := CreateOrder(store, "u1", "o1", body);
            r.1.Ok? && r.1.body.totalPrice == 1.0
            && r.1.body.totalPrice != r.1.body.itemsPrice + r.1.body.taxPrice + r.1.body.shippingPrice
  {
  }

  // ---------------------------------------------------------------------
  // The two transitions
  // ---------------------------------------------------------------------

  /** The payment status pay records: the body's status, or "Paid" when
      that is absent or empty. */
  function PaymentStatusOf(body: PayBody): (r: string)
    ensures r != ""
    ensures body.status.Some? && body.status.value != "" ==> r == body.status.value
  {
    if body.status.Some? && body.status.value != "" then body.status.value else "Paid"
  }

  /** The paid transition on one record. There is no already-paid guard. */
  function Pay(o: Order, now: int, body: PayBody): (r: Order)
    ensures r.isPaid && r.paidAt == Some(now)
    ensures r.paymentResult == Some(PaymentResult(body.id, body.status, body.updateTime, body.emailAddress))
    ensures r.paymentStatus == PaymentStatusOf(body)
    ensures SameContent(o, r) && SameFulfillment(o, r)
  {
    o.(isPaid := true, paidAt := Some(now),
       paymentResult := Some(PaymentResult(body.id, body.status, body.updateTime, body.emailAddress)),
       paymentStatus := PaymentStatusOf(body))
  }

  /** The delivered transition on one record. It does not look at the
      payment axis. */
  function Deliver(o: Order, now: int): (r: Order)
    ensures r.isDelivered && r.deliveredAt == Some(now) && r.orderStatus == "Delivered"
    ensures SameContent(o, r) && SamePayment(o, r)
  {
    o.(isDelivered := true, deliveredAt := Some(now), orderStatus := "Delivered")
  }

  /** updateOrderToPaid: 404 and no change for an unknown id; otherwise the
      record is paid at `now` and written back. */
  function UpdateOrderToPaid(store: OrderStore, id: string, now: int, body: PayBody)
    : (r: (OrderStore, Response<Order>))
    ensures id !in store ==> r == (store, Fail(404, OrderNotFound))
    ensures id in store ==>
              && r.1.Ok? && r.1.status == 200 && r.0 == store[id := r.1.body]
              && r.1.body.isPaid && r.1.body.paidAt == Some(now)
              && r.1.body.paymentResult == Some(PaymentResult(body.id, body.status, body.updateTime, body.emailAddress))
              && r.1.body.paymentStatus == PaymentStatusOf(body)
              && SameContent(store[id], r.1.body) && SameFulfillment(store[id], r.1.body)
  {
    if id in store then
      var o := Pay(store[id], now, body);
      (store[id := o], Ok(200, o))
    else (store, Fail(404, OrderNotFound))
  }

  /** updateOrderToDelivered: 404 and no change for an unknown id; otherwise
      the record is delivered at `now`, paid or not, and written back. */
  function UpdateOrderToDelivered(store: OrderStore, id: string, now: int)
    : (r: (OrderStore, Response<Order>))
    ensures id !in store ==> r == (store, Fail(404, OrderNotFound))
    ensures id in store ==>
              && r.1.Ok? && r.1.status == 200 && r.0 == store[id := r.1.body]
              && r.1.body.isDelivered && r.1.body.deliveredAt == Some(now)
              && r.1.body.orderStatus == "Delivered"
              && SameContent(store[id], r.1.body) && SamePayment(store[id], r.1.body)
  {
    if id in store then
      var o := Deliver(store[id], now);
      (store[id := o], Ok(200, o))
    else (store, Fail(404, OrderNotFound))
  }

  /** Paying again overwrites the earlier payment time and result. */
  lemma RepayOverwrites(store: OrderStore, id: string, t1: int, b1: PayBody, t2: int, b2: PayBody)
    requires id in store
    ensures var s1 := UpdateOrderToPaid(store, id, t1, b1).0;
            UpdateOrderToPaid(s1, id, t2, b2) == UpdateOrderToPaid(store, id, t2, b2)
  {
    var o := store[id];
    assert Pay(Pay(o, t1, b1), t2, b2) == Pay(o, t2, b2);
    assert store[id := Pay(o, t1, b1)][id := Pay(o, t2, b2)] == store[id := Pay(o, t2, b2)];
  }

  /** Delivering again keeps the "Delivered" status and re-stamps the time:
      only the last call's time remains. */
  lemma RedeliverRestamps(store: OrderStore, id: string, t1: int, t2: int)
    requires id in store
    ensures var s1 := UpdateOrderToDelivered(store, id, t1).0;
            UpdateOrderToDelivered(s1, id, t2) == UpdateOrderToDelivered(store, id, t2)
  {
    var o := store[id];
    assert Deliver(Deliver(o, t1), t2) == Deliver(o, t2);
    assert store[id := Deliver(o, t1)][id := Deliver(o, t2)] == store[id := Deliver(o, t2)];
  }

  /** The two axes are independent: paying then delivering ends in the same
      store as delivering then paying. */
  lemma PayDeliverCommute(store: OrderStore, id: string, tp: int, b: PayBody, td: int)
    ensures UpdateOrderToDelivered(UpdateOrderToPaid(store, id, tp, b).0, id, td).0
            == UpdateOrderToPaid(UpdateOrderToDelivered(store, id, td).0, id, tp, b).0
  {
    if id in store {
      var o := store[id];
      assert Deliver(Pay(o, tp, b), td) == Pay(Deliver(o, td), tp, b);
      assert store[id := Pay(o, tp, b)][id := Deliver(Pay(o, tp, b), td)]
             == store[id := Deliver(o, td)][id := Pay(Deliver(o, td), tp, b)];
    }
  }

  /** An unpaid order can be delivered. */
  lemma DeliverWithoutPayment(store: OrderStore, id: string, now: int)
    requires id in store && !store[id].isPaid
    ensures var o := UpdateOrderToDelivered(store, id, now).1.body;
            o.isDelivered && !o.isPaid
  {
  }

  /** Every stored order keeps its status fields coherent through create,
      pay and deliver. */
  predicate StoreCoherent(store: OrderStore)
  {
    forall id :: id in store ==> StatusCoherent(store[id])
  }

  lemma CoherenceKept(store: OrderStore, user: string, newId: string, body: CreateOrderBody,
                      id: string, now: int, pay: PayBody)
    requires StoreCoherent(store)
    ensures newId !in store ==> StoreCoherent(CreateOrder(store, user, newId, body).0)
    ensures StoreCoherent(UpdateOrderToPaid(store, id, now, pay).0)
    ensures StoreCoherent(UpdateOrderToDelivered(store, id, now).0)
  {
  }

  /** A price-consistent order stays price-consistent through either
      transition. */
  predicate PriceConsistent(o: Order)
  {
    o.totalPrice == o.itemsPrice + o.taxPrice + o.shippingPrice
  }

  lemma TransitionsKeepPrices(o: Order, now: int, body: PayBody)
    requires PriceConsistent(o)
    ensures PriceConsistent(Pay(o, now, body)) && PriceConsistent(Deliver(o, now))
  {
  }

  // ---------------------------------------------------------------------
  // Lookups
  // ---------------------------------------------------------------------

  /** getOrderById */
  function GetOrderById(store: OrderStore, id: string): (r: Response<Order>)
    ensures id !in store <==> r == Fail(404, OrderNotFound)
    ensures id in store ==> r == Ok(200, store[id])
  {
    if id in store then Ok(200, store[id]) else Fail(404, OrderNotFound)
  }

  /** getMyOrders: the user's own orders, in the order the store lists them. */
  function GetMyOrders(all: seq<Order>, user: string): (r: seq<Order>)
    ensures forall o :: o in r <==> o in all && o.user == user
    ensures |r| <= |all|
  {
    if all == [] then []
    else
      var rest := GetMyOrders(all[1..], user);
      assert all == [all[0]] + all[1..];
      if all[0].user == user then [all[0]] + rest else rest
  }

  /** The listing keeps store order: the orders of a concatenated listing
      are those of the first part followed by those of the second. */
  lemma {:induction false} GetMyOrdersAppend(a: seq<Order>, b: seq<Order>, user: string)
    ensures GetMyOrders(a + b, user) == GetMyOrders(a, user) + GetMyOrders(b, user)
    decreases |a|
  {
    if a != [] {
      var head := if a[0].user == user then [a[0]] else [];
      assert (a + b)[0] == a[0] && (a + b)[1..] == a[1..] + b;
      assert GetMyOrders(a + b, user) == head + GetMyOrders(a[1..] + b, user);
      assert GetMyOrders(a, user) == head + GetMyOrders(a[1..], user);
      GetMyOrdersAppend(a[1..], b, user);
      assert head + (GetMyOrders(a[1..], user) + GetMyOrders(b, user))
          == (head + GetMyOrders(a[1..], user)) + GetMyOrders(b, user);
    } else {
      assert a + b == b;
    }
  }

  /** A listing of one user's orders comes back whole, in its own order. */
  lemma {:induction false} GetMyOrdersKeepsOwn(all: seq<Order>, user: string)
    requires forall i :: 0 <= i < |all| ==> all[i].user == user
    ensures GetMyOrders(all, user) == all
    decreases |all|
  {
    if all != [] {
      GetMyOrdersKeepsOwn(all[1..], user);
      assert all == [all[0]] + all[1..];
    }
  }
}

=== FILE: pricing.dfy ===
/** The storefront's price arithmetic: the discounted unit price used by the
    cart, the cart page, checkout and the product views, and the
    shipping/tax/total breakdown of the cart page and the checkout page.
    Prices are exact reals; the source's floating point and two-digit
    rendering are not part of this model. */
module Pricing {
  import opened Common

  /** An order whose subtotal is strictly above this ships free. */
  const FreeShippingThreshold: real := 2000.0
  /** The flat shipping fee otherwise. */
  const FlatShipping: real := 99.0
  /** GST, as a fraction of the subtotal. */
  const TaxRate: real := 0.18

  /** The unit price after the line's discount percentage; a discount that is
      zero or negative is ignored. */
  function EffectivePrice(price: real, discount: real): (r: real)
    ensures discount <= 0.0 ==> r == price
    ensures 0.0 <= discount <= 100.0 && price >= 0.0 ==> 0.0 <= r <= price
  {
    if discount > 0.0 then price * (1.0 - discount / 100.0) else price
  }

  /** Shipping for a subtotal: free strictly above the threshold, else flat. */
  function Shipping(subtotal: real): (r: real)
    ensures r == 0.0 <==> subtotal > FreeShippingThreshold
    ensures r == FlatShipping <==> subtotal <= FreeShippingThreshold
  {
    if subtotal > 2000.0 then 0.0 else 99.0
  }

  /** 18% GST on the subtotal. */
  function Tax(subtotal: real): (r: real)
    ensures subtotal >= 0.0 ==> 0.0 <= r <= subtotal
    ensures r * 100.0 == 18.0 * subtotal
  {
    subtotal * TaxRate
  }

  /** The checkout page's grand total. */
  function CheckoutTotal(subtotal: real): (r: real)
    ensures subtotal > FreeShippingThreshold ==> r == subtotal * 1.18
    ensures subtotal <= FreeShippingThreshold ==> r == subtotal * 1.18 + FlatShipping
  {
    subtotal + Shipping(subtotal) + Tax(subtotal)
  }

  /** The cart page's total: subtotal plus shipping, with no tax. */
  function CartPageTotal(subtotal: real): (r: real)
    ensures r + Tax(subtotal) == CheckoutTotal(subtotal)
  {
    subtotal + Shipping(subtotal)
  }

  /** The cart page's "Add ₹x more for free shipping" hint: present only while
      shipping is charged, and then the amount still missing up to the
      threshold (zero at exactly the threshold). */
  function FreeShippingGap(subtotal: real): (r: Option<real>)
    ensures r.Some? <==> Shipping(subtotal) > 0.0
    ensures r.Some? <==> subtotal <= FreeShippingThreshold
    ensures r.Some? ==> r.value >= 0.0 && subtotal + r.value == FreeShippingThreshold
  {
    if Shipping(subtotal) > 0.0 then Some(2000.0 - subtotal) else None
  }

  /** What a product view shows as its price: the current price and, when a
      discount is on display, the struck-through original. */
  datatype PriceDisplay = PriceDisplay(current: real, original: Option<real>)

  /** The price display as the product card and the product page write it:
      the discounted price is computed only for a positive discount, and is
      then tested for truthiness, so a discounted price of exactly 0 falls
      back to showing the undiscounted price alone. */
  function DisplayedPrice(price: real, discount: real): (r: PriceDisplay)
    ensures r.original.Some? <==> discount > 0.0 && EffectivePrice(price, discount) != 0.0
    ensures r.original.Some? ==> r.original.value == price && r.current == EffectivePrice(price, discount)
    ensures r.original.None? ==> r.current == price
  {
    var discounted := if discount > 0.0 then Some(price * (1.0 - discount / 100.0)) else None;
    if discounted.Some? && discounted.value != 0.0 then PriceDisplay(discounted.value, Some(price))
    else PriceDisplay(price, None)
  }

  /** The price display the views evidently intend: the discounted price is
      shown whenever the discount is positive. */
  function IntendedDisplayedPrice(price: real, discount: real): (r: PriceDisplay)
    ensures r.original.Some? <==> discount > 0.0
    ensures r.current == EffectivePrice(price, discount)
    ensures r.original.Some? ==> r.original.value == price
  {
    if discount > 0.0 then PriceDisplay(EffectivePrice(price, discount), Some(price))
    else PriceDisplay(price, None)
  }

  /** A 100% discount: the as-written display shows the full price as the
      current price, with no strike-through, while the cart charges 0. */
  lemma FullDiscountDisplaysFullPrice()
    ensures DisplayedPrice(500.0, 100.0) == PriceDisplay(500.0, None)
    ensures EffectivePrice(500.0, 100.0) == 0.0
    ensures IntendedDisplayedPrice(500.0, 100.0) == PriceDisplay(0.0, Some(500.0))
  {
  }

  /** The two displays agree except when the discounted price is exactly 0. */
  lemma DisplaysAgreeUnlessFree(price: real, discount: real)
    requires !(discount > 0.0 && EffectivePrice(price, discount) == 0.0)
    ensures DisplayedPrice(price, discount) == IntendedDisplayedPrice(price, discount)
  {
  }

  /** Worked examples of the checkout breakdown. */
  lemma CheckoutExamples()
    ensures Shipping(1999.0) == 99.0 && Shipping(2000.0) == 99.0 && Shipping(2001.0) == 0.0
    ensures Tax(1000.0) == 180.0 && CheckoutTotal(1000.0) == 1279.0
    ensures FreeShippingGap(2000.0) == Some(0.0) && FreeShippingGap(2000.5).None?
    ensures EffectivePrice(1000.0, 20.0) * 3.0 == 2400.0
  {
  }
}

=== FILE: productcard.dfy ===
/** The product card of the listings
    (frontend/src/components/ProductCard/ProductCard.jsx): its image URL,
    sale and sold-out badges, the price display, and the quick-add button. */
module ProductCard {
  import opened Common
  import opened Pricing
  import opened Catalog
  import opened Cart

  /** What a card shows. `saleBadge` carries the discount percentage. */
  datatype CardView = CardView(
    imageSrc: string,
    saleBadge: Option<real>,
    soldOut: bool,
    quickAddEnabled: bool,
    price: PriceDisplay)

  /** The sale badge: the discount percentage, shown for a positive
      discount. */
  function SaleBadge(p: Product): (r: Option<real>)
    ensures r.Some? <==> p.discount > 0.0
    ensures r.Some? ==> r.value == p.discount
  {
    if p.discount > 0.0 then Some(p.discount) else None
  }

  /** The card for a product, as the card is written: the price goes
      through the truthiness test of Pricing.DisplayedPrice, so the sale
      badge can show while the price has no strike-through. */
  function CardOf(p: Product): (r: CardView)
    ensures r.imageSrc == ImageSrc(p.image)
    ensures r.saleBadge == SaleBadge(p)
    ensures r.soldOut <==> p.stock == 0
    ensures r.quickAddEnabled <==> !r.soldOut
    ensures r.price.original.Some? ==> r.saleBadge.Some?
    ensures r.price.original.Some? <==> p.discount > 0.0 && EffectivePrice(p.price, p.discount) != 0.0
    ensures r.price.original.Some? ==>
              r.price.current == EffectivePrice(p.price, p.discount) && r.price.original.value == p.price
    ensures r.price.original.None? ==> r.price.current == p.price
  {
    CardView(ImageSrc(p.image), SaleBadge(p), p.stock == 0, !(p.stock == 0), DisplayedPrice(p.price, p.discount))
  }

  /** A free product (discount 100) shows the "-100%" badge next to its
      full price, with nothing struck through, although the cart would
      charge 0 for it. */
  lemma FreeCardShowsFullPrice(p: Product)
    requires p.price == 500.0 && p.discount == 100.0
    ensures CardOf(p).saleBadge == Some(100.0)
    ensures CardOf(p).price == PriceDisplay(500.0, None)
    ensures EffectivePrice(p.price, p.discount) == 0.0
  {
    FullDiscountDisplaysFullPrice();
  }

  /** The card with the corrected price display: the price struck through
      exactly when the sale badge shows, and the price shown is the one the
      cart charges. */
  function IntendedCardOf(p: Product): (r: CardView)
    ensures r.saleBadge == SaleBadge(p)
    ensures r.price.original.Some? <==> r.saleBadge.Some?
    ensures r.price.current == EffectivePrice(p.price, p.discount)
    ensures r.price.original.Some? ==> r.price.original.value == p.price
  {
    CardOf(p).(price := IntendedDisplayedPrice(p.price, p.discount))
  }

  /** The corrected card differs from the card as written only for a
      product whose discount brings its price to exactly 0. */
  lemma CardsAgreeUnlessFree(p: Product)
    ensures IntendedCardOf(p) == CardOf(p) <==> !(p.discount > 0.0 && EffectivePrice(p.price, p.discount) == 0.0)
  {
    if p.discount > 0.0 && EffectivePrice(p.price, p.discount) == 0.0 {
      assert CardOf(p).price.original.None? && IntendedCardOf(p).price.original.Some?;
    } else {
      DisplaysAgreeUnlessFree(p.price, p.discount);
    }
  }

  /** The quick-add button: one unit in size "M" and the default color, or
      nothing when the button is disabled. */
  function QuickAdd(c: Cart, p: Product): (r: Cart)
    ensures p.stock == 0 ==> r == c
    ensures p.stock != 0 ==> HasKey(r, LineKey(p.id, "M", ""))
    ensures p.stock != 0 ==> CartCount(r) == CartCount(c) + 1
    ensures UniqueKeys(c) ==> UniqueKeys(r)
  {
    if p.stock == 0 then c
    else AddToCartDefaults(c, FromCatalog(p), Some(1), Some("M"), None)
  }

  /** Quick-adding a product not yet in the cart in size "M" appends one
      line of one unit at the product's price and discount. */
  lemma QuickAddNewLine(c: Cart, p: Product)
    requires p.stock != 0 && !HasKey(c, LineKey(p.id, "M", ""))
    ensures var r := QuickAdd(c, p);
            |r| == |c| + 1 && r[..|c|] == c
            && r[|c|].quantity == 1 && r[|c|].size == "M" && r[|c|].color == ""
            && r[|c|].price == p.price && r[|c|].discount == p.discount && r[|c|].stock == p.stock
  {
  }

  /** Quick-adding twice gives one line of two units, never two lines. */
  lemma QuickAddTwice(c: Cart, p: Product)
    requires p.stock != 0 && UniqueKeys(c) && !HasKey(c, LineKey(p.id, "M", ""))
    ensures var r := QuickAdd(QuickAdd(c, p), p);
            |r| == |c| + 1 && r[..|c|] == c && r[|c|].quantity == 2 && UniqueKeys(r)
  {
    var k := LineKey(p.id, "M", "");
    var r1 := QuickAdd(c, p);
    UniqueIndex(r1, k, |c|);
    assert QuickAdd(r1, p)[..|c|] == r1[..|c|];
  }
}

=== FILE: productdetail.dfy ===
/** The product page (frontend/src/pages/ProductDetail/ProductDetail.jsx):
    the selection state set up when the product loads, the quantity stepper,
    the size and color pickers, the stock-driven flags and the add-to-cart
    button. Fetching the product is left out; the page is modelled from the
    moment the product is in hand. */
module ProductDetail {
  import opened Common
  import opened Pricing
  import opened Catalog
  import opened Cart

  /** The page's selection: the chosen size, color and quantity. */
  datatype Selection = Selection(size: string, color: string, quantity: int)

  /** The selection right after the product loads: size "M" (listed or not),
      the first listed color or "" when there is none, one unit. */
  function Loaded(p: Product): (r: Selection)
    ensures r.size == "M" && r.quantity == 1
    ensures |p.colors| > 0 ==> r.color == p.colors[0]
    ensures |p.colors| == 0 ==> r.color == ""
  {
    Selection("M", if |p.colors| > 0 then p.colors[0] else "", 1)
  }

  /** The stepper's buttons. An enabled button moves the quantity by one
      without the clamp of its handler coming into play; the minus button is
      enabled exactly when one unit less still leaves one, the plus button
      exactly when one unit more still fits the stock. */
  function MinusEnabled(s: Selection): (r: bool)
    ensures r <==> s.quantity - 1 >= 1
    ensures r ==> Max(1, s.quantity - 1) == s.quantity - 1
  {
    !(s.quantity <= 1)
  }

  function PlusEnabled(p: Product, s: Selection): (r: bool)
    ensures r <==> s.quantity + 1 <= p.stock
    ensures r ==> Min(p.stock, s.quantity + 1) == s.quantity + 1
  {
    !(s.quantity >= p.stock)
  }

  /** What the user does on the page: the stepper's two buttons, a size
      button, a color swatch. Only listed sizes and colors have buttons. */
  datatype Action = Minus | Plus | PickSize(size: string) | PickColor(color: string)

  function Max(a: int, b: int): int { if a >= b then a else b }
  function Min(a: int, b: int): int { if a <= b then a else b }

  /** One action. A disabled button or a size/color with no button does
      nothing; minus clamps at 1 and plus at the stock. */
  function Step(p: Product, s: Selection, a: Action): (r: Selection)
    ensures a.Minus? && MinusEnabled(s) ==> r == s.(quantity := Max(1, s.quantity - 1))
    ensures a.Plus? && PlusEnabled(p, s) ==> r == s.(quantity := Min(p.stock, s.quantity + 1))
    ensures (a.Minus? && !MinusEnabled(s)) || (a.Plus? && !PlusEnabled(p, s)) ==> r == s
    ensures a.PickSize? ==>
              r.quantity == s.quantity && r.color == s.color
              && (r.size == a.size <==> a.size in p.sizes || s.size == a.size)
    ensures a.PickColor? ==>
              r.quantity == s.quantity && r.size == s.size
              && (r.color == a.color <==> a.color in p.colors || s.color == a.color)
  {
    match a
    case Minus => if MinusEnabled(s) then s.(quantity := Max(1, s.quantity - 1)) else s
    case Plus => if PlusEnabled(p, s) then s.(quantity := Min(p.stock, s.quantity + 1)) else s
    case PickSize(x) => if x in p.sizes then s.(size := x) else s
    case PickColor(x) => if x in p.colors then s.(color := x) else s
  }

  function Run(p: Product, s: Selection, actions: seq<Action>): Selection
  {
    if actions == [] then s else Step(p, Run(p, s, actions[..|actions| - 1]), actions[|actions| - 1])
  }

  /** The quantity is at least one and at most the stock, or exactly one
      when there is no stock. */
  predicate QuantityInRange(p: Product, s: Selection)
  {
    1 <= s.quantity <= Max(1, p.stock)
  }

  lemma StepInRange(p: Product, s: Selection, a: Action)
    requires QuantityInRange(p, s)
    ensures QuantityInRange(p, Step(p, s, a))
  {
  }

  /** From loading on, whatever the user clicks, the quantity stays between
      1 and the stock (1 when sold out). */
  lemma {:induction false} RunInRange(p: Product, actions: seq<Action>)
    ensures QuantityInRange(p, Run(p, Loaded(p), actions))
    ensures p.stock >= 1 ==> 1 <= Run(p, Loaded(p), actions).quantity <= p.stock
    decreases |actions|
  {
    if actions != [] {
      RunInRange(p, actions[..|actions| - 1]);
      StepInRange(p, Run(p, Loaded(p), actions[..|actions| - 1]), actions[|actions| - 1]);
    }
  }

  /** Pressing plus stock-many times from the start reaches the stock exactly. */
  lemma PlusReachesStock()
    ensures var p := Product("p1", "Kurta", "Cotton", 1000.0, 0.0, "women", "k.jpg", 3, DefaultSizes, []);
            Run(p, Loaded(p), [Plus, Plus, Plus]).quantity == 3
  {
    var p := Product("p1", "Kurta", "Cotton", 1000.0, 0.0, "women", "k.jpg", 3, DefaultSizes, []);
    var a := [Plus, Plus, Plus];
    var s0 := Loaded(p);
    assert [Plus][..0] == [];
    assert Run(p, s0, [Plus]).quantity == 2;
    assert [Plus, Plus][..1] == [Plus];
    assert Run(p, s0, [Plus, Plus]).quantity == 3;
    assert a[..2] == [Plus, Plus];
  }

  /** The size defaults to "M" even for a product that does not list it. */
  lemma DefaultSizeUnlisted()
    ensures var p := Product("p2", "Scarf", "Silk", 500.0, 0.0, "accessories", "s.jpg", 4, ["Free"], ["Red"]);
            Loaded(p).size == "M" && "M" !in p.sizes && Loaded(p).color == "Red"
  {
  }

  /** The flags the page derives from the product. `badge` carries the
      discount percentage shown on the image. */
  datatype DetailView = DetailView(
    imageSrc: string,
    badge: Option<real>,
    price: PriceDisplay,
    lowStock: bool,
    inStock: bool,
    addEnabled: bool)

  /** The page as written: the badge shows for a positive discount, while
      the price goes through the truthiness test of Pricing.DisplayedPrice. */
  function ViewOf(p: Product): (r: DetailView)
    ensures r.imageSrc == ImageSrc(p.image)
    ensures r.badge.Some? <==> p.discount > 0.0
    ensures r.badge.Some? ==> r.badge.value == p.discount
    ensures r.price.original.Some? ==> r.badge.Some?
    ensures r.price.original.Some? <==> p.discount > 0.0 && EffectivePrice(p.price, p.discount) != 0.0
    ensures r.price.original.Some? ==>
              r.price.current == EffectivePrice(p.price, p.discount) && r.price.original.value == p.price
    ensures r.price.original.None? ==> r.price.current == p.price
    ensures r.lowStock <==> 0 < p.stock < 10
    ensures r.addEnabled <==> p.stock != 0
    ensures r.lowStock ==> r.inStock && r.addEnabled
  {
    DetailView(ImageSrc(p.image), if p.discount > 0.0 then Some(p.discount) else None,
               DisplayedPrice(p.price, p.discount), p.stock < 10 && p.stock > 0, p.stock > 0, !(p.stock == 0))
  }

  /** The page with the corrected price display: the price struck through
      exactly when the badge shows, at the price the cart charges. */
  function IntendedViewOf(p: Product): (r: DetailView)
    ensures r.badge.Some? <==> p.discount > 0.0
    ensures r.price.original.Some? <==> r.badge.Some?
    ensures r.price.current == EffectivePrice(p.price, p.discount)
    ensures r.price.original.Some? ==> r.price.original.value == p.price
  {
    ViewOf(p).(price := IntendedDisplayedPrice(p.price, p.discount))
  }

  /** The corrected page differs from the page as written only for a
      product whose discount brings its price to exactly 0. */
  lemma ViewsAgreeUnlessFree(p: Product)
    ensures IntendedViewOf(p) == ViewOf(p) <==> !(p.discount > 0.0 && EffectivePrice(p.price, p.discount) == 0.0)
  {
    if p.discount > 0.0 && EffectivePrice(p.price, p.discount) == 0.0 {
      assert ViewOf(p).price.original.None? && IntendedViewOf(p).price.original.Some?;
    } else {
      DisplaysAgreeUnlessFree(p.price, p.discount);
    }
  }

  /** The add-to-cart button: the product with the current selection, or
      nothing when it is disabled. */
  function AddSelection(c: Cart, p: Product, s: Selection): (r: Cart)
    ensures p.stock == 0 ==> r == c
    ensures p.stock != 0 ==> HasKey(r, LineKey(p.id, s.size, s.color))
                             && CartCount(r) == CartCount(c) + s.quantity
    ensures UniqueKeys(c) ==> UniqueKeys(r)
  {
    if p.stock == 0 then c
    else
      AddCount(c, FromCatalog(p), s.quantity, s.size, s.color);
      AddToCart(c, FromCatalog(p), s.quantity, s.size, s.color)
  }

  /** Whatever the user clicked before adding, the added line is within the
      product's stock when the line is new. */
  lemma AddedWithinStock(c: Cart, p: Product, actions: seq<Action>)
    requires p.stock >= 1
    requires !HasKey(c, LineKey(p.id, Run(p, Loaded(p), actions).size, Run(p, Loaded(p), actions).color))
    ensures var r := AddSelection(c, p, Run(p, Loaded(p), actions));
            |r| == |c| + 1 && 1 <= r[|c|].quantity <= r[|c|].stock
  {
    RunInRange(p, actions);
  }
}

=== FILE: productform.dfy ===
/** The admin's add/edit product form
    (frontend/src/pages/Admin/AdminProductForm.jsx): the new-form defaults,
    the form filled from a stored product, and the request body built from
    the form on submit, with its comma-separated list parser and the numeric
    fallbacks. Number-to-text formatting of prices and `parseFloat` are not
    modelled: the price and discount texts of a loaded form and the parsed
    price and discount of a submitted form are parameters. */
module ProductForm {
  import opened Common
  import opened Catalog

  /** The form's fields, all text as the inputs hold them. */
  datatype FormData = FormData(
    name: string,
    description: string,
    price: string,
    discount: string,
    category: string,
    image: string,
    stock: string,
    sizes: string,
    colors: string)

  /** The form for a new product. */
  const NewForm: FormData := FormData("", "", "", "0", "women", "", "10", DefaultSizesText, "")

  // ---------------------------------------------------------------------
  // Comma-separated lists
  // ---------------------------------------------------------------------

  /** Each piece trimmed, empty pieces dropped, order kept. */
  function CleanPieces(ps: seq<string>): (r: seq<string>)
    ensures |r| <= |ps|
  {
    if ps == [] then []
    else
      var t := Trim(ps[0]);
      var rest := CleanPieces(ps[1..]);
      if t == "" then rest else [t] + rest
  }

  /** One step of the cleaning: the first piece, trimmed, goes in front
      unless it is empty. */
  lemma CleanPiecesStep(ps: seq<string>)
    requires ps != []
    ensures CleanPieces(ps) == if Trim(ps[0]) == "" then CleanPieces(ps[1..]) else [Trim(ps[0])] + CleanPieces(ps[1..])
  {
  }

  /** A trimmed comma-free piece that is not empty is a clean label. */
  lemma TrimmedLabel(s: string)
    requires ',' !in s && Trim(s) != ""
    ensures CleanLabel(Trim(s))
  {
    TrimLacks(s, ',');
  }

  lemma CleanListCons(t: string, rest: seq<string>)
    requires CleanLabel(t) && CleanList(rest)
    ensures CleanList([t] + rest)
  {
    assert forall i :: 0 < i <= |rest| ==> ([t] + rest)[i] == rest[i - 1];
  }

  /** Pieces without a comma clean to clean labels: every piece kept is
      trimmed, non-empty, and (trimming adds no character) comma-free. */
  lemma {:induction false} CleanPiecesClean(ps: seq<string>)
    requires forall i :: 0 <= i < |ps| ==> ',' !in ps[i]
    ensures CleanList(CleanPieces(ps))
    decreases |ps|
  {
    if ps != [] {
      assert forall i :: 0 <= i < |ps[1..]| ==> ps[1..][i] == ps[i + 1];
      CleanPiecesClean(ps[1..]);
      CleanPiecesStep(ps);
      if Trim(ps[0]) != "" {
        TrimmedLabel(ps[0]);
        CleanListCons(Trim(ps[0]), CleanPieces(ps[1..]));
      }
    }
  }

  lemma HeadTailAppend<T>(a: seq<T>, b: seq<T>)
    requires a != []
    ensures (a + b)[0] == a[0] && (a + b)[1..] == a[1..] + b
  {
  }

  lemma ConsAppend<T>(t: T, x: seq<T>, y: seq<T>)
    ensures [t] + (x + y) == ([t] + x) + y
  {
  }

  lemma {:induction false} CleanPiecesAppend(a: seq<string>, b: seq<string>)
    ensures CleanPieces(a + b) == CleanPieces(a) + CleanPieces(b)
    decreases |a|
  {
    if a != [] {
      HeadTailAppend(a, b);
      CleanPiecesStep(a);
      CleanPiecesStep(a + b);
      CleanPiecesAppend(a[1..], b);
      ConsAppend(Trim(a[0]), CleanPieces(a[1..]), CleanPieces(b));
    } else {
      assert a + b == b;
    }
  }

  /** A label the form can carry through a save unchanged. */
  predicate CleanLabel(s: string)
  {
    s != "" && IsTrimmed(s) && ',' !in s
  }

  predicate CleanList(xs: seq<string>)
  {
    forall i :: 0 <= i < |xs| ==> CleanLabel(xs[i])
  }

  lemma {:induction false} CleanPiecesOfClean(xs: seq<string>)
    requires CleanList(xs)
    ensures CleanPieces(xs) == xs
    decreases |xs|
  {
    if xs != [] {
      CleanPiecesOfClean(xs[1..]);
      assert [xs[0]] + xs[1..] == xs;
    }
  }

  /** `text.split(',').map(trim).filter(Boolean)`: every entry is a clean
      label. */
  function ParseList(s: string): (r: seq<string>)
    ensures CleanList(r)
  {
    CleanPiecesClean(Split(s, ','));
    CleanPieces(Split(s, ','))
  }

  /** Parsing keeps the input order: the entries before a comma come before
      the entries after it. */
  lemma ParseListConcat(a: string, b: string)
    ensures ParseList(a + "," + b) == ParseList(a) + ParseList(b)
  {
    SplitConcat(a, ',', b);
    CleanPiecesAppend(Split(a, ','), Split(b, ','));
  }

  /** Joining a clean list with commas and parsing it gives the list back
      (the empty list joins to "" and parses to []). */
  lemma ParseJoin(xs: seq<string>)
    requires CleanList(xs)
    ensures ParseList(Join(xs, ',')) == xs
  {
    if |xs| == 0 {
      assert Split("", ',') == [""];
      assert Trim("") == "";
    } else {
      SplitJoin(xs, ',');
      CleanPiecesOfClean(xs);
    }
  }

  /** Parsing is idempotent through a join. */
  lemma ParseJoinParse(s: string)
    ensures ParseList(Join(ParseList(s), ',')) == ParseList(s)
  {
    ParseJoin(ParseList(s));
  }

  // ---------------------------------------------------------------------
  // parseInt and the numeric fallbacks
  // ---------------------------------------------------------------------

  /** `n.toString()` for an integer. */
  function IntToString(n: int): (r: string)
    ensures |r| >= 1
    ensures n >= 0 ==> AllDigits(r)
    ensures n < 0 ==> r[0] == '-' && AllDigits(r[1..])
  {
    if n < 0 then "-" + NatToString(-n) else NatToString(n)
  }

  predicate IsHexDigit(c: char)
  {
    IsDigit(c) || 'a' <= c <= 'f' || 'A' <= c <= 'F'
  }

  function HexDigitValue(c: char): (n: nat)
    requires IsHexDigit(c)
    ensures n < 16
  {
    if IsDigit(c) then DigitValue(c) else if 'a' <= c <= 'f' then c as int - 87 else c as int - 55
  }

  function LeadingHex(s: string): (r: string)
    ensures StartsWith(s, r) && forall i :: 0 <= i < |r| ==> IsHexDigit(r[i])
  {
    if |s| > 0 && IsHexDigit(s[0]) then [s[0]] + LeadingHex(s[1..]) else ""
  }

  function HexValue(s: string): nat
    requires forall i :: 0 <= i < |s| ==> IsHexDigit(s[i])
  {
    if s == [] then 0 else HexValue(s[..|s| - 1]) * 16 + HexDigitValue(s[|s| - 1])
  }

  /** Whether a hexadecimal prefix opens the text. */
  predicate HexPrefixed(s: string)
  {
    StartsWith(s, "0x") || StartsWith(s, "0X")
  }

  /** The digits after the sign: hexadecimal after a `0x`/`0X` prefix,
      decimal otherwise; None when no digit follows. */
  function ParseUnsigned(s: string): (r: Option<nat>)
    ensures r.Some? ==> |s| >= 1 && IsDigit(s[0])
    ensures |s| >= 1 && IsDigit(s[0]) && !HexPrefixed(s) ==> r.Some?
    ensures HexPrefixed(s) && (|s| == 2 || !IsHexDigit(s[2])) ==> r.None?
  {
    if HexPrefixed(s) then
      var h := LeadingHex(s[2..]);
      if h == "" then None else Some(HexValue(h))
    else
      var d := LeadingDigits(s);
      if d == "" then None else Some(DigitsValue(d))
  }

  /** The sign and digits once leading white space is gone: one sign is
      read, and the digits that follow give the value; no digits gives
      NaN (None). */
  function ParseSigned(t: string): (r: Option<int>)
    ensures r.Some? ==> |t| >= 1 && (IsDigit(t[0]) || t[0] == '-' || t[0] == '+')
  {
    var signed := |t| > 0 && (t[0] == '-' || t[0] == '+');
    var u := ParseUnsigned(if signed then t[1..] else t);
    if u.None? then None
    else if signed && t[0] == '-' then Some(-(u.value as int))
    else Some(u.value)
  }

  /** `parseInt(s)` with no radix: leading white space is skipped, then the
      sign and digits are read. */
  function ParseInt(s: string): (r: Option<int>)
    ensures r.Some? ==> var t := TrimStart(s); |t| >= 1 && (IsDigit(t[0]) || t[0] == '-' || t[0] == '+')
  {
    ParseSigned(TrimStart(s))
  }

  lemma TrimStartNoSpace(s: string)
    requires s == [] || !IsSpace(s[0])
    ensures TrimStart(s) == s
  {
  }

  /** A text that opens with a digit is read without a sign. */
  lemma ParseIntUnsigned(s: string)
    requires |s| >= 1 && IsDigit(s[0])
    ensures ParseUnsigned(s).Some? ==> ParseInt(s) == Some(ParseUnsigned(s).value)
  {
    TrimStartNoSpace(s);
    var t := TrimStart(s);
    assert t == s && !(|t| > 0 && (t[0] == '-' || t[0] == '+'));
  }

  /** A run of decimal digits followed by a non-digit reads as its value. */
  lemma {:induction false} ParseUnsignedDigits(d: string, b: string)
    requires |d| >= 1 && AllDigits(d)
    requires b == [] || !IsDigit(b[0])
    requires |d| >= 2 || b == [] || (b[0] != 'x' && b[0] != 'X')
    ensures ParseUnsigned(d + b) == Some(DigitsValue(d))
  {
    var s := d + b;
    assert !HexPrefixed(s) by {
      if |s| >= 2 {
        if |d| >= 2 { assert IsDigit(s[1]); } else { assert s[1] == b[0]; }
      }
    }
    LeadingDigitsOfDigits(d, b);
  }

  /** `parseInt(text) || 0`: NaN and zero both give 0. */
  function StockOf(text: string): (r: int)
    ensures ParseInt(text).None? ==> r == 0
    ensures ParseInt(text).Some? ==> r == ParseInt(text).value
  {
    var n := ParseInt(text);
    if n.Some? && n.value != 0 then n.value else 0
  }

  /** `parseFloat(text) || 0` with the parse given: NaN and zero both give 0. */
  function DiscountOf(parsed: Option<real>): (r: real)
    ensures parsed.None? ==> r == 0.0
    ensures parsed.Some? ==> r == parsed.value
  {
    if parsed.Some? && parsed.value != 0.0 then parsed.value else 0.0
  }

  /** A printed non-negative number reads back as itself. */
  lemma ParseUnsignedNatToString(m: nat)
    ensures ParseUnsigned(NatToString(m)) == Some(m)
  {
    var d := NatToString(m);
    ParseUnsignedDigits(d, []);
    assert d + [] == d;
    DigitsValueNatToString(m);
  }

  /** Reading back a printed integer gives the integer. */
  lemma ParseIntToString(n: int)
    ensures ParseInt(IntToString(n)) == Some(n)
    ensures StockOf(IntToString(n)) == n
  {
    var s := IntToString(n);
    if n < 0 {
      var d := NatToString(-n);
      assert s[1..] == d;
      ParseUnsignedNatToString(-n);
      ParseIntMinus(s, -n);
    } else {
      ParseUnsignedNatToString(n);
      ParseIntUnsigned(s);
    }
  }

  /** A run of decimal digits followed by a non-digit reads as its value,
      both for parseInt and for the stock fallback. */
  lemma StockOfDigits(d: string, b: string)
    requires |d| >= 1 && AllDigits(d)
    requires b == [] || !IsDigit(b[0])
    requires |d| >= 2 || b == [] || (b[0] != 'x' && b[0] != 'X')
    ensures ParseInt(d + b) == Some(DigitsValue(d)) && StockOf(d + b) == DigitsValue(d)
  {
    ParseUnsignedDigits(d, b);
    ParseIntUnsigned(d + b);
  }

  /** The value of two decimal digits. */
  lemma TwoDigitsValue(a: char, b: char)
    requires IsDigit(a) && IsDigit(b)
    ensures DigitsValue([a, b]) == DigitValue(a) * 10 + DigitValue(b)
  {
    assert [a, b][..1] == [a];
    assert [a][..0] == [];
    assert DigitsValue([a]) == DigitValue(a);
  }

  /** A decimal fraction is cut off: stock is truncated to an integer. */
  lemma ParseIntTruncates(d: string, f: string)
    requires |d| >= 1 && AllDigits(d)
    ensures ParseInt(d + "." + f) == Some(DigitsValue(d))
    ensures StockOf(d + "." + f) == DigitsValue(d)
  {
    assert d + "." + f == d + ("." + f);
    StockOfDigits(d, "." + f);
  }

  /** "12.7" reads as 12. */
  lemma ParseIntFractionExample()
    ensures ParseInt("12.7") == Some(12) && StockOf("12.7") == 12
  {
    var d := "12";
    assert d + "." + "7" == "12.7";
    ParseIntTruncates(d, "7");
    TwoDigitsValue('1', '2');
  }

  /** parseInt skips leading white space one character at a time: " -7"
      reads as "-7" does. */
  lemma ParseIntSkipsSpace(s: string)
    requires |s| > 0 && IsSpace(s[0])
    ensures ParseInt(s) == ParseInt(s[1..])
  {
    assert TrimStart(s) == TrimStart(s[1..]);
  }

  /** A minus sign negates the digits that follow it: "-7" reads as minus
      what "7" reads as. */
  lemma ParseIntMinus(t: string, v: nat)
    requires |t| >= 1 && t[0] == '-' && ParseUnsigned(t[1..]) == Some(v)
    ensures ParseInt(t) == Some(-(v as int))
  {
    TrimStartNoSpace(t);
  }

  /** A `0x` prefix reads hexadecimal digits. */
  lemma ParseIntHexExample()
    ensures ParseInt("0x1A") == Some(26)
  {
    TrimStartNoSpace("0x1A");
    assert HexPrefixed("0x1A");
    assert "0x1A"[2..] == "1A";
    assert LeadingHex("1A") == "1A" by {
      assert "1A"[1..] == "A";
      assert "A"[1..] == "";
    }
    assert "1A"[..1] == "1";
    assert HexValue("1") == 1 by { assert "1"[..0] == ""; }
    assert HexValue("1A") == 26;
    assert ParseUnsigned("0x1A") == Some(26);
  }

  /** No digits reads as NaN, which the fallback turns into 0. */
  lemma ParseIntNaNExample()
    ensures ParseInt("abc").None? && StockOf("abc") == 0
  {
    TrimStartNoSpace("abc");
  }

  // ---------------------------------------------------------------------
  // Load and submit
  // ---------------------------------------------------------------------

  /** A stored list as its form text: comma-joined, or the fallback when the
      joined text is empty. */
  function ListText(xs: seq<string>, fallback: string): (r: string)
    ensures xs == [] ==> r == fallback
    ensures |xs| > 0 && CleanList(xs) ==> r == Join(xs, ',')
  {
    var j := Join(xs, ',');
    assert |xs| > 0 && CleanList(xs) ==> j != "" by {
      if |xs| > 0 && CleanList(xs) {
        assert CleanLabel(xs[0]);
        if |xs| > 1 { assert j == xs[0] + [','] + Join(xs[1..], ','); }
      }
    }
    if j != "" then j else fallback
  }

  /** The stored list comes back from its text: a clean non-empty list as
      it was, an empty one as whatever the fallback parses to. */
  lemma ListTextRoundTrip(xs: seq<string>, fallback: string)
    ensures CleanList(xs) && |xs| > 0 ==> ParseList(ListText(xs, fallback)) == xs
    ensures |xs| == 0 ==> ParseList(ListText(xs, fallback)) == ParseList(fallback)
  {
    JoinEmpty(xs, ',');
    if CleanList(xs) && |xs| > 0 {
      ParseJoin(xs);
    }
  }

  /** The form's default sizes text. */
  const DefaultSizesText: string := "S,M,L,XL"

  lemma JoinDefaultSizes()
    ensures Join(DefaultSizes, ',') == DefaultSizesText
  {
    var xs := DefaultSizes;
    assert xs[1..] == ["M", "L", "XL"] && xs[1..][1..] == ["L", "XL"] && xs[1..][1..][1..] == ["XL"];
    assert Join(["XL"], ',') == "XL";
    assert Join(["L", "XL"], ',') == "L,XL";
    assert Join(["M", "L", "XL"], ',') == "M,L,XL";
  }

  /** The default sizes text parses to the schema's default sizes. */
  lemma DefaultSizesParse()
    ensures ParseList(DefaultSizesText) == DefaultSizes
  {
    assert CleanList(DefaultSizes);
    ParseJoin(DefaultSizes);
    JoinDefaultSizes();
  }

  /** The form filled from a stored product; an empty sizes list shows the
      default sizes. */
  function LoadForm(p: Product, priceText: string, discountText: string): (r: FormData)
    ensures r.name == p.name && r.description == p.description && r.category == p.category
    ensures r.image == p.image && r.price == priceText && r.discount == discountText
    ensures StockOf(r.stock) == p.stock
    ensures CleanList(p.sizes) && |p.sizes| > 0 ==> ParseList(r.sizes) == p.sizes
    ensures |p.sizes| == 0 ==> ParseList(r.sizes) == DefaultSizes
    ensures CleanList(p.colors) ==> ParseList(r.colors) == p.colors
  {
    ParseIntToString(p.stock);
    ListTextRoundTrip(p.sizes, DefaultSizesText);
    ListTextRoundTrip(p.colors, "");
    DefaultSizesParse();
    assert ParseList("") == [] by { ParseJoin([]); }
    FormData(p.name, p.description, priceText, discountText, p.category, p.image,
             IntToString(p.stock), ListText(p.sizes, DefaultSizesText), ListText(p.colors, ""))
  }

  /** The request body built from the form, given what parseFloat made of
      the price and discount texts (None for NaN). The discount falls back
      to 0; a NaN price is sent as JSON null, which the body models as an
      absent price. */
  function BuildBody(f: FormData, price: Option<real>, discount: Option<real>): (r: ProductBody)
    ensures r.name == Some(f.name) && r.description == Some(f.description)
    ensures r.category == Some(f.category) && r.image == Some(f.image)
    ensures r.price == price
    ensures r.discount == Some(discount.GetOr(0.0))
    ensures r.stock == Some(ParseInt(f.stock).GetOr(0))
    ensures r.sizes.Some? && CleanList(r.sizes.value) && r.sizes.value == ParseList(f.sizes)
    ensures r.colors.Some? && CleanList(r.colors.value) && r.colors.value == ParseList(f.colors)
  {
    ProductBody(Some(f.name), Some(f.description), price, Some(DiscountOf(discount)), Some(f.category),
                Some(f.image), Some(StockOf(f.stock)), Some(ParseList(f.sizes)), Some(ParseList(f.colors)))
  }

  /** Which call a submit makes: update in edit mode, create otherwise. */
  datatype SaveCall = CreateCall(body: ProductBody) | UpdateCall(id: string, body: ProductBody)

  /** Edit mode holds exactly when the route carries a non-empty id. */
  function IsEdit(routeId: Option<string>): (r: bool)
    ensures r ==> routeId.Some?
    ensures routeId == Some("") ==> !r
  {
    routeId.Some? && routeId.value != ""
  }

  function SubmitCall(routeId: Option<string>, f: FormData, price: Option<real>, discount: Option<real>)
    : (r: SaveCall)
    ensures r.UpdateCall? <==> IsEdit(routeId)
    ensures r.UpdateCall? ==> r.id == routeId.value
    ensures r.body == BuildBody(f, price, discount)
  {
    if IsEdit(routeId) then UpdateCall(routeId.value, BuildBody(f, price, discount))
    else CreateCall(BuildBody(f, price, discount))
  }

  /** The API's answer to the save. */
  datatype SaveReply = Saved | SaveFailed(message: Option<string>)

  const FailedToSave: string := "Failed to save product"

  /** After a save: back to the product list, or an error on the form. */
  function AfterSave(reply: SaveReply): (r: Either)
    ensures reply.Saved? <==> r.Navigate?
    ensures r.Navigate? ==> r.path == "/admin/products"
    ensures r.ShowError? ==> r.error != ""
    ensures reply.SaveFailed? && reply.message.Some? && reply.message.value != "" ==> r == ShowError(reply.message.value)
  {
    match reply
    case Saved => Navigate("/admin/products")
    case SaveFailed(m) => ShowError(if m.Some? && m.value != "" then m.value else FailedToSave)
  }

  datatype Either = Navigate(path: string) | ShowError(error: string)

  /** Creating from the form stores the schema's stock, sizes and colors:
      what the form says for them is dropped. */
  lemma CreateIgnoresFormLists(store: ProductStore, newId: string, f: FormData,
                               price: Option<real>, discount: Option<real>)
    requires newId !in store
    ensures var r := CreateProduct(store, newId, SubmitCall(None, f, price, discount).body).1;
            r.Ok? ==> r.body.stock == DefaultStock && r.body.sizes == DefaultSizes && r.body.colors == DefaultColors
  {
  }

  /** A new product submitted with the new form's stock of "10" (or any
      other) is stored with stock 0. */
  lemma NewFormStockDropped(store: ProductStore, newId: string, f: FormData, price: real, discount: Option<real>)
    requires newId !in store
    requires f.name != "" && f.description != "" && price != 0.0 && f.category in Categories
    requires f.stock == NewForm.stock
    ensures var r := CreateProduct(store, newId, SubmitCall(None, f, Some(price), discount).body);
            r.1.Ok? && StockOf(f.stock) == 10 && r.1.body.stock == 0
  {
    assert StockOf(f.stock) == 10 by {
      assert f.stock == "10";
      StockTenText();
    }
    FormCreates(store, newId, f, price, discount);
  }

  /** A form with a name, a description, a non-zero price and a known
      category creates a product. */
  lemma FormCreates(store: ProductStore, newId: string, f: FormData, price: real, discount: Option<real>)
    requires newId !in store
    requires f.name != "" && f.description != "" && price != 0.0 && f.category in Categories
    ensures CreateProduct(store, newId, SubmitCall(None, f, Some(price), discount).body).1.Ok?
  {
    var body := SubmitCall(None, f, Some(price), discount).body;
    assert TruthyText(body.name) && TruthyText(body.description) && TruthyNumber(body.price);
    assert TruthyText(body.category) && ValidCategory(body.category.value);
  }

  /** The new form's stock text reads as 10. */
  lemma StockTenText()
    ensures StockOf("10") == 10
  {
    var d := "10";
    StockOfDigits(d, []);
    assert d + [] == d;
    TwoDigitsValue('1', '0');
  }

  /** Writing a stored product's own fields back over it leaves the store
      as it was. */
  lemma UpdateWithOwnFields(store: ProductStore, id: string)
    requires id in store
    ensures var p := store[id];
            UpdateProduct(store, id, ProductBody(Some(p.name), Some(p.description), Some(p.price), Some(p.discount),
                                                 Some(p.category), Some(p.image), Some(p.stock), Some(p.sizes),
                                                 Some(p.colors))).0 == store
  {
    var p := store[id];
    var body := ProductBody(Some(p.name), Some(p.description), Some(p.price), Some(p.discount), Some(p.category),
                            Some(p.image), Some(p.stock), Some(p.sizes), Some(p.colors));
    assert ApplyBody(p, body) == p;
    assert store[id := p] == store;
  }

  /** The body an untouched edit form sends is the stored product's own
      fields. */
  lemma LoadThenBuild(p: Product, priceText: string, discountText: string)
    requires CleanList(p.sizes) && |p.sizes| > 0 && CleanList(p.colors)
    ensures BuildBody(LoadForm(p, priceText, discountText), Some(p.price), Some(p.discount))
            == ProductBody(Some(p.name), Some(p.description), Some(p.price), Some(p.discount), Some(p.category),
                           Some(p.image), Some(p.stock), Some(p.sizes), Some(p.colors))
  {
    var f := LoadForm(p, priceText, discountText);
    var body := BuildBody(f, Some(p.price), Some(p.discount));
    assert body.stock == Some(p.stock);
    assert body.sizes == Some(p.sizes) && body.colors == Some(p.colors);
  }

  /** Opening a product for edit and saving it untouched leaves it as it
      was, given that the price and discount texts parse back to the stored
      numbers and the lists are clean with at least one size. (An empty
      route id is not edit mode: that submit creates instead.) */
  lemma EditRoundTrip(store: ProductStore, id: string, priceText: string, discountText: string)
    requires id != "" && id in store
    requires CleanList(store[id].sizes) && |store[id].sizes| > 0 && CleanList(store[id].colors)
    ensures var p := store[id];
            var call := SubmitCall(Some(id), LoadForm(p, priceText, discountText), Some(p.price), Some(p.discount));
            call.UpdateCall? && UpdateProduct(store, call.id, call.body).0 == store
  {
    var p := store[id];
    EditCall(p, id, priceText, discountText);
    UpdateWithOwnFields(store, id);
  }

  /** In edit mode an untouched form sends the stored product's own fields
      to the route's id. */
  lemma EditCall(p: Product, id: string, priceText: string, discountText: string)
    requires id != ""
    requires CleanList(p.sizes) && |p.sizes| > 0 && CleanList(p.colors)
    ensures SubmitCall(Some(id), LoadForm(p, priceText, discountText), Some(p.price), Some(p.discount))
            == UpdateCall(id, ProductBody(Some(p.name), Some(p.description), Some(p.price), Some(p.discount),
                                          Some(p.category), Some(p.image), Some(p.stock), Some(p.sizes),
                                          Some(p.colors)))
  {
    LoadThenBuild(p, priceText, discountText);
  }

  /** A stored product with no sizes comes back from an untouched edit with
      the default sizes. */
  lemma EditFillsDefaultSizes(store: ProductStore, id: string, priceText: string, discountText: string)
    requires id in store && |store[id].sizes| == 0
    ensures var p := store[id];
            var f := LoadForm(p, priceText, discountText);
            UpdateProduct(store, id, SubmitCall(Some(id), f, Some(p.price), Some(p.discount)).body).1.body.sizes
              == DefaultSizes
  {
  }
}

=== FILE: register.dfy ===
/** The registration page (frontend/src/pages/Register/Register.jsx): the
    redirect target read from the query string, the two password checks and
    their order, the call to the auth context's `register`, where a
    successful registration goes, and the link to the login page. The
    `register` call itself is a parameter: its result is passed in. */
module Register {
  import opened Common

  /** The redirect target: the `redirect` query parameter, or "/" when it is
      missing or empty. */
  function RedirectOf(param: Option<string>): (r: string)
    ensures r != ""
    ensures param.Some? && param.value != "" ==> r == param.value
    ensures param.None? || param.value == "" ==> r == "/"
  {
    if param.Some? && param.value != "" then param.value else "/"
  }

  /** The form's fields. */
  datatype RegisterForm = RegisterForm(
    firstName: string, lastName: string, email: string, password: string, confirmPassword: string)

  const Mismatch: string := "Passwords do not match"
  const TooShort: string := "Password must be at least 6 characters"
  const MinPasswordLength: nat := 6

  /** The client-side checks, in the page's order: the confirmation first,
      then the length. */
  function Validate(f: RegisterForm): (r: Option<string>)
    ensures r.None? <==> f.password == f.confirmPassword && |f.password| >= MinPasswordLength
    ensures f.password != f.confirmPassword ==> r == Some(Mismatch)
    ensures f.password == f.confirmPassword && |f.password| < MinPasswordLength ==> r == Some(TooShort)
  {
    if f.password != f.confirmPassword then Some(Mismatch)
    else if |f.password| < MinPasswordLength then Some(TooShort)
    else None
  }

  /** The arguments `register` is called with. */
  datatype RegisterCall = RegisterCall(firstName: string, lastName: string, email: string, password: string)

  /** What `register` answers. */
  datatype RegisterResult = Success | Failure(error: string)

  /** The page after a submit: the call it made (if any), the error line,
      and where it navigated (if anywhere). */
  datatype Outcome = Outcome(call: Option<RegisterCall>, error: string, navigate: Option<string>)

  /** handleSubmit. A failed check sets its message and calls nothing.
      Otherwise `register` is called with the names, e-mail and password
      (never the confirmation); success goes to "/" followed by the redirect
      target, failure shows the returned error. */
  function HandleSubmit(f: RegisterForm, redirectParam: Option<string>, result: RegisterResult): (r: Outcome)
    ensures r.call.Some? <==> Validate(f).None?
    ensures Validate(f).Some? ==> r == Outcome(None, Validate(f).value, None)
    ensures r.call.Some? ==> r.call.value == RegisterCall(f.firstName, f.lastName, f.email, f.password)
    ensures r.navigate.Some? <==> r.call.Some? && result.Success?
    ensures r.navigate.Some? ==> r.navigate.value == "/" + RedirectOf(redirectParam) && r.error == ""
    ensures r.call.Some? && result.Failure? ==> r.error == result.error
  {
    match Validate(f)
    case Some(e) => Outcome(None, e, None)
    case None =>
      var call := RegisterCall(f.firstName, f.lastName, f.email, f.password);
      match result
      case Success => Outcome(Some(call), "", Some("/" + RedirectOf(redirectParam)))
      case Failure(e) => Outcome(Some(call), e, None)
  }

  /** The browser's constraint validation, which runs before the submit
      handler: every input is `required` (non-empty) and the password
      input has `minLength={6}`. The e-mail input's format check is not
      modelled. */
  predicate BrowserAllows(f: RegisterForm)
  {
    f.firstName != "" && f.lastName != "" && f.email != "" && f.password != "" && f.confirmPassword != ""
    && |f.password| >= MinPasswordLength
  }

  /** A submit as the page runs it: the browser blocks a form that fails its
      constraints (None: the handler does not run); any other form goes to
      handleSubmit, where only the mismatch check can still fail. */
  function PageSubmit(f: RegisterForm, redirectParam: Option<string>, result: RegisterResult): (r: Option<Outcome>)
    ensures r.None? <==> !BrowserAllows(f)
    ensures |f.password| < MinPasswordLength ==> r.None?
    ensures r.Some? ==> r.value == HandleSubmit(f, redirectParam, result)
    ensures r.Some? && r.value.call.None? ==> r.value.error == Mismatch
    ensures r.Some? ==> (r.value.call.Some? <==> f.password == f.confirmPassword)
  {
    if BrowserAllows(f) then Some(HandleSubmit(f, redirectParam, result)) else None
  }

  /** In the page the length message never shows: the browser's minLength
      stops a short password before the handler's own check. */
  lemma LengthMessageUnreachable(f: RegisterForm, redirectParam: Option<string>, result: RegisterResult)
    requires BrowserAllows(f)
    ensures Validate(f) != Some(TooShort)
    ensures HandleSubmit(f, redirectParam, result).call.None? ==> HandleSubmit(f, redirectParam, result).error == Mismatch
  {
  }

  /** Both checks failing reports the mismatch: the confirmation is checked
      first. In the page the browser stops such a form first, as its
      password is too short (see PageSubmit). */
  lemma MismatchReportedFirst(f: RegisterForm, redirectParam: Option<string>, result: RegisterResult)
    requires f.password != f.confirmPassword && |f.password| < MinPasswordLength
    ensures HandleSubmit(f, redirectParam, result).error == Mismatch
    ensures HandleSubmit(f, redirectParam, result).call.None?
  {
  }

  /** The handler refuses matching passwords of five characters for
      length; in the page the browser's minLength stops them first. */
  lemma FiveCharactersRefused(f: RegisterForm, redirectParam: Option<string>, result: RegisterResult)
    requires f.password == f.confirmPassword && |f.password| == 5
    ensures HandleSubmit(f, redirectParam, result) == Outcome(None, TooShort, None)
  {
  }

  /** Without a redirect parameter a successful registration navigates to
      "//": the default target "/" gets a second slash in front of it. */
  lemma DefaultRedirectDoubleSlash(f: RegisterForm)
    requires Validate(f).None?
    ensures HandleSubmit(f, None, Success).navigate == Some("//")
  {
    assert "/" + "/" == "//";
  }

  /** With `?redirect=checkout` it navigates to "/checkout". */
  lemma CheckoutRedirect(f: RegisterForm)
    requires Validate(f).None?
    ensures HandleSubmit(f, Some("checkout"), Success).navigate == Some("/checkout")
  {
    assert "/" + "checkout" == "/checkout";
  }

  // ---------------------------------------------------------------------
  // The link to the login page
  // ---------------------------------------------------------------------

  const LoginPath: string := "/login"
  const RedirectQuery: string := "?redirect="

  /** The "Sign in" link: the login path, carrying the redirect target only
      when it is not "/". */
  function LoginLink(redirect: string): (r: string)
    ensures StartsWith(r, LoginPath)
    ensures redirect == "/" ==> r == LoginPath
    ensures redirect != "/" ==> r == LoginPath + RedirectQuery + redirect
  {
    if redirect != "/" then LoginPath + RedirectQuery + redirect else LoginPath
  }

  /** The redirect parameter a link to the login page carries, read back the
      way the login page reads it. */
  function RedirectParamOf(link: string): (r: Option<string>)
    ensures r.Some? <==> StartsWith(link, LoginPath + RedirectQuery)
    ensures r.Some? ==> LoginPath + RedirectQuery + r.value == link
  {
    var prefix := LoginPath + RedirectQuery;
    if StartsWith(link, prefix) then
      assert link == prefix + link[|prefix|..];
      Some(link[|prefix|..])
    else None
  }

  /** The link hands the same target on: reading the redirect parameter back
      from the login link gives the target the registration page had. */
  lemma LoginLinkRoundTrip(redirect: string)
    requires redirect != ""
    ensures RedirectOf(RedirectParamOf(LoginLink(redirect))) == redirect
  {
    var prefix := LoginPath + RedirectQuery;
    if redirect != "/" {
      var link := prefix + redirect;
      assert link[..|prefix|] == prefix;
      assert link[|prefix|..] == redirect;
    } else {
      assert !StartsWith(LoginPath, prefix);
    }
  }

  /** Any target the page can have survives the round trip, whatever the
      query string held. */
  lemma LoginLinkKeepsTarget(param: Option<string>)
    ensures RedirectOf(RedirectParamOf(LoginLink(RedirectOf(param)))) == RedirectOf(param)
  {
    LoginLinkRoundTrip(RedirectOf(param));
  }
}

=== FILE: upload.dfy ===
/** The image-upload middleware (backend/src/middleware/uploadMiddleware.js):
    the file-type check that accepts or rejects an upload, and the name the
    stored file gets. `path.extname` is modelled on POSIX paths; the clock
    reading `Date.now()` is a parameter. */
module Upload {
  import opened Common

  // ---------------------------------------------------------------------
  // path.extname
  // ---------------------------------------------------------------------

  /** The position of the last `c` in `s`, if any. */
  function LastIndexOf(s: string, c: char): (r: Option<nat>)
    ensures r.None? <==> c !in s
    ensures r.Some? ==> r.value < |s| && s[r.value] == c && c !in s[r.value + 1..]
  {
    if s == [] then None
    else if s[|s| - 1] == c then Some(|s| - 1)
    else
      var r := LastIndexOf(s[..|s| - 1], c);
      assert s == s[..|s| - 1] + [s[|s| - 1]];
      r
  }

  /** The path without its trailing slashes. */
  function StripTrailingSlashes(s: string): (r: string)
    ensures |r| <= |s| && r == s[..|r|]
    ensures r == [] || r[|r| - 1] != '/'
    ensures forall i :: |r| <= i < |s| ==> s[i] == '/'
  {
    if s != [] && s[|s| - 1] == '/' then StripTrailingSlashes(s[..|s| - 1]) else s
  }

  /** The last path component: what follows the last slash once trailing
      slashes are gone. */
  function Basename(s: string): (r: string)
    ensures '/' !in r
    ensures '/' !in s ==> r == s
  {
    var t := StripTrailingSlashes(s);
    match LastIndexOf(t, '/')
    case None =>
      assert '/' !in s ==> t == s;
      t
    case Some(i) => t[i + 1..]
  }

  /** The extension of one path component: from its last dot on, except
      that a leading dot (".png", a hidden file) and the component ".."
      have none. */
  function DotExtension(b: string): (r: string)
  {
    if b == ".." then ""
    else
      match LastIndexOf(b, '.')
      case None => ""
      case Some(i) => if i == 0 then "" else b[i..]
  }

  /** What an extension looks like: empty, or a dot followed by no other dot
      and no slash. */
  predicate ExtensionShape(e: string)
  {
    e == "" || (e[0] == '.' && '.' !in e[1..] && '/' !in e)
  }

  /** The extension of a component is shaped like one and ends it, after a
      non-empty stem. */
  lemma DotExtensionEnds(b: string)
    requires '/' !in b
    ensures ExtensionShape(DotExtension(b))
    ensures var r := DotExtension(b); r != "" ==> |r| < |b| && b == b[..|b| - |r|] + r
  {
    if b != ".." {
      match LastIndexOf(b, '.')
      case None =>
      case Some(i) =>
        if i != 0 {
          var r := b[i..];
          assert r[0] == '.' && r[1..] == b[i + 1..];
          assert '/' !in r by {
            forall k | 0 <= k < |r| ensures r[k] != '/' { assert r[k] == b[i + k]; }
          }
          assert b == b[..i] + r;
        }
    }
  }

  /** `path.extname(s)`. */
  function Extname(s: string): (r: string)
    ensures ExtensionShape(r)
    ensures r != "" ==> |r| < |Basename(s)| && Basename(s) == Basename(s)[..|Basename(s)| - |r|] + r
  {
    var b := Basename(s);
    DotExtensionEnds(b);
    DotExtension(b)
  }

  /** A stem with no dot and no slash followed by an extension-shaped suffix
      has exactly that suffix as its extension. */
  lemma ExtnameOfStem(stem: string, e: string)
    requires stem != [] && '.' !in stem && '/' !in stem
    requires ExtensionShape(e)
    ensures Extname(stem + e) == e
  {
    var s := stem + e;
    assert '/' !in s by {
      forall i | 0 <= i < |s| ensures s[i] != '/' {
        if i < |stem| { assert s[i] == stem[i]; } else { assert s[i] == e[i - |stem|]; }
      }
    }
    assert Basename(s) == s;
    if e == "" {
      assert s == stem;
    } else {
      assert s[|stem|] == '.' && s[|stem| + 1..] == e[1..];
      assert s != ".." by { assert s[0] == stem[0]; }
    }
  }

  // ---------------------------------------------------------------------
  // The stored file's name
  // ---------------------------------------------------------------------

  /** The name the disk storage gives an upload: the form field's name, a
      dash, the clock reading in milliseconds, then the original file's
      extension. */
  function StoredName(fieldname: string, now: nat, originalname: string): (r: string)
    ensures StartsWith(r, fieldname + "-")
    ensures r == fieldname + "-" + NatToString(now) + Extname(originalname)
  {
    fieldname + "-" + NatToString(now) + Extname(originalname)
  }

  /** The stored name can be read back: the field name, the clock reading,
      and the original extension, provided the field name holds no dot and
      no slash. */
  lemma StoredNameReadBack(fieldname: string, now: nat, originalname: string)
    requires '.' !in fieldname && '/' !in fieldname
    ensures var r := StoredName(fieldname, now, originalname);
            var digits := r[|fieldname| + 1..|r| - |Extname(originalname)|];
            AllDigits(digits) && DigitsValue(digits) == now
            && Extname(r) == Extname(originalname)
  {
    var d := NatToString(now);
    var e := Extname(originalname);
    var stem := fieldname + "-" + d;
    assert '.' !in d && '/' !in d by {
      forall i | 0 <= i < |d| ensures d[i] != '.' && d[i] != '/' { assert IsDigit(d[i]); }
    }
    assert '.' !in stem && '/' !in stem;
    ExtnameOfStem(stem, e);
    var r := stem + e;
    assert r == StoredName(fieldname, now, originalname);
    assert r[|fieldname| + 1..|r| - |e|] == d;
    DigitsValueNatToString(now);
  }

  // ---------------------------------------------------------------------
  // checkFileType
  // ---------------------------------------------------------------------

  /** The upload as the middleware sees it. */
  datatype UploadFile = UploadFile(fieldname: string, originalname: string, mimetype: string)

  /** The filter's verdict: accepted, or the error the upload fails with. */
  datatype Verdict = Accepted | Rejected(error: string)

  const ImagesOnly: string := "Images only! (jpg, jpeg, png)"

  /** The pattern jpg|jpeg|png, unanchored: the text contains one of the
      three words anywhere. */
  function ImageType(t: string): (r: bool)
    ensures r ==> |t| >= 3
    ensures r ==> 'p' in t
  {
    assert |t| < 3 ==> !Contains(t, "jpg") && !Contains(t, "jpeg") && !Contains(t, "png") by {
      if |t| < 3 { ShortNotContains(t, "jpg"); ShortNotContains(t, "jpeg"); ShortNotContains(t, "png"); }
    }
    ContainsHasChar(t, "jpg", 'p');
    ContainsHasChar(t, "jpeg", 'p');
    ContainsHasChar(t, "png", 'p');
    Contains(t, "jpg") || Contains(t, "jpeg") || Contains(t, "png")
  }

  /** A text without a lower-case 'j' or 'p' cannot match the pattern. */
  lemma NoImageLetters(t: string)
    requires 'j' !in t && 'p' !in t
    ensures !ImageType(t)
  {
    NoFirstChar(t, "jpg");
    NoFirstChar(t, "jpeg");
    NoFirstChar(t, "png");
  }

  /** A text that lacks the first character of `w` does not contain `w`. */
  lemma {:induction false} NoFirstChar(s: string, w: string)
    requires |w| > 0 && w[0] !in s
    ensures !Contains(s, w)
    decreases |s|
  {
    if |s| > 0 {
      assert s[0] != w[0];
      assert forall c :: c in s[1..] ==> c in s;
      NoFirstChar(s[1..], w);
    }
  }

  /** A text containing `w` contains every character of `w`. */
  lemma {:induction false} ContainsHasChar(s: string, w: string, c: char)
    ensures Contains(s, w) && c in w ==> c in s
    decreases |s|
  {
    if Contains(s, w) && c in w {
      if StartsWith(s, w) {
        assert s[..|w|] == w;
      } else {
        ContainsHasChar(s[1..], w, c);
        assert forall x :: x in s[1..] ==> x in s;
      }
    }
  }

  /** checkFileType: accepted exactly when the lower-cased extension and
      the mimetype as sent both match the pattern; the mimetype is not
      lower-cased. */
  function CheckFileType(f: UploadFile): (r: Verdict)
    ensures r.Accepted? <==> ImageType(ToLower(Extname(f.originalname))) && ImageType(f.mimetype)
    ensures r.Rejected? ==> r.error == ImagesOnly
    ensures !ImageType(f.mimetype) ==> r.Rejected?
    ensures Extname(f.originalname) == "" ==> r.Rejected?
  {
    var e := ToLower(Extname(f.originalname));
    assert e == "" ==> !ImageType(e) by {
      if e == "" { ShortNotContains(e, "jpg"); ShortNotContains(e, "jpeg"); ShortNotContains(e, "png"); }
    }
    if ImageType(e) && ImageType(f.mimetype) then Accepted else Rejected(ImagesOnly)
  }

  /** An accepted upload is stored under a name whose extension, lower-cased,
      still matches the pattern. */
  lemma AcceptedStoredAsImage(f: UploadFile, now: nat)
    requires '.' !in f.fieldname && '/' !in f.fieldname
    ensures CheckFileType(f).Accepted? ==> ImageType(ToLower(Extname(StoredName(f.fieldname, now, f.originalname))))
  {
    StoredNameReadBack(f.fieldname, now, f.originalname);
  }

  /** "image/png" matches the pattern. */
  lemma PngMimetype()
    ensures ImageType("image/png")
  {
    var m := "image/png";
    assert m[6..9] == "png";
    ContainsAt(m, "png", 6);
  }

  /** A dot followed by "png" in any case lower-cases to a match. */
  lemma PngExtension(e: string)
    requires |e| == 4 && e[0] == '.' && LowerChar(e[1]) == 'p' && LowerChar(e[2]) == 'n' && LowerChar(e[3]) == 'g'
    ensures ToLower(e) == ".png" && ImageType(ToLower(e))
  {
    var l := ToLower(e);
    assert l[0] == '.' && l[1] == 'p' && l[2] == 'n' && l[3] == 'g';
    assert l[1..4] == "png";
    ContainsAt(l, "png", 1);
  }

  /** A file named by a plain stem and an extension is accepted when the
      extension, lower-cased, and the mimetype both match the pattern. */
  lemma AcceptedByParts(f: UploadFile, stem: string, e: string)
    requires stem != [] && '.' !in stem && '/' !in stem && ExtensionShape(e)
    requires f.originalname == stem + e
    requires ImageType(ToLower(e)) && ImageType(f.mimetype)
    ensures CheckFileType(f).Accepted?
  {
    ExtnameOfStem(stem, e);
  }

  /** The extension's case does not matter: a file such as "photo.PNG"
      sent as image/png is accepted. */
  lemma UpperExtensionAccepted(field: string, stem: string)
    requires stem != [] && '.' !in stem && '/' !in stem
    ensures CheckFileType(UploadFile(field, stem + ".PNG", "image/png")).Accepted?
  {
    var e := ".PNG";
    assert ExtensionShape(e) by { assert e[1..] == "PNG"; }
    PngExtension(e);
    PngMimetype();
    AcceptedByParts(UploadFile(field, stem + e, "image/png"), stem, e);
  }

  /** The mimetype's case does: "photo.png" sent as image/PNG is rejected. */
  lemma UpperMimetypeRejected()
    ensures CheckFileType(UploadFile("image", "photo.png", "image/PNG")) == Rejected(ImagesOnly)
  {
    NoImageLetters("image/PNG");
  }

  /** Any text whose characters 1 to 3 are "png" matches the pattern. */
  lemma PngAtOne(l: string)
    requires |l| >= 4 && l[1] == 'p' && l[2] == 'n' && l[3] == 'g'
    ensures ImageType(l)
  {
    assert l[1..4] == "png";
    ContainsAt(l, "png", 1);
  }

  /** The test is unanchored: an extension that merely contains "png", as
      in "photo.pngx", passes. */
  lemma ContainedExtensionAccepted(field: string, stem: string)
    requires stem != [] && '.' !in stem && '/' !in stem
    ensures CheckFileType(UploadFile(field, stem + ".pngx", "image/png")).Accepted?
  {
    var e := ".pngx";
    assert ExtensionShape(e) by { assert e[1..] == "pngx"; }
    var l := ToLower(e);
    assert l[1] == 'p' && l[2] == 'n' && l[3] == 'g';
    PngAtOne(l);
    PngMimetype();
    AcceptedByParts(UploadFile(field, stem + e, "image/png"), stem, e);
  }

  /** A hidden file such as ".png" has no extension and is rejected,
      whatever its mimetype. */
  lemma HiddenFileRejected(f: UploadFile)
    requires |f.originalname| > 0 && f.originalname[0] == '.'
    requires '.' !in f.originalname[1..] && '/' !in f.originalname
    ensures CheckFileType(f) == Rejected(ImagesOnly)
  {
    var b := f.originalname;
    assert Basename(b) == b;
    match LastIndexOf(b, '.')
    case None =>
    case Some(i) =>
      assert i == 0 by {
        assert forall k :: 1 <= k < |b| ==> b[k] == b[1..][k - 1];
      }
  }
}
